=== FILE: README.md ===
# psstats core units in Dafny

This project models the self-contained logic units of the psstats WordPress
plugin and of the analytics application bundled with it. Each PHP file of the
core becomes one Dafny module:

- **RestApi**: the REST bridge. It covers the camelCase to snake_case tokenizer,
  how a route's HTTP method and path are derived from an API method name, the
  parameter rewriting before dispatch, and the error code of a failed call.
- **Paths**: the upload-directory joins, the relative path from the bundled app
  to a target directory, and the choice of the temporary directory.
- **IPv4Address**: anonymising an address by zeroing trailing bytes.
- **Logger**: the log level, the WP_DEBUG gate, the week-filtered error list
  capped at six entries, and the readable stack trace.
- **CliOutput**: the file-backed output buffer of a CLI sub-process.
- **StaticContainer**: the stack of containers and the list of definitions.
- **SyncConfig**: copying the network-wide configuration option into a site's
  config and tracking whether anything changed. Also reading and writing
  single values.
- **SystemReport**: the report-page aggregation. This covers the error and
  warning flags, the prepended "Errors" table, the file check row, the log rows,
  the diagnostic rows, and parsing and classifying the database grants.
- **TagManager**: the "Psstats configuration" variable. This covers the URL
  scheme rewrite, the idSite validation, the list validators and transforms, and
  the length limits.
- **GeolocationSettings**, **AdvancedSettings**: the licence-key validation
  and the proxy-header whitelist of two admin pages.
- **Tour**, **Feedback**, **ConfigInformational**, **CronArchivingCheck**,
  **MarketplaceMode**, **CustomDimensionsScope**: challenge skipping, the
  feedback mail, the plugin partition of a diagnostic, the cron-archiving
  diagnostic, the marketplace mode and the custom-dimension scope check.

Two helper modules support the rest:

- **Wrappers**: `Option`, `Result` and the validator `Outcome`.
- **Text**: PHP string primitives. These are `trim`, `strpos`/`stripos`,
  `str_replace`, `explode`, `implode` and the ASCII case maps.

How outside state is represented:

- Everything outside the code is a parameter: the clock (`now` as seconds),
  translation, `Filesystem::isValidFilename`, the WordPress
  checks, and the request.
- Objects whose fields the PHP updates in place are classes with `modifies`
  frames. Examples are the output buffer with its file store, the container
  registry, the site config, the admin pages, the error log and the Tour API.
- PHP `empty()` on a string is `PhpEmpty(s)`, which is `s == "" || s == "0"`.

## Model

| member | source | states |
|---|---|---|
| MarketplaceMode.GetMode | app/plugins/Marketplace/Input/Mode.php:18-27 | the mode is always "user" or "admin"; it is "user" exactly when "user" was requested, and a requested "user" or "admin" is kept |
| MarketplaceMode.GetModeIdempotent | app/plugins/Marketplace/Input/Mode.php:18-27 | feeding the result back in gives the same mode |
| CustomDimensionsScope.Scope.Check | app/plugins/CustomDimensions/Dimension/Scope.php:24-34 | passes exactly when the scope is non-empty and one of the available scopes; otherwise it fails with the "Invalid value" message listing the scopes |
| CustomDimensionsScope.EmptyScopeRefused | app/plugins/CustomDimensions/Dimension/Scope.php:26-32 | null, "" and "0" are refused whatever scopes are available |
| CustomDimensionsScope.UnknownScopeMessage | app/plugins/CustomDimensions/Dimension/Scope.php:28-32 | an unknown scope fails with the exact message, which names it and lists "visit, action, conversion" |
| IPv4Address.ClearedCount | app/vendor/psstats/network/src/IPv4.php:34-37 | the number of zeroed bytes is the byte count clamped to 0..length |
| IPv4Address.AnonymizeBytes | app/vendor/psstats/network/src/IPv4.php:30-44 | the result has the input's length; the leading bytes are unchanged and the last ClearedCount bytes are 0 |
| IPv4Address.AnonymizeCompose | app/vendor/psstats/network/src/IPv4.php:30-44 | anonymising by a and then by b equals anonymising by max(a, b), so repeating a count changes nothing |
| IPv4Address.AnonymizeExtremes | app/vendor/psstats/network/src/IPv4.php:34-39 | a count of 0 or less keeps the address; a count of at least the length zeroes every byte |
| IPv4Address.IPv4.ToIPv4String | app/vendor/psstats/network/src/IPv4.php:22-25 | the text is the address's own string form |
| IPv4Address.IPv4.Anonymize | app/vendor/psstats/network/src/IPv4.php:30-44 | returns a fresh address holding the anonymised bytes and leaves the receiver alone |
| Logger.LogLevel | classes/WpPsstats/Logger.php:23-33 | DEBUG when PSSTATS_DEBUG is truthy, NONE when it is defined and falsy, INFO when it is undefined |
| Logger.LogLine | classes/WpPsstats/Logger.php:35-49 | a line is written exactly when the level is at most the mode and WP_DEBUG is true; the line is the prefixed message |
| Logger.LogGate | classes/WpPsstats/Logger.php:35-49 | with PSSTATS_DEBUG false nothing below NONE is written; by default debug is silent and info is written; without WP_DEBUG nothing is written |
| Logger.KeepRecent | classes/WpPsstats/Logger.php:79-85 | keeps only entries with a non-empty numeric time at most 604800 seconds old |
| Logger.KeepRecentMembers | classes/WpPsstats/Logger.php:79-85 | an entry is kept exactly when it is in the list and recent |
| Logger.KeepRecentIdempotent | classes/WpPsstats/Logger.php:71-87 | filtering twice is filtering once |
| Logger.KeepRecentAppend | classes/WpPsstats/Logger.php:79-85 | the filter keeps order: filtering a concatenation concatenates the filtered parts |
| Logger.LastN | classes/WpPsstats/Logger.php:63 | the result is the last min(n, length) elements |
| Logger.ErrorLog.LastLoggedEntries | classes/WpPsstats/Logger.php:71-87 | only recent entries are returned; none without a stored option; every stored recent entry is returned |
| Logger.ErrorLog.Clear | classes/WpPsstats/Logger.php:51-53 | removes the option, after which no entries are returned at any time |
| Logger.ErrorLog.Persist | classes/WpPsstats/Logger.php:55-65 | stores the last six of the recent entries plus the new one; the list holds 1 to 6 entries and ends with the new entry |
| Logger.PersistThenRead | classes/WpPsstats/Logger.php:55-87 | reading right after a write returns exactly what was stored |
| Logger.GetReadableTrace | classes/WpPsstats/Logger.php:89-104 | the trace is the exception's location followed by the location of every frame that has a file, trimmed; the frame count is not capped |
| Logger.TraceTextNoFiles | classes/WpPsstats/Logger.php:95-101 | frames without a file add nothing |
| Logger.ErrorLog.LogException | classes/WpPsstats/Logger.php:106-111 | persists the message, " => " and the readable trace under the key |
| CliOutput.Output.Create | app/core/CliMulti/Output.php:20-31 | an invalid id is refused with its message and touches nothing; otherwise the directory exists and the path is tmpPath + "/" + id + ".output" |
| CliOutput.ShownContent | app/core/CliMulti/Output.php:60-70 | content whose trimmed form starts with the PHP shebang loses the shebang and is trimmed; other content is returned unchanged |
| CliOutput.ShebangStripped | app/core/CliMulti/Output.php:63-68 | a body written after the shebang line is read back exactly |
| CliOutput.Output.GetOutputId | app/core/CliMulti/Output.php:33-36 | returns the id the output was created with |
| CliOutput.Output.GetPathToFile | app/core/CliMulti/Output.php:43-46 | returns the file the output is kept in, which Create names after the id |
| CliOutput.Output.Write | app/core/CliMulti/Output.php:38-53 | overwrites the file, so `get` then returns what was written as shown, and the output is abnormal exactly when the content holds at least 100 MiB |
| CliOutput.Output.Get | app/core/CliMulti/Output.php:60-70 | nothing exactly when the file is missing; the stored content when it has no shebang |
| CliOutput.Output.Exists | app/core/CliMulti/Output.php:55-58 | true exactly when the file is on disk |
| CliOutput.Output.IsAbnormal | app/core/CliMulti/Output.php:48-53 | a missing file, which has no size, is never abnormal |
| CliOutput.Output.Destroy | app/core/CliMulti/Output.php:72-75 | removes only this file; afterwards it does not exist, is not abnormal and reads as nothing; destroying a missing file changes nothing |
| StaticContainer.Registry.GetContainer | app/core/Container/StaticContainer.php:38-45 | fails with the no-root-container error on an empty stack, otherwise returns the top |
| StaticContainer.Registry.Push | app/core/Container/StaticContainer.php:57-60 | the container becomes the top and the definitions are untouched |
| StaticContainer.Registry.Pop | app/core/Container/StaticContainer.php:62-65 | drops the top, leaves an empty stack empty, and keeps the definitions |
| StaticContainer.Registry.ClearContainer | app/core/Container/StaticContainer.php:47-50 | behaves exactly like Pop |
| StaticContainer.Registry.AddDefinitions | app/core/Container/StaticContainer.php:67-70 | appends the definitions and keeps the stack |
| StaticContainer.Registry.GetDefinitions | app/core/Container/StaticContainer.php:84-87 | every added definitions array, in the order added |
| StaticContainer.Registry.Get | app/core/Container/StaticContainer.php:79-82 | asks the top container and fails on an empty stack |
| StaticContainer.PushPopRestores | app/core/Container/StaticContainer.php:57-65 | push then pop restores the stack, the current container and the definitions |
| SyncConfig.Synced | classes/WpPsstats/Site/Sync/SyncConfig.php:44-65 | a category with options gets them merged over its values; a category with an empty option set is cleared; categories without options are unchanged |
| SyncConfig.SyncConfig.SyncConfigForCurrentSite | classes/WpPsstats/Site/Sync/SyncConfig.php:40-71 | outside network mode nothing changes; in network mode the config becomes Synced and is saved exactly when something changed |
| SyncConfig.SyncConfig.SyncSections | classes/WpPsstats/Site/Sync/SyncConfig.php:44-66 | the loop over categories computes Synced and reports whether some key was missing or different or a category was cleared |
| SyncConfig.SyncConfig.MergeCategory | classes/WpPsstats/Site/Sync/SyncConfig.php:57-65 | merges one category's options, writing the category back exactly when a key differed |
| SyncConfig.SaveIffChanged | classes/WpPsstats/Site/Sync/SyncConfig.php:44-69 | a save is needed exactly when the synced config differs from the old one |
| SyncConfig.SyncIdempotent | classes/WpPsstats/Site/Sync/SyncConfig.php:40-71 | a second sync changes nothing and needs no save |
| SyncConfig.SyncConfig.GetAll | classes/WpPsstats/Site/Sync/SyncConfig.php:73-82 | the network option, or no categories when it is empty or not an array |
| SyncConfig.SyncConfig.GetConfigValue | classes/WpPsstats/Site/Sync/SyncConfig.php:84-99 | reads the network option in network mode and the config file otherwise |
| SyncConfig.SyncConfig.SetConfigValue | classes/WpPsstats/Site/Sync/SyncConfig.php:101-128 | in network mode, or outside safe mode, the value is set and reads back; in safe mode outside network mode nothing changes; no other value changes |
| SystemReport.HasOnlyWarningsNoError | classes/WpPsstats/Admin/SystemReport.php:235-250 | true exactly when some row is a warning and no row is an error |
| SystemReport.ErrorsFirst | classes/WpPsstats/Admin/SystemReport.php:252-271 | without error rows the tables are unchanged; otherwise an "Errors" table holding exactly the error rows comes first, followed by the original tables |
| SystemReport.AddErrorsFirst | classes/WpPsstats/Admin/SystemReport.php:252-271 | the nested loops compute ErrorsFirst |
| SystemReport.ErrorRowsMembers | classes/WpPsstats/Admin/SystemReport.php:258-264 | the collected rows are exactly the error rows of the tables |
| SystemReport.ErrorRowsEmpty | classes/WpPsstats/Admin/SystemReport.php:266-268 | there is something to prepend exactly when some row is an error |
| SystemReport.ErrorsFirstKeepsVerdict | classes/WpPsstats/Admin/SystemReport.php:235-271 | prepending the errors does not change the has-error or only-warnings verdict |
| SystemReport.FileCheckRow | classes/WpPsstats/Admin/SystemReport.php:273-297 | the value is "Yes" exactly when the file exists and is readable and writable; the error and warning flags follow `required`; the comment lists each failure after the quoted path |
| SystemReport.CheckFileExistsAndWritable | classes/WpPsstats/Admin/SystemReport.php:273-297 | exactly one row is appended and the earlier rows are kept |
| SystemReport.FileCheckFlags | classes/WpPsstats/Admin/SystemReport.php:292-293 | the row is never both error and warning, and a missing write permission alone raises neither |
| SystemReport.ConvertTimeToDate | classes/WpPsstats/Admin/SystemReport.php:771-788 | an empty time gives "Unknown"; any other time is formatted |
| SystemReport.LogRow | classes/WpPsstats/Admin/SystemReport.php:659-677 | a warning exactly when the name contains "archiv" in any case and is not "archive_boot"; an error exactly for a plugin_update with updates outstanding; the comment notice depends on the same test |
| SystemReport.LogRowsShown | classes/WpPsstats/Admin/SystemReport.php:646-678 | every entry that is not skipped has its row, and every row comes from such an entry |
| SystemReport.AddLogRows | classes/WpPsstats/Admin/SystemReport.php:644-700 | the loop appends LogRows of the entries, and an empty log appends the single "None" row |
| SystemReport.FirstCronSyncHidden | classes/WpPsstats/Admin/SystemReport.php:647-656 | a cron_sync entry less than 300 seconds after installation is skipped; a later one is shown |
| SystemReport.ShortComment | classes/WpPsstats/Admin/SystemReport.php:797-807 | a comment with "core:archive" after its start is cut before it and back to the last '.', or replaced by the fixed text when there is no '.'; other comments are kept |
| SystemReport.CutAtLastDot | classes/WpPsstats/Admin/SystemReport.php:801-804 | the cut keeps a prefix of the comment ending just before its last '.' |
| SystemReport.ResultComment | classes/WpPsstats/Admin/SystemReport.php:792-810 | an OK result has no comment; any other result collects its items' comments |
| SystemReport.DiagnosticRow | classes/WpPsstats/Admin/SystemReport.php:812-819 | the row's label, value and comment come from the result; the warning and error flags mirror the status |
| SystemReport.AddDiagnosticResults | classes/WpPsstats/Admin/SystemReport.php:790-822 | one row per result, in order, after the given rows |
| SystemReport.StripKeywordsRemovesAll | classes/WpPsstats/Admin/SystemReport.php:1320-1329 | with the intended cuts, none of " ON ", " TO ", " IDENTIFIED ", " BY " survives in the kept text, so no object, user or password is shown |
| SystemReport.StripKeywordsSlice | classes/WpPsstats/Admin/SystemReport.php:1320-1329 | the kept text is a contiguous piece of the grant line |
| SystemReport.Unique | classes/WpPsstats/Admin/SystemReport.php:1337 | the same values without repeats, never longer |
| SystemReport.Normalised | classes/WpPsstats/Admin/SystemReport.php:1335-1336 | every piece is trimmed and upper-cased |
| SystemReport.GetDbGrants | classes/WpPsstats/Admin/SystemReport.php:1295-1339 | the loop over the SHOW GRANTS rows computes DbGrants, with the intended cuts (see ## Findings) |
| SystemReport.DbGrantsAsWritten | classes/WpPsstats/Admin/SystemReport.php:1306-1339 | the code as written on one row: a skipped row gives nothing, ALL PRIVILEGES gives exactly that, otherwise the names are the trimmed, upper-cased pieces left by the as-written cuts |
| SystemReport.DbGrantsOneRow | classes/WpPsstats/Admin/SystemReport.php:1306-1339 | with the intended cuts, one row gives nothing when skipped, ALL PRIVILEGES when present, otherwise its normalised pieces |
| SystemReport.AsWrittenFailsToDetect | classes/WpPsstats/Admin/SystemReport.php:1217-1339 | as written, a line granting SELECT yields no recognised grant, so the permissions row says "Failed to detect granted permissions" without a warning; with the intended cuts SELECT is found and the row warns that the nine other needed grants are missing |
| SystemReport.AllPrivilegesWins | classes/WpPsstats/Admin/SystemReport.php:1316-1318 | any row containing "ALL PRIVILEGES" in any case makes the answer exactly ["ALL PRIVILEGES"], with the intended cuts (see ## Findings) |
| SystemReport.SkippedRowIgnored | classes/WpPsstats/Admin/SystemReport.php:1312-1314 | an empty or non-string row contributes nothing wherever it stands, with the intended cuts (see ## Findings) |
| SystemReport.DbGrantsNormalised | classes/WpPsstats/Admin/SystemReport.php:1334-1338 | the answer lists distinct names, trimmed and upper-cased, with the intended cuts (see ## Findings) |
| SystemReport.Missing | classes/WpPsstats/Admin/SystemReport.php:1224 | the needed grants that are not granted, in order |
| SystemReport.MissingEmpty | classes/WpPsstats/Admin/SystemReport.php:1224-1250 | nothing is missing exactly when every needed grant is granted |
| SystemReport.ClassifyGrants | classes/WpPsstats/Admin/SystemReport.php:1217-1251 | ALL PRIVILEGES counts as every needed grant; no grants, or none of the needed ones, is a failure to detect; some missing gives the missing list; otherwise all are granted |
| SystemReport.GrantRow | classes/WpPsstats/Admin/SystemReport.php:1226-1251 | only missing grants make the row a warning, never an error; each verdict has its value and comment |
| SystemReport.AllPrivilegesPass | classes/WpPsstats/Admin/SystemReport.php:1217-1251 | a user holding ALL PRIVILEGES passes without a warning |
| SystemReport.NoGrantsFailure | classes/WpPsstats/Admin/SystemReport.php:1226-1234 | no grant rows at all is a failure to detect, not a warning |
| SystemReport.StripAsWrittenKeepsUser | classes/WpPsstats/Admin/SystemReport.php:1320-1329 | the code as written leaves the object and user of the sample grant in the text |
| SystemReport.StripKeywordsKeepsPrivileges | classes/WpPsstats/Admin/SystemReport.php:1320-1329 | with the intended cuts the sample grant keeps only its privileges |
| TagManager.RewriteHttp | app/plugins/TagManager/Template/Variable/MatomoConfigurationVariable.php:47-52 | an "http://" URL becomes "https://" with HTTPS forced and "//" otherwise |
| TagManager.RewriteHttps | app/plugins/TagManager/Template/Variable/MatomoConfigurationVariable.php:47-52 | an "https://" URL is kept with HTTPS forced and becomes "//" otherwise |
| TagManager.ReplaceAbsent | app/plugins/TagManager/Template/Variable/MatomoConfigurationVariable.php:49-51 | a URL without the needle is left alone by the replacement |
| TagManager.ValidateIdSite | app/plugins/TagManager/Template/Variable/MatomoConfigurationVariable.php:73-84 | a numeric id passes, checked against the site list only when the URL is the default one; a non-numeric value passes exactly when it holds "{{" followed later by "}}", and otherwise fails with the fixed message |
| TagManager.VariableIdSiteAccepted | app/plugins/TagManager/Template/Variable/MatomoConfigurationVariable.php:80-83 | a variable reference is accepted whatever the URL |
| TagManager.CheckLength | app/plugins/TagManager/Template/Variable/MatomoConfigurationVariable.php:72 | idSite, cookieDomain, cookiePath and userId accept 0 to 500 characters; other settings have no limit |
| TagManager.ValidateList | app/plugins/TagManager/Template/Variable/MatomoConfigurationVariable.php:155-162 | an empty value or a list passes; anything else fails with "Value needs to be an array" |
| TagManager.KeptRows | app/plugins/TagManager/Template/Variable/MatomoConfigurationVariable.php:168-175 | the kept rows are exactly the rows with every key filled, never more than the input |
| TagManager.Transform | app/plugins/TagManager/Template/Variable/MatomoConfigurationVariable.php:164-176 | the loop computes the transform: an empty list for an empty or non-list value, the filled rows in order otherwise |
| TagManager.TransformShape | app/plugins/TagManager/Template/Variable/MatomoConfigurationVariable.php:206-218 | the transform never lengthens a list and keeps exactly the filled rows |
| TagManager.TransformIdempotent | app/plugins/TagManager/Template/Variable/MatomoConfigurationVariable.php:164-176 | transforming twice is transforming once |
| TagManager.KeptRowsIdempotent | app/plugins/TagManager/Template/Variable/MatomoConfigurationVariable.php:168-175 | filtering the kept rows again keeps them all |
| TagManager.TransformKeys | app/plugins/TagManager/Template/Variable/MatomoConfigurationVariable.php:164-218 | a domain row needs a non-empty "domain"; a dimension row needs both "index" and "value" |
| GeolocationSettings.StripSlashes | classes/WpPsstats/Admin/GeolocationSettings.php:44 | never lengthens the text and keeps a text without backslashes |
| GeolocationSettings.AcceptedKey | classes/WpPsstats/Admin/GeolocationSettings.php:46-50 | an empty key is stored as ""; a non-empty key is accepted unchanged exactly when it has 7 to 20 characters, all graphic |
| GeolocationSettings.TypicalKeyAccepted | classes/WpPsstats/Admin/GeolocationSettings.php:46-50 | a sixteen-character key of letters and digits is accepted unchanged |
| GeolocationSettings.KeyWithSpaceRejected | classes/WpPsstats/Admin/GeolocationSettings.php:48-50 | a key with a space in it is rejected |
| GeolocationSettings.PaddedKeyCleaned | classes/WpPsstats/Admin/GeolocationSettings.php:44 | surrounding white space is trimmed before the check |
| GeolocationSettings.GeolocationPage.UpdateIfSubmitted | classes/WpPsstats/Admin/GeolocationSettings.php:37-61 | nothing happens without a posted form, a valid nonce and a superuser; a rejected key returns false and changes nothing; an accepted key is stored, the update is scheduled at now + 10, and true is returned |
| GeolocationSettings.GeolocationPage.ShowSettings | classes/WpPsstats/Admin/GeolocationSettings.php:37-69 | reports an invalid format exactly when the update returned false; without a posted form, or with a rejected key, the key and the schedule stay; an accepted key is stored and the update is scheduled at now + 10; the key shown is the stored one |
| AdvancedSettings.ClientHeaders | classes/WpPsstats/Admin/AdvancedSettings.php:87-93 | the header list is empty or holds the one submitted header, exactly when that header is in the whitelist |
| AdvancedSettings.AdvancedPage.ApplySettings | classes/WpPsstats/Admin/AdvancedSettings.php:80-98 | the delete flag follows the form unless the constant is defined; the header list is saved in network mode or outside safe mode, and the stored list stays otherwise |
| AdvancedSettings.RejectedHeaderClears | classes/WpPsstats/Admin/AdvancedSettings.php:90-95 | a header outside the whitelist yields an empty list, which clears the previous one wherever the config is writable |
| AdvancedSettings.HeaderCaseMatters | classes/WpPsstats/Admin/AdvancedSettings.php:87-93 | the whitelist is compared exactly, so a lower-case header name is refused |
| AdvancedSettings.AdvancedPage.UpdateIfSubmitted | classes/WpPsstats/Admin/AdvancedSettings.php:61-74 | applies the settings (header list only where the config is writable) and returns true exactly when the form was posted and every check passed |
| AdvancedSettings.AdvancedPage.ShownHeaders | classes/WpPsstats/Admin/AdvancedSettings.php:100-113 | shows an empty list when nothing is stored and the stored list otherwise |
| AdvancedSettings.SubmitThenShow | classes/WpPsstats/Admin/AdvancedSettings.php:61-113 | after an accepted submission the page shows the submitted header list where the config is writable (network mode or not safe mode) and the previously stored list otherwise |
| Tour.FirstWithId | app/plugins/Tour/API.php:75-86 | the position of the first challenge with the id, or none exactly when no challenge has it |
| Tour.TourApi.GetChallenges | app/plugins/Tour/API.php:44-62 | refused without super-user access; otherwise one entry per challenge, in order, with its six fields |
| Tour.TourApi.SkipChallenge | app/plugins/Tour/API.php:71-87 | only the first challenge with the id is considered: it is marked skipped unless completed; a completed one and a missing id throw their messages and change nothing |
| Tour.TourApi.GetLevel | app/plugins/Tour/API.php:93-105 | refused without super-user access; otherwise exactly the six level values |
| Tour.SkipTwice | app/plugins/Tour/API.php:71-87 | a second skip of the same id succeeds again, and skipping keeps every id and completion flag |
| Feedback.LikeText | app/plugins/Feedback/API.php:41-44 | "Yes" exactly when the like is non-empty, "No" otherwise |
| Feedback.FeedbackPart | app/plugins/Feedback/API.php:48-50 | empty exactly when the message is empty or "undefined"; otherwise it starts "Feedback:\n" |
| Feedback.FeedbackBody | app/plugins/Feedback/API.php:46-52 | starts with the feature and vote lines, followed by the feedback part or a line holding one space |
| Feedback.FeedbackSubject | app/plugins/Feedback/API.php:54-58 | "+1 for " exactly when the like is non-empty, "-1 for " otherwise, then the feature and the feedback marker |
| Feedback.SubjectWithoutFeedback | app/plugins/Feedback/API.php:54-58 | without a message the subject ends in a bare space |
| Feedback.UndefinedIsNoMessage | app/plugins/Feedback/API.php:48 | the message "undefined" gives the same mail as no message |
| Feedback.EnglishFeatureName | app/plugins/Feedback/API.php:80-91 | unchanged for English, otherwise the English text of the translation key |
| Feedback.FramedMail | app/plugins/Feedback/API.php:63-78 | the subject gets the fixed prefix and the body gets the version and referrer lines |
| Feedback.FeedbackApi.SendFeedbackForFeature | app/plugins/Feedback/API.php:34-61 | the two access checks come first and send nothing; otherwise exactly one mail is added |
| Feedback.FeedbackApi.SendMail | app/plugins/Feedback/API.php:63-78 | adds the framed mail to the outbox |
| ConfigInformational.PluginLabel | app/plugins/Diagnostics/Diagnostic/ConfigInformational.php:51-58 | the version is appended exactly when it is non-empty, the plugin can be uninstalled, and test mode is off |
| ConfigInformational.Listed | app/plugins/Diagnostics/Diagnostic/ConfigInformational.php:59-66 | a label is listed exactly when some plugin belonging to the list has it |
| ConfigInformational.ActivatedOrDeactivated | app/plugins/Diagnostics/Diagnostic/ConfigInformational.php:59-63 | every plugin is listed exactly once as activated or deactivated |
| ConfigInformational.InvalidIgnoresActivation | app/plugins/Diagnostics/Diagnostic/ConfigInformational.php:64-66 | the invalid list does not depend on activation |
| ConfigInformational.AddPlugin | app/plugins/Diagnostics/Diagnostic/ConfigInformational.php:50-67 | the plugin's label goes to each list it belongs to |
| ConfigInformational.SettingsResults | app/plugins/Diagnostics/Diagnostic/ConfigInformational.php:37-44 | eight fixed results |
| ConfigInformational.Execute | app/plugins/Diagnostics/Diagnostic/ConfigInformational.php:32-79 | nothing before installation; otherwise the eight settings, the three lists joined with ", ", and the plugin directories row when there are any |
| CronArchivingCheck.CliResult | app/plugins/Diagnostics/Diagnostic/CronArchivingCheck.php:65-79 | OK exactly when asynchronous CLI archiving is supported, informational otherwise |
| CronArchivingCheck.BrowserTriggerWarning | app/plugins/Diagnostics/Diagnostic/CronArchivingCheck.php:43-49 | a warning |
| CronArchivingCheck.RecentArchivingWarning | app/plugins/Diagnostics/Diagnostic/CronArchivingCheck.php:50-61 | a warning |
| CronArchivingCheck.Execute | app/plugins/Diagnostics/Diagnostic/CronArchivingCheck.php:38-82 | one to three results, with the CLI check last and only warnings before it; with browser archiving on an installed system the browser warning comes first, and the recent-archiving warning follows when archiving started within 36 hours |
| CronArchivingCheck.RecentWindow | app/plugins/Diagnostics/Diagnostic/CronArchivingCheck.php:52 | a start exactly 36 hours ago no longer counts, one second later does, and a zero time stamp never does |
| Paths.UploadBaseOneSlash | classes/WpPsstats/Paths.php:32-45 | the base without its trailing slashes, exactly one '/', then the upload directory name |
| Paths.UploadBaseIgnoresTrailingSlashes | classes/WpPsstats/Paths.php:32-45 | any number of trailing slashes on the base gives the same result |
| Paths.FileInUploadDir | classes/WpPsstats/Paths.php:47-53 | the upload base dir, a '/', then the file name |
| Paths.CommonLen | classes/WpPsstats/Paths.php:119-125 | the length of the run of equal, non-"psstats" segments at the same positions |
| Paths.RelativeDirToPsstats | classes/WpPsstats/Paths.php:111-136 | the loop over the target's segments computes RelativeDir of the split paths |
| Paths.RelativeDirShape | classes/WpPsstats/Paths.php:127-135 | the result is one "../" per kept position that the app path also has, then the kept target segments joined with '/' |
| Paths.RelativeDirOfSamePath | classes/WpPsstats/Paths.php:119-135 | identical paths without a "psstats" segment give the empty string |
| Paths.PsstatsSegmentNotCommon | classes/WpPsstats/Paths.php:119-125 | a "psstats" segment is never treated as common |
| Paths.Disk.MakeDir | classes/WpPsstats/Paths.php:90-92 | adds the directory and nothing else |
| Paths.GetTmpDir | classes/WpPsstats/Paths.php:77-109 | the directory is the one TmpDirFor chooses; it is writable unless it is the upload tmp dir |
| Paths.TmpDirChoice | classes/WpPsstats/Paths.php:78-108 | multisite always uses the upload tmp dir; otherwise the cache dir when it is or can be made writable; otherwise the upload tmp dir |
| RestApi.Tokens | classes/WpPsstats/API.php:119 | every token is an upper-case run or a capitalised or lower-case word, as the pattern matches |
| RestApi.MatchLen | classes/WpPsstats/API.php:119 | a match is a non-empty prefix forming one token |
| RestApi.SnakeCaseShape | classes/WpPsstats/API.php:118-132 | the result is the converted tokens joined by '_' and splits back into them |
| RestApi.CapsRunThenWord | classes/WpPsstats/API.php:119 | an upper-case run followed by a capitalised word is one token, then the word's tokens |
| RestApi.LowerWordThenWord | classes/WpPsstats/API.php:119-129 | a lower-case word before a capitalised word is its own token and is kept as it is |
| RestApi.ConvertedTokenIsWord | classes/WpPsstats/API.php:123-129 | every converted token is a lower-case word starting with a letter |
| RestApi.FirstPrefix | classes/WpPsstats/API.php:157-168 | the first table entry whose prefix starts the method name |
| RestApi.RegisterRoute | classes/WpPsstats/API.php:137-181 | the route has the derived verb, the path "/<snake module>/<action>/" and the API namespace |
| RestApi.RouteOfVerbAndWord | classes/WpPsstats/API.php:157-168 | a verb prefix followed by a capitalised word gives that verb and the word's snake case as the action |
| RestApi.RouteOfKeptVerbAndWord | classes/WpPsstats/API.php:151-168 | a kept prefix keeps its word in the action and the route uses POST |
| RestApi.RouteOfBareVerb | classes/WpPsstats/API.php:157-168 | a method name that is only a prefix keeps its name as the action and takes that prefix's verb |
| RestApi.WithSiteIds | classes/WpPsstats/API.php:184-196 | idSite, idsite, idsites and idSites are all set to the site id and every other parameter is kept |
| RestApi.SegmentRewrite | classes/WpPsstats/API.php:206-213 | a segment that is also in the request is dropped; otherwise a non-empty string segment is rewritten; every other parameter is kept |
| RestApi.ErrorCode | classes/WpPsstats/API.php:216-228 | a plain Exception gives "psstats_error", or "psstats_error_psstats_error" when its code is non-zero; another class gives its snake-case name with "piwik" replaced by "psstats" |
| RestApi.ExecuteRequest | classes/WpPsstats/API.php:183-231 | a missing site fails with the site-not-found error and touches nothing; otherwise token_auth is removed from the request and the outcome is mapped |

## Left out

- Translation, `esc_html__`, `sprintf` and `json_encode` are parameters. They are opaque functions; the model does not format dates or durations either (`gmdate`, `get_date_from_gmt`, pretty durations).
- PHP's loose comparisons are plain equality in the model. This covers `!=` in SyncConfig.php:59, the non-strict `in_array` in Mode.php:22, and `empty()` as `PhpEmpty`. A value of another type (an int config value, a non-string scope) is not modelled.
- Logger.KeepRecent: a stored time is an optional integer, so a non-numeric 'value' reads as absent. Numeric strings are not modelled.
- SystemReport: the `$wpdb` queries, `ini_get`, the WordPress plugin list, the HTML output and `psstats_anonymize_value` are outside the model. The anonymiser is a parameter of the log rows.
- SystemReport: the "Cli has no MySQL" rows (SystemReport.php:680-694) are left out because they depend on `supportsAsync` and translated WordPress text.
- Tour: a challenge is reduced to the fields the API reads. The level computation of `Levels` is not part of this model; its six values are given.
- Feedback: mail delivery is an outbox of composed mails. The access checks, `Common::unsanitizeInputValue`, the version and the referrer are parameters.
- AdvancedSettings: where `General.proxy_client_headers` is stored (network option or config file) is modelled by `SyncConfig.SetConfigValue`. The page keeps only whether that write happens (network mode, or not safe mode) and the stored list.
- GeolocationSettings: the admin notice texts are not modelled.
- CustomDimensionsScope: the available scopes (`getScopes`) are a parameter.
- RestApi.ExecuteRequest: `Bootstrap::do_bootstrap` and the dispatched API call are a parameter that yields the call's outcome. A superglobal counts as set exactly when its key is present.
- Paths: `get_gloal_upload_dir_if_possible`, `clear_assets_dir`, `clear_cache_dir` and `uninstall` (Paths.php:138-217) are left out as filesystem I/O over directory listings. The tracker endpoint getters (Paths.php:55-75) are fixed string joins and are not modelled.
- SyncConfig.SyncSections: categories and keys are taken in an arbitrary order, not PHP's insertion order. The result does not depend on the order.
- CronArchivingCheck: `CliMulti::supportsAsync` is a parameter.
- CliOutput: the file system is a map from path to content plus a set of directories. File size is the length of the content.
- Logger.LogLine: the message is a string. An array or object message, which the source writes with `print_r` (classes/WpPsstats/Logger.php:43-44), is not modelled.
- RestApi.ExecuteRequest: every `Threw` outcome is a caught `\Exception`. A PHP `Error`, which `catch (\Exception $e)` (classes/WpPsstats/API.php:218) lets through, is not modelled.
- StaticContainer: a container is reduced to a map from entry name to value. Definition resolution, factories and autowiring of the DI container are not modelled.
- SystemReport.Unique: the contract states the same values without repeats; that `array_unique` keeps the first occurrence of each value in order is what the body does but is not stated.
- SystemReport.DbGrantsAsWritten: the code as written is modelled for a `SHOW GRANTS` result of one row, enough to exhibit the finding below; the full loop is modelled with the intended cuts.
- IPv4: `fromBinaryIP` is the constructor `FromBinary`, which always yields an IPv4 object; the IPv6 choice by length is not modelled. `toString` is a parameter. The byte string may have any length; an IPv4 address has four octets (section 2.3 of RFC 791).

## Findings

| source | as written | input that shows it | evidently intended | confidence | as-written member | corrected member |
|---|---|---|---|---|---|---|
| classes/WpPsstats/Admin/SystemReport.php:1320-1329 | the "GRANT" cut takes `substr($value[0], …)` of the original row, which undoes the " ON "/" TO " cut just made | the grant line "GRANT SELECT ON \`d\`.* TO \`u\`" keeps " SELECT ON \`d\`.* TO \`u\`", so the object and the user stay in the text; the one name reported is "SELECT ON \`D\`.* TO \`U\`", none of the needed grants is recognised, and the permissions row says "Failed to detect granted permissions" instead of warning that the nine grants other than SELECT are missing | cut the already-shortened text, keeping " SELECT" | not executed | SystemReport.AsWrittenFailsToDetect | SystemReport.StripKeywordsRemovesAll, SystemReport.GetDbGrants |

=== FILE: advanced_settings.dfy ===
/** The advanced settings page (classes/WpPsstats/Admin/AdvancedSettings.php):
    the "delete all data on uninstall" flag and the proxy client header. The
    request and the WordPress checks are parameters; the plugin setting and
    the `General.proxy_client_headers` config value are fields of the page.
    The config value is written as `SyncConfig.SetConfigValue` writes it: in
    network mode, or outside it when not in safe mode; otherwise the write
    does nothing. */
module AdvancedSettings {
  import opened Wrappers
  import opened Text

  /** The `$_SERVER` keys a client IP may be read from. */
  const ValidHostHeaders: seq<string> := [
    "HTTP_CLIENT_IP",
    "HTTP_X_REAL_IP",
    "HTTP_X_FORWARDED_FOR",
    "HTTP_X_FORWARDED",
    "HTTP_FORWARDED_FOR",
    "HTTP_FORWARDED",
    "HTTP_CF_CONNECTING_IP",
    "HTTP_TRUE_CLIENT_IP",
    "HTTP_X_CLUSTER_CLIENT_IP"
  ]

  /** The posted `psstats` form fields, by name. */
  type Form = map<string, string>

  /** `!empty($form[$key])`. */
  predicate Filled(form: Form, key: string) {
    key in form && !PhpEmpty(form[key])
  }

  /** The request: the posted form (empty when absent) and the outcome of the
      admin, nonce and superuser checks. */
  datatype Request = Request(form: Form, isAdmin: bool, nonceValid: bool, isSuperuser: bool)

  predicate Submitted(req: Request) {
    req.form != map[] && req.isAdmin && req.nonceValid && req.isSuperuser
  }

  /** The header list `apply_settings` saves: the submitted header when it is
      exactly one of the whitelist, otherwise nothing. */
  function ClientHeaders(form: Form): (r: seq<string>)
    ensures r == [] || (|r| == 1 && r[0] in ValidHostHeaders)
    ensures r != [] <==> Filled(form, "proxy_client_header") && form["proxy_client_header"] in ValidHostHeaders
    ensures r != [] ==> r == [form["proxy_client_header"]]
  {
    if Filled(form, "proxy_client_header") && form["proxy_client_header"] in ValidHostHeaders
    then [form["proxy_client_header"]]
    else []
  }

  class AdvancedPage {
    /** Whether the PSSTATS_REMOVE_ALL_DATA constant is defined. */
    const removeAllDataDefined: bool
    /** Whether the plugin runs network-wide, and whether it is in safe mode. */
    const networkEnabled: bool
    const safeMode: bool
    /** The plugin setting `delete_all_data_uninstall`. */
    var deleteAllData: bool
    /** `General.proxy_client_headers`; None while it was never set. */
    var proxyClientHeaders: Option<seq<string>>

    constructor (removeAllDataDefined: bool, networkEnabled: bool, safeMode: bool,
                 deleteAllData: bool, proxyClientHeaders: Option<seq<string>>)
      ensures this.removeAllDataDefined == removeAllDataDefined
      ensures this.networkEnabled == networkEnabled && this.safeMode == safeMode
      ensures this.deleteAllData == deleteAllData && this.proxyClientHeaders == proxyClientHeaders
    {
      this.removeAllDataDefined := removeAllDataDefined;
      this.networkEnabled := networkEnabled;
      this.safeMode := safeMode;
      this.deleteAllData := deleteAllData;
      this.proxyClientHeaders := proxyClientHeaders;
    }

    /** Whether `set_config_value` writes at all: in network mode, or outside
        it when not in safe mode. */
    predicate ConfigWritable()
      reads this
    {
      networkEnabled || !safeMode
    }

    /** `apply_settings`: the flag follows the form unless the constant
        decides it; the header list is handed to `set_config_value`, so where
        the config is writable a rejected header clears the previous one, and
        in safe mode outside network mode the stored list stays. */
    method ApplySettings(form: Form)
      modifies this
      ensures deleteAllData == if removeAllDataDefined then old(deleteAllData) else Filled(form, "delete_all_data")
      ensures ConfigWritable() ==> proxyClientHeaders == Some(ClientHeaders(form))
      ensures !ConfigWritable() ==> proxyClientHeaders == old(proxyClientHeaders)
    {
      if !removeAllDataDefined {
        deleteAllData := Filled(form, "delete_all_data");
      }
      var clientHeaders: seq<string> := [];
      if Filled(form, "proxy_client_header") {
        var clientHeader := form["proxy_client_header"];
        if clientHeader in ValidHostHeaders {
          clientHeaders := clientHeaders + [clientHeader];
        }
      }
      assert clientHeaders == ClientHeaders(form);
      if networkEnabled || !safeMode {
        proxyClientHeaders := Some(clientHeaders);
      }
    }

    /** `update_if_submitted`: applies the settings exactly when the form was
        posted and every check passed, and says so. */
    method UpdateIfSubmitted(req: Request) returns (updated: bool)
      modifies this
      ensures updated <==> Submitted(req)
      ensures !updated ==> deleteAllData == old(deleteAllData) && proxyClientHeaders == old(proxyClientHeaders)
      ensures updated && ConfigWritable() ==> proxyClientHeaders == Some(ClientHeaders(req.form))
      ensures updated && !ConfigWritable() ==> proxyClientHeaders == old(proxyClientHeaders)
      ensures updated ==>
        deleteAllData == if removeAllDataDefined then old(deleteAllData) else Filled(req.form, "delete_all_data")
    {
      if req.form != map[] && req.isAdmin && req.nonceValid && req.isSuperuser {
        ApplySettings(req.form);
        return true;
      }
      return false;
    }

    /** The header list `show_settings` displays: the stored one, or an empty
        list when nothing (or an empty list) is stored. */
    function ShownHeaders(): (r: seq<string>)
      reads this
      ensures proxyClientHeaders.None? ==> r == []
      ensures proxyClientHeaders.Some? ==> r == proxyClientHeaders.value
    {
      if proxyClientHeaders.None? || proxyClientHeaders.value == [] then [] else proxyClientHeaders.value
    }
  }

  /** A header outside the whitelist yields the empty list, which is still
      saved and so clears any previous header. */
  lemma RejectedHeaderClears(form: Form)
    requires "proxy_client_header" in form && form["proxy_client_header"] !in ValidHostHeaders
    ensures ClientHeaders(form) == []
  {
  }

  /** The header names are compared exactly: a lower-case spelling of a
      whitelisted header is not accepted. */
  lemma HeaderCaseMatters(form: Form)
    requires "proxy_client_header" in form && form["proxy_client_header"] == "http_x_real_ip"
    ensures ClientHeaders(form) == []
  {
    assert "http_x_real_ip" !in ValidHostHeaders by {
      forall k | 0 <= k < |ValidHostHeaders| ensures ValidHostHeaders[k] != "http_x_real_ip" {
        assert ValidHostHeaders[k][0] == 'H';
      }
    }
  }

  /** After an accepted submission the page shows what was saved: the
      submitted header list where the config is writable, the list stored
      before otherwise. */
  method SubmitThenShow(page: AdvancedPage, req: Request) returns (shown: seq<string>)
    modifies page
    requires Submitted(req)
    ensures page.ConfigWritable() ==> shown == ClientHeaders(req.form)
    ensures !page.ConfigWritable() ==> shown == old(page.ShownHeaders())
  {
    var updated := page.UpdateIfSubmitted(req);
    shown := page.ShownHeaders();
  }
}

=== FILE: cli_output.dfy ===
/** The file-backed output buffer of a background CLI request
    (app/core/CliMulti/Output.php): an output id checked as a file name, a
    file `<tmp>/<id>.output` that is written, read, measured and deleted. The
    file system is a map from path to content; the temporary directory and
    `Filesystem::isValidFilename` are parameters. */
module CliOutput {
  import opened Wrappers
  import opened Text

  const InvalidIdMessage := "Die angegebene Ausgabe-ID hat ein ungültiges Format"

  /** The first line a PHP CLI script may start with. */
  const Shebang := "#!/usr/bin/env php"

  /** 100 MB, the size `isAbnormal` reports from, in bytes. */
  const AbnormalBytes := 100 * 1024 * 1024

  /** Files by path, and the directories that exist. */
  class FileStore {
    var files: map<string, string>
    var dirs: set<string>

    constructor (files: map<string, string>, dirs: set<string>)
      ensures this.files == files && this.dirs == dirs
    {
      this.files := files;
      this.dirs := dirs;
    }
  }

  /** What `get` makes of the file's content: a leading shebang line, once
      the content is trimmed, is cut off and the rest trimmed again; any other
      content is returned as it is, untrimmed. */
  function ShownContent(content: string): (r: string)
    ensures !StartsWith(Trim(content), Shebang) ==> r == content
    ensures StartsWith(Trim(content), Shebang) ==>
      r == Trim(Trim(content)[|Shebang|..]) && |r| < |content|
  {
    var t := Trim(content);
    if !PhpEmpty(content) && StartsWith(t, Shebang) then Trim(t[|Shebang|..]) else content
  }

  /** A script's output behind a shebang line comes back as written, when it
      has no surrounding white space of its own. */
  lemma ShebangStripped(body: string)
    requires |body| > 0 ==> !IsTrimChar(body[0]) && !IsTrimChar(body[|body| - 1])
    ensures ShownContent(Shebang + "\n" + body) == body
  {
    var x := Shebang + "\n" + body;
    assert x[..|Shebang|] == Shebang;
    assert x[0] == '#';
    if |body| > 0 {
      assert Trim(x) == x by {
        assert x[|x| - 1] == body[|body| - 1];
        TrimKeeps(x);
      }
      assert Trim(x)[|Shebang|..] == "\n" + body;
      TrimNewlineBody(body);
    } else {
      assert Trim(x) == Shebang by {
        assert x == Shebang + "\n";
        TrimLeftKeeps(x, IsTrimChar);
        TrimRightDrops(x, IsTrimChar);
        assert x[..|x| - 1] == Shebang;
        TrimRightKeeps(Shebang, IsTrimChar);
      }
      assert Shebang[|Shebang|..] == "";
    }
  }

  /** Trimming a newline followed by untrimmed text gives that text. */
  lemma TrimNewlineBody(body: string)
    requires |body| > 0 && !IsTrimChar(body[0]) && !IsTrimChar(body[|body| - 1])
    ensures Trim("\n" + body) == body
  {
    var rest := "\n" + body;
    TrimLeftDrops(rest, IsTrimChar);
    assert rest[1..] == body;
    TrimLeftKeeps(body, IsTrimChar);
    TrimRightKeeps(body, IsTrimChar);
  }

  /** An output buffer. Its path and id never change after construction. */
  class Output {
    const store: FileStore
    const tmpFile: string
    const outputId: string

    constructor Init(store: FileStore, tmpFile: string, outputId: string)
      ensures this.store == store && this.tmpFile == tmpFile && this.outputId == outputId
    {
      this.store := store;
      this.tmpFile := tmpFile;
      this.outputId := outputId;
    }

    /** `__construct`: refuses an id that is not a valid file name before
        touching the disk; otherwise creates the temporary directory and
        places the file in it. */
    static method Create(store: FileStore, tmpPath: string, outputId: string, isValidFilename: string -> bool)
      returns (r: Result<Output>)
      modifies store
      ensures !isValidFilename(outputId) ==> r == Err(InvalidIdMessage) && unchanged(store)
      ensures isValidFilename(outputId) ==>
        && r.Ok? && fresh(r.value) && r.value.store == store
        && r.value.tmpFile == tmpPath + "/" + outputId + ".output"
        && r.value.outputId == outputId
        && r.value.GetPathToFile() == tmpPath + "/" + r.value.GetOutputId() + ".output"
        && store.dirs == old(store.dirs) + {tmpPath} && store.files == old(store.files)
    {
      if !isValidFilename(outputId) {
        return Err(InvalidIdMessage);
      }
      store.dirs := store.dirs + {tmpPath};
      var o := new Output.Init(store, tmpPath + "/" + outputId + ".output", outputId);
      r := Ok(o);
    }

    /** `getOutputId`: the id the output was created with. */
    function GetOutputId(): (r: string)
      ensures r == outputId
    {
      outputId
    }

    /** `getPathToFile`: the file the output is kept in. */
    function GetPathToFile(): (r: string)
      ensures r == tmpFile
    {
      tmpFile
    }

    /** `write`: replaces the file's content. */
    method Write(content: string)
      modifies store
      ensures store.files == old(store.files)[tmpFile := content]
      ensures store.dirs == old(store.dirs)
      ensures Exists() && Get() == Some(ShownContent(content))
      ensures IsAbnormal() <==> |content| >= AbnormalBytes
    {
      store.files := store.files[tmpFile := content];
    }

    /** `exists`: whether the file is on disk. */
    predicate Exists()
      reads store
      ensures Exists() <==> tmpFile in store.files
    {
      tmpFile in store.files
    }

    /** `get`: false (None) when the file cannot be read. */
    function Get(): (r: Option<string>)
      reads store
      ensures r.None? <==> !Exists()
      ensures Exists() && !StartsWith(Trim(store.files[tmpFile]), Shebang) ==> r == Some(store.files[tmpFile])
    {
      if tmpFile in store.files then Some(ShownContent(store.files[tmpFile])) else None
    }

    /** `isAbnormal`: the file exists and holds at least 100 MB; a missing
        file has no size and is not abnormal. */
    predicate IsAbnormal()
      reads store
      ensures IsAbnormal() ==> Exists()
    {
      tmpFile in store.files && |store.files[tmpFile]| >= AbnormalBytes
    }

    /** `destroy`: deletes the file if it is there. */
    method Destroy()
      modifies store
      ensures store.files == old(store.files) - {tmpFile}
      ensures store.dirs == old(store.dirs)
      ensures !Exists() && !IsAbnormal() && Get() == None
      ensures old(!Exists()) ==> store.files == old(store.files)
    {
      store.files := store.files - {tmpFile};
    }
  }
}

=== FILE: config_informational.dfy ===
/** The configuration diagnostic
    (app/plugins/Diagnostics/Diagnostic/ConfigInformational.php): eight
    informational settings, then the plugins split into activated,
    deactivated and invalid lists, then the custom plugin directories when
    there are any. The settings probed, the plugin list and `json_encode` are
    parameters. */
module ConfigInformational {
  import opened Text

  /** The titles of the results, in the order they are reported. */
  const BrowserSegmentArchivingTitle := "Browser Segment Archiving Enabled"
  const DevelopmentModeTitle := "Development Mode Enabled"
  const InternetEnabledTitle := "Internet Enabled"
  const MultiServerTitle := "Multi Server Environment"
  const AutoUpdateTitle := "Auto Update Enabled"
  const CustomUserPathTitle := "Custom User Path"
  const CustomIncludePathTitle := "Custom Include Path"
  const ReleaseChannelTitle := "Release Channel"
  const PluginsActivatedTitle := "Plugins Activated"
  const PluginsDeactivatedTitle := "Plugins Deactivated"
  const PluginsInvalidTitle := "Plugins Invalid"
  const PluginDirectoriesTitle := "Custom Plugins Directories"

  /** An informational result's value: a flag or a text. */
  datatype InfoValue = Flag(b: bool) | TextValue(s: string)

  datatype InfoResult = InfoResult(title: string, value: InfoValue)

  /** The settings the first eight results report. */
  datatype Settings = Settings(
    browserSegmentArchiving: bool, developmentMode: bool, internetEnabled: bool,
    multiServer: bool, autoUpdate: bool,
    userPath: string, includePath: string, documentRoot: string,
    releaseChannel: string)

  /** What the plugin manager reports for one plugin; the flags stand for
      the `empty()` tests on the plugin's entries. */
  datatype Plugin = Plugin(name: string, version: string, uninstallable: bool, activated: bool, invalid: bool)

  /** The text a plugin is listed with: its name, and its version for a
      plugin not shipped with the core, outside test mode. */
  function PluginLabel(p: Plugin, testMode: bool): (r: string)
    ensures !PhpEmpty(p.version) && p.uninstallable && !testMode ==> r == p.name + " " + p.version
    ensures PhpEmpty(p.version) || !p.uninstallable || testMode ==> r == p.name
  {
    if !PhpEmpty(p.version) && p.uninstallable && !testMode then p.name + " " + p.version else p.name
  }

  /** Which list a plugin goes to. */
  datatype PluginList = ActivatedList | DeactivatedList | InvalidList

  predicate Belongs(p: Plugin, list: PluginList) {
    match list
    case ActivatedList => p.activated
    case DeactivatedList => !p.activated
    case InvalidList => p.invalid
  }

  /** The labels of the plugins that belong to a list, in plugin order. */
  function Listed(plugins: seq<Plugin>, list: PluginList, testMode: bool): (r: seq<string>)
    ensures |r| <= |plugins|
    ensures forall x :: x in r <==> exists p :: p in plugins && Belongs(p, list) && PluginLabel(p, testMode) == x
  {
    if |plugins| == 0 then []
    else
      var front := Listed(plugins[..|plugins| - 1], list, testMode);
      var last := plugins[|plugins| - 1];
      assert forall p :: p in plugins <==> p in plugins[..|plugins| - 1] || p == last;
      if Belongs(last, list) then front + [PluginLabel(last, testMode)] else front
  }

  /** Every plugin is listed exactly once as activated or deactivated. */
  lemma {:induction false} ActivatedOrDeactivated(plugins: seq<Plugin>, testMode: bool)
    ensures |Listed(plugins, ActivatedList, testMode)| + |Listed(plugins, DeactivatedList, testMode)| == |plugins|
  {
    if |plugins| > 0 {
      ActivatedOrDeactivated(plugins[..|plugins| - 1], testMode);
    }
  }

  /** The invalid list does not depend on activation: flipping a plugin's
      activation leaves it unchanged. */
  lemma {:induction false} InvalidIgnoresActivation(plugins: seq<Plugin>, flipped: seq<Plugin>, testMode: bool)
    requires |flipped| == |plugins|
    requires forall i :: 0 <= i < |plugins| ==> flipped[i] == plugins[i].(activated := flipped[i].activated)
    ensures Listed(flipped, InvalidList, testMode) == Listed(plugins, InvalidList, testMode)
  {
    if |plugins| > 0 {
      InvalidIgnoresActivation(plugins[..|plugins| - 1], flipped[..|flipped| - 1], testMode);
    }
  }

  /** One more plugin extends each list it belongs to by its label. */
  lemma ListedStep(plugins: seq<Plugin>, i: nat, list: PluginList, testMode: bool)
    requires i < |plugins|
    ensures Listed(plugins[..i + 1], list, testMode)
      == if Belongs(plugins[i], list) then Listed(plugins[..i], list, testMode) + [PluginLabel(plugins[i], testMode)]
         else Listed(plugins[..i], list, testMode)
  {
    assert plugins[..i + 1][..i] == plugins[..i];
  }

  /** The body of the plugin loop in `execute`: the plugin's label goes to
      the activated or the deactivated list, and to the invalid list too
      when the plugin is invalid. */
  method AddPlugin(plugin: Plugin, testMode: bool, activated: seq<string>, deactivated: seq<string>, invalid: seq<string>)
    returns (activated': seq<string>, deactivated': seq<string>, invalid': seq<string>)
    ensures activated' == if Belongs(plugin, ActivatedList) then activated + [PluginLabel(plugin, testMode)] else activated
    ensures deactivated' == if Belongs(plugin, DeactivatedList) then deactivated + [PluginLabel(plugin, testMode)] else deactivated
    ensures invalid' == if Belongs(plugin, InvalidList) then invalid + [PluginLabel(plugin, testMode)] else invalid
  {
    activated', deactivated', invalid' := activated, deactivated, invalid;
    var entry := plugin.name;
    if !PhpEmpty(plugin.version) && plugin.uninstallable && !testMode {
      entry := entry + " " + plugin.version;
    }
    if plugin.activated {
      activated' := activated' + [entry];
    } else {
      deactivated' := deactivated' + [entry];
    }
    if plugin.invalid {
      invalid' := invalid' + [entry];
    }
  }

  /** The eight fixed results, in order. */
  function SettingsResults(s: Settings): (r: seq<InfoResult>)
    ensures |r| == 8
  {
    [ InfoResult(BrowserSegmentArchivingTitle, Flag(s.browserSegmentArchiving)),
      InfoResult(DevelopmentModeTitle, Flag(s.developmentMode)),
      InfoResult(InternetEnabledTitle, Flag(s.internetEnabled)),
      InfoResult(MultiServerTitle, Flag(s.multiServer)),
      InfoResult(AutoUpdateTitle, Flag(s.autoUpdate)),
      InfoResult(CustomUserPathTitle, Flag(s.userPath != s.documentRoot)),
      InfoResult(CustomIncludePathTitle, Flag(s.includePath != s.documentRoot)),
      InfoResult(ReleaseChannelTitle, TextValue(s.releaseChannel)) ]
  }

  /** `execute`: nothing before installation; otherwise the eight settings,
      the three plugin lists joined with ", ", and the plugin directories row
      when that global is not empty. */
  method Execute(installed: bool, settings: Settings, plugins: seq<Plugin>, testMode: bool,
                 pluginDirs: seq<string>, jsonEncode: seq<string> -> string)
    returns (results: seq<InfoResult>)
    ensures !installed ==> results == []
    ensures installed ==> |results| == (if pluginDirs == [] then 11 else 12)
    ensures installed ==> results[..8] == SettingsResults(settings)
    ensures installed ==>
      && results[8] == InfoResult(PluginsActivatedTitle, TextValue(Join(", ", Listed(plugins, ActivatedList, testMode))))
      && results[9] == InfoResult(PluginsDeactivatedTitle, TextValue(Join(", ", Listed(plugins, DeactivatedList, testMode))))
      && results[10] == InfoResult(PluginsInvalidTitle, TextValue(Join(", ", Listed(plugins, InvalidList, testMode))))
    ensures installed && pluginDirs != [] ==>
      results[11] == InfoResult(PluginDirectoriesTitle, TextValue(jsonEncode(pluginDirs)))
  {
    results := [];
    if !installed {
      return;
    }
    results := SettingsResults(settings);
    var activated: seq<string> := [];
    var deactivated: seq<string> := [];
    var invalid: seq<string> := [];
    var i := 0;
    while i < |plugins|
      invariant 0 <= i <= |plugins|
      invariant activated == Listed(plugins[..i], ActivatedList, testMode)
      invariant deactivated == Listed(plugins[..i], DeactivatedList, testMode)
      invariant invalid == Listed(plugins[..i], InvalidList, testMode)
    {
      ListedStep(plugins, i, ActivatedList, testMode);
      ListedStep(plugins, i, DeactivatedList, testMode);
      ListedStep(plugins, i, InvalidList, testMode);
      activated, deactivated, invalid := AddPlugin(plugins[i], testMode, activated, deactivated, invalid);
      i := i + 1;
    }
    assert plugins[..|plugins|] == plugins;
    results := results + [InfoResult(PluginsActivatedTitle, TextValue(Join(", ", activated)))];
    results := results + [InfoResult(PluginsDeactivatedTitle, TextValue(Join(", ", deactivated)))];
    results := results + [InfoResult(PluginsInvalidTitle, TextValue(Join(", ", invalid)))];
    if pluginDirs != [] {
      results := results + [InfoResult(PluginDirectoriesTitle, TextValue(jsonEncode(pluginDirs)))];
    }
  }
}

=== FILE: cron_archiving_check.dfy ===
/** The cron-archiving diagnostic
    (app/plugins/Diagnostics/Diagnostic/CronArchivingCheck.php): warnings
    about browser-triggered archiving, and the final CLI check. Translations,
    the pretty-printing of durations, the archiving start option, the clock
    and `CliMulti::supportsAsync` are parameters. */
module CronArchivingCheck {
  import opened Wrappers

  /** 36 hours in seconds: how recent an archiving run must be to count. */
  const RecentArchivingSeconds := 36 * 3600

  const ArchivingDocsLinkOpen := "<a href=\"https://n3rds.work/docs/setup-auto-archiving/\" target=\"_blank\" rel=\"noreferrer noopener\">"
  const LinkClose := "</a>"

  /** The translation keys the results are built from. */
  const CronArchiveProcessKey := "Installation_SystemCheckCronArchiveProcess"
  const CronArchiveProcessCliKey := "Installation_SystemCheckCronArchiveProcessCLI"
  const OkKey := "General_Ok"
  const NotSupportedKey := "Installation_NotSupported"
  const OptionalKey := "Goals_Optional"
  const FasterReportLoadingKey := "Installation_FasterReportLoading"
  const BrowserTriggeredKey := "Diagnostics_BrowserTriggeredArchivingEnabled"
  const BrowserAndAutoLabelKey := "Diagnostics_BrowserAndAutoArchivingEnabledLabel"
  const BrowserAndAutoCommentKey := "Diagnostics_BrowserAndAutoArchivingEnabledComment"

  datatype Status = StatusOk | StatusWarning | StatusInformational

  datatype CheckResult = CheckResult(title: string, status: Status, comment: string)

  /** The translator: a plain lookup and one with placeholder arguments. */
  datatype Translator = Translator(translate: string -> string, translateWith: (string, seq<string>) -> string)

  /** The archiving start option is truthy and later than 36 hours ago. */
  predicate RecentlyArchived(lastStarted: Option<int>, now: int) {
    lastStarted.Some? && lastStarted.value != 0 && lastStarted.value > now - RecentArchivingSeconds
  }

  /** The final result: OK when CLI archiving can run asynchronously,
      informational otherwise. */
  function CliResult(t: Translator, supportsAsync: bool): (r: CheckResult)
    ensures r.status == StatusOk <==> supportsAsync
    ensures r.status == StatusInformational <==> !supportsAsync
    ensures r.title == t.translate(CronArchiveProcessKey) + " - "
                       + t.translate(CronArchiveProcessCliKey)
  {
    var comment := if supportsAsync then t.translate(OkKey)
                   else t.translate(NotSupportedKey) + " " + t.translate(OptionalKey);
    CheckResult(t.translate(CronArchiveProcessKey) + " - "
                + t.translate(CronArchiveProcessCliKey),
                if supportsAsync then StatusOk else StatusInformational, comment)
  }

  /** The warning about browser-triggered archiving. */
  function BrowserTriggerWarning(t: Translator): (r: CheckResult)
    ensures r.status == StatusWarning
  {
    CheckResult(t.translate(CronArchiveProcessKey) + " ("
                + t.translate(FasterReportLoadingKey) + ")",
                StatusWarning,
                t.translateWith(BrowserTriggeredKey, [ArchivingDocsLinkOpen, LinkClose]))
  }

  /** The warning that archiving also ran from the command line, `since`
      being the pretty-printed time since it started. */
  function RecentArchivingWarning(t: Translator, since: string): (r: CheckResult)
    ensures r.status == StatusWarning
  {
    CheckResult(t.translate(BrowserAndAutoLabelKey),
                StatusWarning,
                t.translateWith(BrowserAndAutoCommentKey,
                                [ArchivingDocsLinkOpen, LinkClose, since]))
  }

  /** `execute`: with browser-triggered archiving on an installed system a
      warning comes first, and a second one when archiving also ran recently;
      the CLI check always comes last. */
  method Execute(t: Translator, installed: bool, browserTriggerEnabled: bool, lastStarted: Option<int>,
                 now: int, prettyDuration: int -> string, supportsAsync: bool)
    returns (result: seq<CheckResult>)
    ensures 1 <= |result| <= 3
    ensures result[|result| - 1] == CliResult(t, supportsAsync)
    ensures !(installed && browserTriggerEnabled) ==> |result| == 1
    ensures installed && browserTriggerEnabled ==>
      |result| == (if RecentlyArchived(lastStarted, now) then 3 else 2)
    ensures forall i :: 0 <= i < |result| - 1 ==> result[i].status == StatusWarning
    ensures installed && browserTriggerEnabled ==> result[0] == BrowserTriggerWarning(t)
    ensures installed && browserTriggerEnabled && RecentlyArchived(lastStarted, now) ==>
      result[1] == RecentArchivingWarning(t, prettyDuration(now - lastStarted.value))
  {
    result := [];
    if installed {
      if browserTriggerEnabled {
        result := result + [BrowserTriggerWarning(t)];
        if lastStarted.Some? && lastStarted.value != 0 && lastStarted.value > now - RecentArchivingSeconds {
          var since := prettyDuration(now - lastStarted.value);
          result := result + [RecentArchivingWarning(t, since)];
        }
      }
    }
    var last := CliResult(t, supportsAsync);
    result := result + [last];
  }

  /** The 36-hour window: a run exactly 36 hours ago no longer counts, one a
      second later does (unless that is the zero time stamp), and a zero time
      stamp never does. */
  lemma RecentWindow(now: int)
    requires now != RecentArchivingSeconds - 1
    ensures !RecentlyArchived(Some(now - 129600), now)
    ensures RecentlyArchived(Some(now - 129599), now)
    ensures !RecentlyArchived(Some(0), now)
  {
  }
}

=== FILE: custom_dimensions_scope.dfy ===
/** The scope of a custom dimension
    (app/plugins/CustomDimensions/Dimension/Scope.php): `check` accepts a
    non-empty scope that is exactly one of the known scopes and throws
    otherwise. The list of known scopes is a parameter. */
module CustomDimensionsScope {
  import opened Wrappers
  import opened Text

  /** The two fixed parts of the exception message, around the value. */
  const InvalidValueOpen := "Invalid value '"
  const InvalidValueClose := "' for 'scope' specified. Available scopes are: "

  /** A scope value as handed to the constructor; None stands for null. */
  datatype Scope = Scope(scope: Option<string>) {

    /** PHP `empty()` on the stored scope: null, "" and "0". */
    predicate IsEmpty() {
      scope.None? || PhpEmpty(scope.value)
    }

    /** The scope as string interpolation renders it (null as ""). */
    function Rendered(): string {
      scope.GetOr("")
    }

    /** `check`: returns normally exactly for a non-empty known scope;
        otherwise the exception names the value and lists the known scopes. */
    function Check(scopes: seq<string>): (r: Outcome)
      ensures r == Pass <==> !IsEmpty() && scope.value in scopes
      ensures r != Pass ==>
        r == Fail(InvalidValueOpen + Rendered() + InvalidValueClose + Join(", ", scopes))
    {
      if IsEmpty() || scope.value !in scopes then
        Fail(InvalidValueOpen + Rendered() + InvalidValueClose + Join(", ", scopes))
      else Pass
    }
  }

  /** An empty scope is refused even when the empty string is listed as a
      known scope. */
  lemma EmptyScopeRefused(scopes: seq<string>)
    ensures Scope(None).Check(scopes).Fail?
    ensures Scope(Some("")).Check(scopes).Fail?
    ensures Scope(Some("0")).Check(scopes).Fail?
  {
  }

  /** With the usual three scopes the message names the value and lists
      them in order. */
  lemma UnknownScopeMessage()
    ensures Scope(Some("page")).Check(["visit", "action", "conversion"])
      == Fail(InvalidValueOpen + "page" + InvalidValueClose + "visit, action, conversion")
  {
    var scopes := ["visit", "action", "conversion"];
    assert "page" !in scopes by {
      assert scopes[0][0] == 'v' && scopes[1][0] == 'a' && scopes[2][0] == 'c';
    }
    JoinedScopes();
  }

  lemma JoinedScopes()
    ensures Join(", ", ["visit", "action", "conversion"]) == "visit, action, conversion"
  {
    var scopes := ["visit", "action", "conversion"];
    var tail := scopes[1..];
    assert tail[1..] == ["conversion"];
    assert Join(", ", tail) == "action" + ", " + "conversion";
  }
}

=== FILE: feedback.dfy ===
/** The feature-feedback mail of the Feedback plugin
    (app/plugins/Feedback/API.php): the subject and body composed from the
    feature name, the like vote and the message, the framing `sendMail` adds,
    and the English feature name. The access checks, the translator, input
    unsanitising, the version, the referrer and the addresses are parameters;
    the mails handed over for delivery are collected in an outbox. */
module Feedback {
  import opened Wrappers
  import opened Text

  const SubjectPrefix := "[ Feedback Feature - Psstats ] "
  const WithFeedback := "(w/ feedback)"
  const NoFeedbackLine := " \n"
  const TeamName := "Psstats Team"

  /** The `$like` argument: a bool, an int, or the text of a request
      parameter. */
  datatype Like = LikeBool(b: bool) | LikeInt(n: int) | LikeString(s: string)

  /** PHP `empty()` on the like argument: false, 0, "" and "0". */
  predicate EmptyLike(like: Like) {
    match like
    case LikeBool(b) => !b
    case LikeInt(n) => n == 0
    case LikeString(s) => PhpEmpty(s)
  }

  /** A message counts when it is non-empty and not the text "undefined"
      (the front end's placeholder). The default `false` is the empty
      message here. */
  predicate HasFeedback(message: string) {
    !PhpEmpty(message) && message != "undefined"
  }

  /** The feedback part of the body: empty when the message does not count. */
  function FeedbackPart(message: string): (r: string)
    ensures r == "" <==> !HasFeedback(message)
    ensures r != "" ==> StartsWith(r, "Feedback:\n")
  {
    if HasFeedback(message) then "Feedback:\n" + Trim(message) + "\n" else ""
  }

  function LikeText(like: Like): (r: string)
    ensures r == "Yes" <==> !EmptyLike(like)
    ensures r == "No" <==> EmptyLike(like)
  {
    if EmptyLike(like) then "No" else "Yes"
  }

  /** The first two lines of the body: the feature and the vote. */
  function FeedbackHeader(featureName: string, like: Like): string {
    "Feature: " + featureName + "\nLike: " + LikeText(like) + "\n"
  }

  /** The body `sendFeedbackForFeature` composes: the two header lines, then
      the feedback part, or a line holding a single space when the message
      does not count. */
  function FeedbackBody(featureName: string, like: Like, message: string): (r: string)
    ensures var header := FeedbackHeader(featureName, like);
      && StartsWith(r, header)
      && (!HasFeedback(message) ==> r[|header|..] == NoFeedbackLine)
      && (HasFeedback(message) ==> r[|header|..] == FeedbackPart(message) && StartsWith(r[|header|..], "Feedback:\n"))
  {
    var header := FeedbackHeader(featureName, like);
    var part := FeedbackPart(message);
    var r := header + (if part != "" then part else NoFeedbackLine);
    assert r[..|header|] == header;
    assert r[|header|..] == if part != "" then part else NoFeedbackLine;
    r
  }

  /** The subject `sendFeedbackForFeature` composes: the vote, the feature
      and the feedback marker, separated by spaces. */
  function FeedbackSubject(featureName: string, like: Like, message: string): (r: string)
    ensures StartsWith(r, "+1 for ") <==> !EmptyLike(like)
    ensures StartsWith(r, "-1 for ") <==> EmptyLike(like)
    ensures r[7..] == featureName + " " + (if HasFeedback(message) then WithFeedback else "")
  {
    var head := if EmptyLike(like) then "-1 for " else "+1 for ";
    var tail := featureName + " " + (if FeedbackPart(message) == "" then "" else WithFeedback);
    var r := head + tail;
    assert r[..7] == head && r[7..] == tail;
    assert r[0] == head[0];
    r
  }

  /** Without a counted message the subject ends in a bare space. */
  lemma SubjectWithoutFeedback(featureName: string, like: Like, message: string)
    requires !HasFeedback(message)
    ensures var s := FeedbackSubject(featureName, like, message); s[|s| - 1] == ' '
  {
    var s := FeedbackSubject(featureName, like, message);
    assert s[7..][|s| - 8] == s[|s| - 1];
  }

  /** The placeholder "undefined" is treated like no message at all. */
  lemma UndefinedIsNoMessage(featureName: string, like: Like)
    ensures FeedbackBody(featureName, like, "undefined") == FeedbackBody(featureName, like, "")
    ensures FeedbackSubject(featureName, like, "undefined") == FeedbackSubject(featureName, like, "")
  {
  }

  /** The feature name as it goes into the mail: unchanged for English, the
      English text of its translation key otherwise. */
  function EnglishFeatureName(featureName: string, currentLanguage: string,
                              findTranslationKey: string -> string, translateToEnglish: string -> string): (r: string)
    ensures currentLanguage == "en" ==> r == featureName
    ensures currentLanguage != "en" ==> r == translateToEnglish(findTranslationKey(featureName))
  {
    if currentLanguage == "en" then featureName else translateToEnglish(findTranslationKey(featureName))
  }

  datatype Mail = Mail(from: string, to: string, toName: string, subject: string, body: string)

  /** The framing `sendMail` adds: the prefixed subject and the body with the
      version and referrer lines. */
  function FramedMail(subject: string, body: string, unsanitize: string -> string, version: string,
                      referrer: string, from: string, to: string): (m: Mail)
    ensures StartsWith(m.subject, SubjectPrefix) && m.subject[|SubjectPrefix|..] == subject
    ensures m.body == unsanitize(body) + "\n" + "Psstats " + version + "\n" + "URL: " + referrer + "\n"
    ensures m.from == from && m.to == to && m.toName == TeamName
  {
    var s := SubjectPrefix + subject;
    assert s[..|SubjectPrefix|] == SubjectPrefix;
    Mail(from, to, TeamName, s,
         unsanitize(body) + "\n" + "Psstats " + version + "\n" + "URL: " + referrer + "\n")
  }

  /** Where the outside world comes in: the access checks, the translator,
      the configuration and the request. */
  datatype Environment = Environment(
    isAnonymous: bool, hasSomeViewAccess: bool,
    currentLanguage: string, findTranslationKey: string -> string, translateToEnglish: string -> string,
    unsanitize: string -> string, version: string, referrer: string,
    currentUserEmail: string, feedbackEmailAddress: string)

  /** Why a call was refused: the two access checks, in the order they run. */
  datatype Refusal = AnonymousUser | NoViewAccess

  class FeedbackApi {
    /** Mails handed over for delivery, in order. */
    var outbox: seq<Mail>

    constructor ()
      ensures outbox == []
    {
      outbox := [];
    }

    /** `sendFeedbackForFeature`: after the access checks, composes the mail
        and hands it to `sendMail`, which adds one mail to the outbox. */
    method SendFeedbackForFeature(env: Environment, featureName: string, like: Like, message: string)
      returns (r: Option<Refusal>)
      modifies this
      ensures env.isAnonymous ==> r == Some(AnonymousUser) && outbox == old(outbox)
      ensures !env.isAnonymous && !env.hasSomeViewAccess ==> r == Some(NoViewAccess) && outbox == old(outbox)
      ensures !env.isAnonymous && env.hasSomeViewAccess ==>
        var name := EnglishFeatureName(featureName, env.currentLanguage, env.findTranslationKey, env.translateToEnglish);
        && r == None
        && outbox == old(outbox) + [FramedMail(FeedbackSubject(name, like, message), FeedbackBody(name, like, message),
                                               env.unsanitize, env.version, env.referrer,
                                               env.currentUserEmail, env.feedbackEmailAddress)]
    {
      if env.isAnonymous {
        return Some(AnonymousUser);
      }
      if !env.hasSomeViewAccess {
        return Some(NoViewAccess);
      }
      var name := EnglishFeatureName(featureName, env.currentLanguage, env.findTranslationKey, env.translateToEnglish);
      var subject := FeedbackSubject(name, like, message);
      var body := FeedbackBody(name, like, message);
      SendMail(env, subject, body);
      return None;
    }

    method SendMail(env: Environment, subject: string, body: string)
      modifies this
      ensures outbox == old(outbox) + [FramedMail(subject, body, env.unsanitize, env.version, env.referrer,
                                                  env.currentUserEmail, env.feedbackEmailAddress)]
    {
      var mail := FramedMail(subject, body, env.unsanitize, env.version, env.referrer,
                             env.currentUserEmail, env.feedbackEmailAddress);
      outbox := outbox + [mail];
    }
  }
}

=== FILE: geolocation_settings.dfy ===
/** The MaxMind licence-key form of the geolocation settings page
    (classes/WpPsstats/Admin/GeolocationSettings.php). The request, the
    WordPress capability and nonce checks and the clock are parameters; the
    plugin settings store and the scheduled events are fields of the page. */
module GeolocationSettings {
  import opened Wrappers
  import opened Text

  const LicenseSetting := "maxmind_license_key"
  const MinKeyLength := 7
  const MaxKeyLength := 20

  /** What the request brings: the posted licence field (None when it is not
      posted), and the outcome of the admin, nonce and superuser checks. */
  datatype Request = Request(licenseField: Option<string>, isAdmin: bool, nonceValid: bool, isSuperuser: bool)

  predicate Submitted(req: Request) {
    req.licenseField.Some? && req.isAdmin && req.nonceValid && req.isSuperuser
  }

  /** PHP `stripslashes`: a backslash is dropped and the character after it
      kept, "\0" becomes the NUL character, and a trailing lone backslash
      disappears. */
  function StripSlashes(s: string): (r: string)
    ensures |r| <= |s|
    ensures '\\' !in s ==> r == s
    decreases |s|
  {
    if |s| == 0 then ""
    else if s[0] != '\\' then [s[0]] + StripSlashes(s[1..])
    else if |s| == 1 then ""
    else [if s[1] == '0' then '\0' else s[1]] + StripSlashes(s[2..])
  }

  /** `ctype_graph` for one character: printable and not a space. */
  predicate IsGraph(c: char) { 33 <= c as int <= 126 }

  /** `ctype_graph` on a string: non-empty and every character graphic. */
  predicate AllGraph(s: string) {
    |s| > 0 && forall i :: 0 <= i < |s| ==> IsGraph(s[i])
  }

  /** The key as it is checked and stored: slashes stripped, then trimmed. */
  function CleanKey(posted: string): string {
    Trim(StripSlashes(posted))
  }

  /** The verdict on a cleaned key: Some(key to store), or None when the form
      is to be rejected. An empty key ("" or "0") clears the setting. */
  function AcceptedKey(key: string): (r: Option<string>)
    ensures PhpEmpty(key) ==> r == Some("")
    ensures !PhpEmpty(key) ==>
      (r.Some? <==> MinKeyLength <= |key| <= MaxKeyLength && AllGraph(key))
    ensures r.Some? && !PhpEmpty(key) ==> r.value == key
  {
    if PhpEmpty(key) then Some("")
    else if |key| > MaxKeyLength || |key| < MinKeyLength || !AllGraph(key) then None
    else Some(key)
  }

  /** A MaxMind licence key looks like this: sixteen letters and digits. */
  lemma TypicalKeyAccepted(key: string)
    requires |key| == 16 && forall i :: 0 <= i < |key| ==> IsAlpha(key[i]) || IsDigit(key[i])
    ensures !PhpEmpty(key) && AcceptedKey(key) == Some(key)
  {
  }

  /** A key with a space inside it is rejected, whatever its length. */
  lemma KeyWithSpaceRejected(key: string, i: nat)
    requires i < |key| && key[i] == ' ' && key != "0"
    ensures AcceptedKey(key) == None
  {
  }

  /** One scheduled single event: the geoip database update, and when. */
  datatype Event = GeoipUpdate(time: int)

  class GeolocationPage {
    /** The stored licence key; None while it was never set. */
    var licenseKey: Option<string>
    var scheduled: seq<Event>

    constructor (licenseKey: Option<string>)
      ensures this.licenseKey == licenseKey && scheduled == []
    {
      this.licenseKey := licenseKey;
      scheduled := [];
    }

    /** `update_if_submitted`: None (PHP null) when the form was not posted or
        a check failed; Some(false) for a malformed key, with nothing stored or
        scheduled; Some(true) once the key is stored and the geoip update
        scheduled ten seconds ahead. */
    method UpdateIfSubmitted(req: Request, now: int) returns (r: Option<bool>)
      modifies this
      ensures !Submitted(req) ==> r == None && licenseKey == old(licenseKey) && scheduled == old(scheduled)
      ensures Submitted(req) && AcceptedKey(CleanKey(req.licenseField.value)).None? ==>
        r == Some(false) && licenseKey == old(licenseKey) && scheduled == old(scheduled)
      ensures Submitted(req) && AcceptedKey(CleanKey(req.licenseField.value)).Some? ==>
        && r == Some(true)
        && licenseKey == AcceptedKey(CleanKey(req.licenseField.value))
        && scheduled == old(scheduled) + [GeoipUpdate(now + 10)]
    {
      if !(req.licenseField.Some? && req.isAdmin && req.nonceValid && req.isSuperuser) {
        return None;
      }
      var key := Trim(StripSlashes(req.licenseField.value));
      if PhpEmpty(key) {
        key := "";
      } else if |key| > MaxKeyLength || |key| < MinKeyLength || !AllGraph(key) {
        return Some(false);
      }
      licenseKey := Some(key);
      scheduled := scheduled + [GeoipUpdate(now + 10)];
      return Some(true);
    }

    /** `show_settings`: runs the update and reports an invalid format exactly
        when it answered false; the key shown is the stored one afterwards. */
    method ShowSettings(req: Request, now: int) returns (invalidFormat: bool, current: Option<string>)
      modifies this
      ensures invalidFormat <==> Submitted(req) && AcceptedKey(CleanKey(req.licenseField.value)).None?
      ensures !Submitted(req) ==> licenseKey == old(licenseKey) && scheduled == old(scheduled)
      ensures invalidFormat ==> licenseKey == old(licenseKey) && scheduled == old(scheduled)
      ensures Submitted(req) && !invalidFormat ==>
        && licenseKey == AcceptedKey(CleanKey(req.licenseField.value))
        && scheduled == old(scheduled) + [GeoipUpdate(now + 10)]
      ensures current == licenseKey
    {
      var updated := UpdateIfSubmitted(req, now);
      invalidFormat := updated == Some(false);
      current := licenseKey;
    }
  }

  /** Surrounding white space does not make a key invalid: it is removed
      before the check. */
  lemma PaddedKeyCleaned(key: string)
    requires '\\' !in key && |key| > 0 && !IsTrimChar(key[0]) && !IsTrimChar(key[|key| - 1])
    ensures CleanKey(" " + key + "\n") == key
  {
    var s := " " + key + "\n";
    assert '\\' !in s;
    LeftPadTrimmed(key + "\n");
    assert s == " " + (key + "\n");
    RightPadTrimmed(key);
  }

  lemma LeftPadTrimmed(t: string)
    requires |t| > 0 && !IsTrimChar(t[0])
    ensures TrimLeftBy(" " + t, IsTrimChar) == t
  {
    assert (" " + t)[1..] == t;
  }

  lemma RightPadTrimmed(t: string)
    requires |t| > 0 && !IsTrimChar(t[|t| - 1])
    ensures TrimRightBy(t + "\n", IsTrimChar) == t
  {
    assert (t + "\n")[..|t|] == t;
  }
}

=== FILE: ipv4.dfy ===
/** An IPv4 address (app/vendor/psstats/network/src/IPv4.php): four octets in
    network order (section 2.3 of RFC 791), held as an immutable object whose
    `anonymize` returns a new address with trailing octets set to zero. */
module IPv4Address {

  newtype byte = b: int | 0 <= b < 256

  /** Number of trailing bytes `anonymize` clears: `byteCount` capped at the
      length, nothing for a count of zero or less. */
  function ClearedCount(len: nat, byteCount: int): (k: nat)
    ensures k <= len
    ensures byteCount <= 0 ==> k == 0
    ensures byteCount >= len ==> k == len
    ensures 0 <= byteCount <= len ==> k == byteCount
  {
    if byteCount <= 0 then 0 else if byteCount > len then len else byteCount
  }

  /** The anonymised byte string: the last `ClearedCount` bytes zero, the
      others as they were. */
  function Anonymized(ip: seq<byte>, byteCount: int): (r: seq<byte>)
    ensures |r| == |ip|
  {
    var keep := |ip| - ClearedCount(|ip|, byteCount);
    seq(|ip|, j requires 0 <= j < |ip| => if j < keep then ip[j] else 0)
  }

  /** The copy-and-zero loop of `anonymize`, over a fresh buffer. */
  method AnonymizeBytes(ip: seq<byte>, byteCount: int) returns (r: seq<byte>)
    ensures |r| == |ip|
    ensures var keep := |ip| - ClearedCount(|ip|, byteCount);
      && (forall j :: 0 <= j < keep ==> r[j] == ip[j])
      && (forall j :: keep <= j < |ip| ==> r[j] == 0)
    ensures r == Anonymized(ip, byteCount)
  {
    var buf := new byte[|ip|](j requires 0 <= j < |ip| => ip[j]);
    var i := |ip|;
    var count := byteCount;
    if count > i {
      count := i;
    }
    ghost var keep := |ip| - ClearedCount(|ip|, byteCount);
    while count > 0
      invariant count <= 0 ==> i == keep
      invariant count > 0 ==> i - count == keep && count <= i
      invariant keep <= i <= |ip|
      invariant forall j :: 0 <= j < i ==> buf[j] == ip[j]
      invariant forall j :: i <= j < |ip| ==> buf[j] == 0
    {
      count := count - 1;
      i := i - 1;
      buf[i] := 0;
    }
    r := buf[..];
  }

  /** Anonymising by `a` then by `b` is anonymising by the larger of the two;
      in particular anonymising twice by the same count changes nothing more. */
  lemma AnonymizeCompose(ip: seq<byte>, a: int, b: int)
    ensures Anonymized(Anonymized(ip, a), b) == Anonymized(ip, if a < b then b else a)
    ensures Anonymized(Anonymized(ip, a), a) == Anonymized(ip, a)
  {
    var once := Anonymized(ip, a);
    var twice := Anonymized(once, b);
    var m := if a < b then b else a;
    var direct := Anonymized(ip, m);
    assert ClearedCount(|ip|, m) ==
      (if ClearedCount(|ip|, a) < ClearedCount(|ip|, b) then ClearedCount(|ip|, b) else ClearedCount(|ip|, a));
    forall j | 0 <= j < |ip| ensures twice[j] == direct[j] { }
    var again := Anonymized(once, a);
    forall j | 0 <= j < |ip| ensures again[j] == once[j] { }
  }

  /** A count of zero or less returns an equal address; a count of at least
      the length returns all zeros. */
  lemma AnonymizeExtremes(ip: seq<byte>, byteCount: int)
    ensures byteCount <= 0 ==> Anonymized(ip, byteCount) == ip
    ensures byteCount >= |ip| ==> forall j :: 0 <= j < |ip| ==> Anonymized(ip, byteCount)[j] == 0
  {
    if byteCount <= 0 {
      var r := Anonymized(ip, byteCount);
      forall j | 0 <= j < |ip| ensures r[j] == ip[j] { }
    }
  }

  /** An address object; `fromBinaryIP` is its constructor here, and `toString`
      (defined on the parent class, which is not part of this model) is given
      as a rendering function. */
  class IPv4 {
    const ip: seq<byte>

    constructor FromBinary(ip: seq<byte>)
      ensures this.ip == ip
    {
      this.ip := ip;
    }

    /** `toIPv4String`: the same text as `toString`. */
    function ToIPv4String(toString: seq<byte> -> string): (r: string)
      ensures r == toString(ip)
    {
      toString(ip)
    }

    /** `anonymize`: a new address; the receiver is not changed. */
    method Anonymize(byteCount: int) returns (r: IPv4)
      ensures fresh(r) && r.ip == Anonymized(ip, byteCount)
    {
      var bytes := AnonymizeBytes(ip, byteCount);
      r := new IPv4.FromBinary(bytes);
    }
  }
}

=== FILE: logger.dfy ===
/** The plugin's logger (classes/WpPsstats/Logger.php): the log level taken
    from the PSSTATS_DEBUG constant, the WP_DEBUG gate on `error_log`, and the
    list of recent errors kept in one WordPress option, filtered to the last
    week and capped at six entries. The clock is a parameter `now`. */
module Logger {
  import opened Wrappers
  import opened Text

  const LevelNone := 99
  const LevelDebug := 1
  const LevelInfo := 3

  const OneWeekSeconds := 604800
  const MaxEntries := 6

  /** `get_log_level`: `psstatsDebug` is None when PSSTATS_DEBUG is not
      defined, otherwise whether its value is truthy. */
  function LogLevel(psstatsDebug: Option<bool>): (r: int)
    ensures r == LevelDebug <==> psstatsDebug == Some(true)
    ensures r == LevelNone <==> psstatsDebug == Some(false)
    ensures r == LevelInfo <==> psstatsDebug.None?
  {
    match psstatsDebug
    case None => LevelInfo
    case Some(truthy) => if truthy then LevelDebug else LevelNone
  }

  /** `log`: the line handed to `error_log`, if any. `wpDebugIsTrue` says
      whether WP_DEBUG is defined and identical to `true`. */
  function LogLine(psstatsDebug: Option<bool>, wpDebugIsTrue: bool, message: string, mode: int): (r: Option<string>)
    ensures r.Some? <==> LogLevel(psstatsDebug) <= mode && wpDebugIsTrue
    ensures r.Some? ==> r.value == "Psstats: " + message
  {
    if LogLevel(psstatsDebug) > mode then None
    else if wpDebugIsTrue then Some("Psstats: " + message)
    else None
  }

  /** With PSSTATS_DEBUG false nothing is ever written; with it undefined,
      debug-mode messages are dropped and info-mode ones written. */
  lemma LogGate(message: string)
    ensures forall mode :: mode < LevelNone ==> LogLine(Some(false), true, message, mode).None?
    ensures LogLine(None, true, message, LevelDebug).None?
    ensures LogLine(None, true, message, LevelInfo).Some?
    ensures forall mode :: LogLine(Some(true), false, message, mode).None?
  {
  }

  /** A stored log entry. `value` is the entry's time stamp when it is a
      number, None for anything else stored there. */
  datatype Entry = Entry(name: string, value: Option<int>, comment: string)

  /** The filter of `get_last_logged_entries`: a non-empty numeric value at
      most a week old. */
  predicate Recent(e: Entry, now: int) {
    e.value.Some? && e.value.value != 0 && now - e.value.value <= OneWeekSeconds
  }

  /** `array_filter` with `Recent`, order kept. */
  function KeepRecent(entries: seq<Entry>, now: int): (r: seq<Entry>)
    ensures |r| <= |entries|
    ensures forall k :: 0 <= k < |r| ==> Recent(r[k], now)
  {
    if |entries| == 0 then []
    else if Recent(entries[0], now) then [entries[0]] + KeepRecent(entries[1..], now)
    else KeepRecent(entries[1..], now)
  }

  /** The filter keeps exactly the recent entries. */
  lemma {:induction false} KeepRecentMembers(entries: seq<Entry>, now: int)
    ensures forall e :: e in KeepRecent(entries, now) <==> e in entries && Recent(e, now)
  {
    if |entries| > 0 {
      KeepRecentMembers(entries[1..], now);
      assert forall e :: e in entries <==> e == entries[0] || e in entries[1..];
    }
  }

  /** Filtering is idempotent. */
  lemma {:induction false} KeepRecentIdempotent(entries: seq<Entry>, now: int)
    ensures KeepRecent(KeepRecent(entries, now), now) == KeepRecent(entries, now)
  {
    if |entries| > 0 {
      KeepRecentIdempotent(entries[1..], now);
      if Recent(entries[0], now) {
        var rest := KeepRecent(entries[1..], now);
        assert ([entries[0]] + rest)[1..] == rest;
      }
    }
  }

  /** Filtering a concatenation filters each part. */
  lemma {:induction false} KeepRecentAppend(a: seq<Entry>, b: seq<Entry>, now: int)
    ensures KeepRecent(a + b, now) == KeepRecent(a, now) + KeepRecent(b, now)
  {
    if |a| > 0 {
      var x, t := a[0], a[1..];
      KeepRecentAppend(t, b, now);
      assert a == [x] + t;
      assert a + b == [x] + (t + b);
      KeepRecentCons(x, t, now);
      KeepRecentCons(x, t + b, now);
      var head := if Recent(x, now) then [x] else [];
      assert head + (KeepRecent(t, now) + KeepRecent(b, now)) == (head + KeepRecent(t, now)) + KeepRecent(b, now);
    } else {
      assert a + b == b;
    }
  }

  /** Filtering an entry in front of a list. */
  lemma KeepRecentCons(x: Entry, s: seq<Entry>, now: int)
    ensures KeepRecent([x] + s, now) == (if Recent(x, now) then [x] else []) + KeepRecent(s, now)
  {
    assert ([x] + s)[0] == x && ([x] + s)[1..] == s;
  }

  /** `array_slice($xs, -n)`: the last `n` elements. */
  function LastN<T>(xs: seq<T>, n: nat): (r: seq<T>)
    ensures |r| == if |xs| < n then |xs| else n
    ensures r == xs[|xs| - |r|..]
  {
    if |xs| <= n then xs else xs[|xs| - n..]
  }

  /** The error-log option. `stored` is None when the option is absent. */
  class ErrorLog {
    var stored: Option<seq<Entry>>

    constructor (stored: Option<seq<Entry>>)
      ensures this.stored == stored
    {
      this.stored := stored;
    }

    /** `get_last_logged_entries`: the stored entries of the last week, in
        order; an absent option reads as no entries. */
    function LastLoggedEntries(now: int): (r: seq<Entry>)
      reads this
      ensures forall e :: e in r ==> Recent(e, now)
      ensures stored.None? ==> r == []
      ensures stored.Some? ==> forall e :: e in stored.value && Recent(e, now) ==> e in r
    {
      KeepRecentMembers(stored.GetOr([]), now);
      KeepRecent(stored.GetOr([]), now)
    }

    /** `clear_logged_exceptions`: deletes the option. */
    method Clear()
      modifies this
      ensures stored == None
      ensures forall now :: LastLoggedEntries(now) == []
    {
      stored := None;
    }

    /** `persist`: appends the new entry to the filtered list and keeps the
        last six. */
    method Persist(key: string, message: string, now: int)
      modifies this
      ensures stored == Some(LastN(old(LastLoggedEntries(now)) + [Entry(key, Some(now), message)], MaxEntries))
      ensures 1 <= |stored.value| <= MaxEntries
      ensures stored.value[|stored.value| - 1] == Entry(key, Some(now), message)
    {
      var logs := LastLoggedEntries(now);
      logs := logs + [Entry(key, Some(now), message)];
      logs := LastN(logs, MaxEntries);
      stored := Some(logs);
    }

    /** `log_exception`: persists the message and the readable trace under
        `key`, and returns the line it logs. */
    method LogException(key: string, e: Exception, psstatsDebug: Option<bool>, wpDebugIsTrue: bool, now: int)
      returns (logged: Option<string>)
      modifies this
      ensures var message := e.message + " => " + ReadableTrace(e);
        && stored == Some(LastN(old(LastLoggedEntries(now)) + [Entry(key, Some(now), message)], MaxEntries))
        && logged == LogLine(psstatsDebug, wpDebugIsTrue, "Psstats error: " + message, LevelInfo)
    {
      var trace := GetReadableTrace(e);
      var message := e.message + " => " + trace;
      logged := LogLine(psstatsDebug, wpDebugIsTrue, "Psstats error: " + message, LevelInfo);
      Persist(key, message, now);
    }
  }

  /** A list of recent entries passes the filter unchanged. */
  lemma {:induction false} KeepRecentOfRecent(xs: seq<Entry>, now: int)
    requires forall j :: 0 <= j < |xs| ==> Recent(xs[j], now)
    ensures KeepRecent(xs, now) == xs
  {
    if |xs| > 0 {
      KeepRecentOfRecent(xs[1..], now);
      assert [xs[0]] + xs[1..] == xs;
    }
  }

  /** Right after a write the list read back is the stored list itself, ending
      with the new entry, as long as the clock has not moved on and the time
      stamp is non-zero. */
  lemma PersistThenRead(entries: seq<Entry>, key: string, message: string, now: int)
    requires now != 0
    ensures var s := LastN(KeepRecent(entries, now) + [Entry(key, Some(now), message)], MaxEntries);
      KeepRecent(s, now) == s && s[|s| - 1] == Entry(key, Some(now), message)
  {
    var all := KeepRecent(entries, now) + [Entry(key, Some(now), message)];
    var s := LastN(all, MaxEntries);
    var kept := KeepRecent(entries, now);
    forall j | 0 <= j < |s| ensures Recent(s[j], now) {
      var k := |all| - |s| + j;
      assert s[j] == all[k];
      if k < |kept| {
        assert all[k] == kept[k];
      }
    }
    KeepRecentOfRecent(s, now);
  }

  // ---------------------------------------------------------------------------
  // get_readable_trace
  // ---------------------------------------------------------------------------

  /** A frame of `Exception::getTrace()`; `file` is None when the frame has none. */
  datatype Frame = Frame(file: Option<string>, line: int)

  /** The parts of an exception the trace is built from. */
  datatype Exception = Exception(message: string, file: string, line: int, trace: seq<Frame>)

  /** PHP `basename` on '/'-separated paths: the last segment after any
      trailing '/' is removed. */
  function Basename(path: string): (r: string)
    ensures '/' !in r
  {
    var parts := Split(TrimRightBy(path, IsSlash), '/');
    parts[|parts| - 1]
  }

  /** "file:line; " for one location. */
  function Location(file: string, line: int): string {
    Basename(file) + ":" + IntToString(line) + "; "
  }

  /** The text one frame adds: its location when it has a non-empty file. */
  function FrameText(f: Frame): string {
    if f.file.Some? && !PhpEmpty(f.file.value) then Location(f.file.value, f.line) else ""
  }

  /** The trace text before trimming: `head` followed by the text of every
      frame that has a (non-empty) file, in order. */
  function TraceText(head: string, frames: seq<Frame>): string {
    if |frames| == 0 then head
    else TraceText(head, frames[..|frames| - 1]) + FrameText(frames[|frames| - 1])
  }

  /** The readable trace: the throw site, then every frame with a file. */
  function ReadableTrace(e: Exception): string {
    Trim(TraceText(if PhpEmpty(e.file) then "" else Location(e.file, e.line), e.trace))
  }

  /** `get_readable_trace`. The index test after the append does not stop
      the loop, so every frame is visited. */
  method GetReadableTrace(e: Exception) returns (r: string)
    ensures r == ReadableTrace(e)
  {
    var trace := "";
    if !PhpEmpty(e.file) {
      trace := Location(e.file, e.line);
    }
    ghost var head := trace;
    var frames := e.trace;
    var index := 0;
    while index < |frames|
      invariant 0 <= index <= |frames|
      invariant trace == TraceText(head, frames[..index])
    {
      var item := frames[index];
      TraceTextStep(head, frames, index);
      if item.file.Some? && !PhpEmpty(item.file.value) {
        trace := trace + Location(item.file.value, item.line);
      }
      assert trace == TraceText(head, frames[..index]) + FrameText(item);
      if index > 8 {
        index := index + 1;
        continue;
      }
      index := index + 1;
    }
    assert frames[..|frames|] == frames;
    r := Trim(trace);
  }

  /** Each frame adds its own text at the end. */
  lemma TraceTextStep(head: string, frames: seq<Frame>, i: nat)
    requires i < |frames|
    ensures TraceText(head, frames[..i + 1]) == TraceText(head, frames[..i]) + FrameText(frames[i])
  {
    assert frames[..i + 1][..i] == frames[..i];
  }

  /** One more frame with a file adds its location at the end: the trace has
      no cap on the number of frames. */
  lemma TraceTextSnoc(head: string, frames: seq<Frame>, f: Frame)
    requires f.file.Some? && !PhpEmpty(f.file.value)
    ensures TraceText(head, frames + [f]) == TraceText(head, frames) + Location(f.file.value, f.line)
  {
    assert (frames + [f])[..|frames|] == frames;
  }

  /** Frames without a file contribute nothing. */
  lemma {:induction false} TraceTextNoFiles(head: string, frames: seq<Frame>)
    requires forall j :: 0 <= j < |frames| ==> frames[j].file.None?
    ensures TraceText(head, frames) == head
  {
    if |frames| > 0 {
      TraceTextNoFiles(head, frames[..|frames| - 1]);
    }
  }
}

=== FILE: marketplace_mode.dfy ===
/** The Marketplace `mode` request parameter
    (app/plugins/Marketplace/Input/Mode.php): "user" or "admin", defaulting
    to "admin". The request variable is a parameter, None when absent. */
module MarketplaceMode {
  import opened Wrappers

  const UserMode := "user"
  const AdminMode := "admin"

  /** `getMode`. */
  function GetMode(requested: Option<string>): (r: string)
    ensures r == UserMode || r == AdminMode
    ensures r == UserMode <==> requested == Some(UserMode)
    ensures requested.Some? && (requested.value == UserMode || requested.value == AdminMode) ==> r == requested.value
  {
    var mode := requested.GetOr(AdminMode);
    if mode in [UserMode, AdminMode] then mode else AdminMode
  }

  /** Feeding the answer back in gives the same answer. */
  lemma GetModeIdempotent(requested: Option<string>)
    ensures GetMode(Some(GetMode(requested))) == GetMode(requested)
  {
  }
}

=== FILE: paths.dfy ===
/** Path helpers of the plugin (classes/WpPsstats/Paths.php): the upload
    directory joins, the relative path from the bundled app directory to a
    target directory, and the choice of the temporary directory. WordPress
    lookups (`wp_upload_dir`, `plugin_dir_path`) and the plugin's path
    constants are parameters. */
module Paths {
  import opened Text

  // ---------------------------------------------------------------------------
  // Upload directory joins
  // ---------------------------------------------------------------------------

  /** `rtrim($base, '/') . '/' . PSSTATS_UPLOAD_DIR`, used for both the upload
      base URL and the upload base directory. */
  function UploadBase(base: string, uploadDirName: string): string {
    TrimRightBy(base, IsSlash) + "/" + uploadDirName
  }

  /** The join has exactly one '/' between the base, with every trailing '/'
      removed, and the upload directory name. */
  lemma UploadBaseOneSlash(base: string, uploadDirName: string)
    ensures var r := UploadBase(base, uploadDirName);
      exists k: nat :: k <= |base|
        && r == base[..k] + "/" + uploadDirName
        && (k == 0 || base[k - 1] != '/')
        && (forall j :: k <= j < |base| ==> base[j] == '/')
  {
    var t := TrimRightBy(base, IsSlash);
    var k := |t|;
    assert UploadBase(base, uploadDirName) == base[..k] + "/" + uploadDirName;
  }

  /** Trailing slashes on the base do not change the join. */
  lemma {:induction false} UploadBaseIgnoresTrailingSlashes(base: string, n: nat, uploadDirName: string)
    ensures UploadBase(base + Repeat("/", n), uploadDirName) == UploadBase(base, uploadDirName)
  {
    if n > 0 {
      var longer := base + Repeat("/", n);
      var shorter := base + Repeat("/", n - 1);
      assert longer == shorter + "/" by { RepeatSnoc("/", n - 1); }
      assert longer[..|longer| - 1] == shorter;
      assert TrimRightBy(longer, IsSlash) == TrimRightBy(shorter, IsSlash);
      UploadBaseIgnoresTrailingSlashes(base, n - 1, uploadDirName);
    } else {
      assert base + Repeat("/", n) == base;
    }
  }

  /** `get_psstats_js_upload_path` and `get_config_ini_path`: a fixed file name
      under the upload base directory. */
  function FileInUploadDir(basedir: string, uploadDirName: string, fileName: string): (r: string)
    ensures StartsWith(r, UploadBase(basedir, uploadDirName) + "/")
    ensures |r| == |UploadBase(basedir, uploadDirName)| + 1 + |fileName|
    ensures r[|r| - |fileName|..] == fileName
  {
    var prefix := UploadBase(basedir, uploadDirName) + "/";
    assert (prefix + fileName)[..|prefix|] == prefix;
    assert (prefix + fileName)[|prefix|..] == fileName;
    prefix + fileName
  }

  // ---------------------------------------------------------------------------
  // get_relative_dir_to_psstats
  // ---------------------------------------------------------------------------

  /** A segment pair the loop skips: both exist, equal, and not 'psstats'. */
  predicate CommonAt(p: seq<string>, t: seq<string>, i: nat) {
    i < |p| && i < |t| && t[i] != "psstats" && p[i] == t[i]
  }

  /** The number of leading segments the loop skips. */
  function CommonLen(p: seq<string>, t: seq<string>, from: nat): (d: nat)
    requires from <= |t|
    ensures from <= d <= |t|
    ensures forall j :: from <= j < d ==> CommonAt(p, t, j)
    ensures d == |t| || !CommonAt(p, t, d)
    decreases |t| - from
  {
    if CommonAt(p, t, from) then CommonLen(p, t, from + 1) else from
  }

  /** How many indices in `d..hi` also exist among the app directory's
      `n` segments. */
  function UpCount(d: nat, hi: nat, n: nat): nat {
    if hi <= n then (if hi > d then hi - d else 0)
    else if n > d then n - d else 0
  }

  /** The relative path: one '../' per kept index that exists in the app
      directory, then the kept target segments joined with '/'. */
  function RelativeDir(p: seq<string>, t: seq<string>): string {
    var d := CommonLen(p, t, 0);
    Repeat("../", UpCount(d, |t|, |p|)) + Join("/", t[d..])
  }

  /** `get_relative_dir_to_psstats`: `pluginDirPath` stands for
      `plugin_dir_path(PSSTATS_ANALYTICS_FILE)` and `sep` for
      `DIRECTORY_SEPARATOR`. */
  method RelativeDirToPsstats(pluginDirPath: string, targetDir: string, sep: char) returns (r: string)
    ensures r == RelativeDir(Split(pluginDirPath + "app", sep), Split(targetDir, sep))
  {
    var p := Split(pluginDirPath + "app", sep);
    var t := Split(targetDir, sep);
    ghost var d := CommonLen(p, t, 0);
    var relative := "";
    var addAtTheEnd: seq<string> := [];
    var wasPreviousSame := false;
    var i := 0;
    while i < |t|
      invariant 0 <= i <= |t|
      invariant wasPreviousSame <==> i > d
      invariant !wasPreviousSame ==> i <= d
      invariant relative == Repeat("../", if i > d then UpCount(d, i, |p|) else 0)
      invariant addAtTheEnd == if i > d then t[d..i] else []
    {
      var part := t[i];
      assert CommonAt(p, t, i) <==> (i < |p| && part != "psstats" && p[i] == part);
      if i < |p| && part != "psstats" && p[i] == part && !wasPreviousSame {
        i := i + 1;
        continue;
      }
      assert i == d || wasPreviousSame;
      wasPreviousSame := true;
      if i < |p| {
        RepeatSnoc("../", UpCount(d, i, |p|));
        relative := relative + "../";
      }
      addAtTheEnd := addAtTheEnd + [part];
      assert t[d..i + 1] == t[d..i] + [part];
      i := i + 1;
    }
    assert t[d..|t|] == t[d..];
    r := relative + Join("/", addAtTheEnd);
  }

  /** Two identical paths without a 'psstats' segment are the same directory:
      the relative path is empty. */
  lemma RelativeDirOfSamePath(parts: seq<string>)
    requires forall j :: 0 <= j < |parts| ==> parts[j] != "psstats"
    ensures RelativeDir(parts, parts) == ""
  {
    var d := CommonLen(parts, parts, 0);
    if d < |parts| {
      assert CommonAt(parts, parts, d);
    }
  }

  /** Every kept target segment appears in order after the '../' run, and the
      run is max(0, min(|app|, |target|) - d) long, d being the skipped count. */
  lemma RelativeDirShape(p: seq<string>, t: seq<string>)
    ensures var d := CommonLen(p, t, 0); var r := RelativeDir(p, t);
      var ups := if |p| < |t| then |p| else |t|;
      var n := if ups > d then ups - d else 0;
      && |r| >= 3 * n
      && r[..3 * n] == Repeat("../", n)
      && r[3 * n..] == Join("/", t[d..])
  {
    var d := CommonLen(p, t, 0);
    var ups := if |p| < |t| then |p| else |t|;
    var n := if ups > d then ups - d else 0;
    assert UpCount(d, |t|, |p|) == n;
    var pre := Repeat("../", n);
    var post := Join("/", t[d..]);
    assert RelativeDir(p, t) == pre + post;
    assert (pre + post)[..|pre|] == pre;
    assert (pre + post)[|pre|..] == post;
  }

  /** A 'psstats' segment stops the skipping even where both paths agree, so
      a target under a 'psstats' folder always climbs out of the app directory
      from there on. */
  lemma PsstatsSegmentNotCommon(p: seq<string>, t: seq<string>, i: nat)
    requires i < |t| && t[i] == "psstats"
    ensures CommonLen(p, t, 0) <= i
  {
    assert !CommonAt(p, t, i);
  }

  // ---------------------------------------------------------------------------
  // get_tmp_dir
  // ---------------------------------------------------------------------------

  /** The directories that exist and the paths the process may write to;
      `is_writable` holds of an existing directory in `writable`. */
  class Disk {
    var dirs: set<string>
    var writable: set<string>

    constructor (dirs: set<string>, writable: set<string>)
      ensures this.dirs == dirs && this.writable == writable
    {
      this.dirs := dirs;
      this.writable := writable;
    }

    predicate IsDir(path: string)
      reads this
    {
      path in dirs
    }

    predicate IsWritable(path: string)
      reads this
    {
      path in dirs && path in writable
    }

    /** `wp_mkdir_p`: the directory exists afterwards. */
    method MakeDir(path: string)
      modifies this
      ensures dirs == old(dirs) + {path} && writable == old(writable)
    {
      dirs := dirs + {path};
    }
  }

  /** The directory `get_tmp_dir` settles on, given the directories before the
      call: wp-content/cache/<upload dir> when wp-content is writable and has no
      cache directory yet, or when the cache directory is writable, and that
      directory is writable once created; otherwise <upload base>/tmp. */
  function TmpDirFor(dirs: set<string>, writable: set<string>, isMultisite: bool,
                     uploadBaseDir: string, contentDir: string, uploadDirName: string): string
  {
    var alternative := uploadBaseDir + "/tmp";
    var baseCache := contentDir + "/cache";
    var defaultCache := baseCache + "/" + uploadDirName;
    var prefer := !isMultisite &&
      ((contentDir in dirs && contentDir in writable && baseCache !in dirs)
       || (baseCache in dirs && baseCache in writable));
    if prefer && defaultCache in writable then defaultCache else alternative
  }

  /** `get_tmp_dir`: creates the directory it first picks when missing. */
  method GetTmpDir(disk: Disk, isMultisite: bool, uploadBaseDir: string,
                   contentDir: string, uploadDirName: string) returns (cacheDir: string)
    modifies disk
    ensures cacheDir == TmpDirFor(old(disk.dirs), old(disk.writable), isMultisite,
                                  uploadBaseDir, contentDir, uploadDirName)
    ensures cacheDir != uploadBaseDir + "/tmp" ==> disk.IsWritable(cacheDir)
    ensures disk.writable == old(disk.writable)
    ensures var prefer := !isMultisite &&
      ((old(disk.IsWritable(contentDir)) && !old(disk.IsDir(contentDir + "/cache")))
       || old(disk.IsWritable(contentDir + "/cache")));
      disk.dirs == old(disk.dirs) + {if prefer then contentDir + "/cache/" + uploadDirName
                                     else uploadBaseDir + "/tmp"}
  {
    var alternative := uploadBaseDir + "/tmp";
    var baseCache := contentDir + "/cache";
    var defaultCache := baseCache + "/" + uploadDirName;
    assert contentDir + "/cache/" + uploadDirName == defaultCache;
    if !isMultisite && ((disk.IsWritable(contentDir) && !disk.IsDir(baseCache)) || disk.IsWritable(baseCache)) {
      cacheDir := defaultCache;
      if !disk.IsDir(cacheDir) {
        disk.MakeDir(cacheDir);
      }
      if !disk.IsWritable(cacheDir) {
        cacheDir := alternative;
      }
    } else {
      cacheDir := alternative;
      if !disk.IsDir(cacheDir) {
        disk.MakeDir(cacheDir);
      }
    }
  }

  /** A multisite install always uses the per-site upload tmp directory, and
      the cache directory is only ever chosen when writable. */
  lemma TmpDirChoice(dirs: set<string>, writable: set<string>, isMultisite: bool,
                     uploadBaseDir: string, contentDir: string, uploadDirName: string)
    ensures var r := TmpDirFor(dirs, writable, isMultisite, uploadBaseDir, contentDir, uploadDirName);
      && (r == uploadBaseDir + "/tmp" || (r == contentDir + "/cache/" + uploadDirName && r in writable))
      && (isMultisite ==> r == uploadBaseDir + "/tmp")
      && ((!isMultisite && contentDir + "/cache" in dirs && contentDir + "/cache" in writable
           && contentDir + "/cache/" + uploadDirName in writable) ==> r == contentDir + "/cache/" + uploadDirName)
  {
    assert contentDir + "/cache" + "/" + uploadDirName == contentDir + "/cache/" + uploadDirName;
  }
}

=== FILE: rest_api.dfy ===
/** The WordPress REST bridge of the plugin (classes/WpPsstats/API.php):
    the camelCase to snake_case name conversion, the derivation of a route's
    HTTP method (a request method of section 9.3 of RFC 9110) and path from an
    API method name, the rewriting of the request parameters before dispatch,
    and the naming of the error returned when the dispatched call throws. */
module RestApi {
  import opened Wrappers
  import opened Text

  // ---------------------------------------------------------------------------
  // to_snake_case: preg_match_all('!([A-Z][A-Z0-9]*(?=$|[A-Z][a-z0-9])|[A-Za-z][a-z0-9]+)!')
  // ---------------------------------------------------------------------------

  predicate IsUpperOrDigit(c: char) { IsUpper(c) || IsDigit(c) }
  predicate IsLowerOrDigit(c: char) { IsLower(c) || IsDigit(c) }

  /** End of the longest run of `p`-characters in `t` starting at `from`. */
  function RunEnd(t: string, from: nat, p: char -> bool): (r: nat)
    requires from <= |t|
    ensures from <= r <= |t|
    ensures forall j :: from <= j < r ==> p(t[j])
    ensures r == |t| || !p(t[r])
    decreases |t| - from
  {
    if from == |t| || !p(t[from]) then from else RunEnd(t, from + 1, p)
  }

  /** The lookahead `(?=$|[A-Z][a-z0-9])` holds at position `e`. */
  predicate LookaheadAt(t: string, e: nat)
    requires e <= |t|
  {
    e == |t| || (IsUpper(t[e]) && e + 1 < |t| && IsLowerOrDigit(t[e + 1]))
  }

  /** Backtracking of the greedy `[A-Z0-9]*`: the longest end in `lo..e` at
      which the lookahead holds. */
  function Backtrack(t: string, lo: nat, e: nat): (r: Option<nat>)
    requires lo <= e <= |t|
    ensures r.Some? ==> lo <= r.value <= e && LookaheadAt(t, r.value)
    ensures r.Some? ==> forall j :: r.value < j <= e ==> !LookaheadAt(t, j)
    ensures r.None? ==> forall j :: lo <= j <= e ==> !LookaheadAt(t, j)
    decreases e
  {
    if LookaheadAt(t, e) then Some(e)
    else if e > lo then Backtrack(t, lo, e - 1)
    else None
  }

  /** Second alternative `[A-Za-z][a-z0-9]+`, greedy. */
  function WordMatch(t: string): Option<nat> {
    if |t| >= 2 && IsAlpha(t[0]) && IsLowerOrDigit(t[1]) then Some(RunEnd(t, 2, IsLowerOrDigit))
    else None
  }

  /** An all-caps token: `[A-Z][A-Z0-9]*`. */
  predicate CapsToken(w: string) {
    |w| > 0 && IsUpper(w[0]) && forall j :: 0 <= j < |w| ==> IsUpperOrDigit(w[j])
  }

  /** A word token: `[A-Za-z][a-z0-9]+`. */
  predicate WordToken(w: string) {
    |w| >= 2 && IsAlpha(w[0]) && forall j :: 1 <= j < |w| ==> IsLowerOrDigit(w[j])
  }

  /** Length of the regex match anchored at the start of `t`, first
      alternative first. */
  function MatchLen(t: string): (r: Option<nat>)
    ensures r.Some? ==> 0 < r.value <= |t| && (CapsToken(t[..r.value]) || WordToken(t[..r.value]))
  {
    if |t| > 0 && IsUpper(t[0]) then
      match Backtrack(t, 1, RunEnd(t, 1, IsUpperOrDigit))
      case Some(e) => Some(e)
      case None => WordMatch(t)
    else WordMatch(t)
  }

  /** All matches of the regex, left to right; unmatched characters are skipped. */
  function Tokens(s: string): (r: seq<string>)
    ensures forall k :: 0 <= k < |r| ==> CapsToken(r[k]) || WordToken(r[k])
    decreases |s|
  {
    if |s| == 0 then []
    else match MatchLen(s)
      case Some(n) => [s[..n]] + Tokens(s[n..])
      case None => Tokens(s[1..])
  }

  /** Per-token case map: an all-upper token is lower-cased, any other is lcfirst'ed. */
  function ConvertToken(w: string): string {
    if ToUpper(w) == w then ToLower(w) else LcFirst(w)
  }

  function ConvertAll(ws: seq<string>): (r: seq<string>)
    ensures |r| == |ws|
    ensures forall k :: 0 <= k < |ws| ==> r[k] == ConvertToken(ws[k])
  {
    if |ws| == 0 then [] else [ConvertToken(ws[0])] + ConvertAll(ws[1..])
  }

  /** `to_snake_case`. */
  function ToSnakeCase(s: string): string {
    Join("_", ConvertAll(Tokens(s)))
  }

  /** A character that may appear in a word of a snake_case name. */
  predicate IsWordChar(c: char) { IsLower(c) || IsDigit(c) }

  predicate SnakeWord(w: string) {
    |w| > 0 && IsLower(w[0]) && forall j :: 0 <= j < |w| ==> IsWordChar(w[j])
  }

  /** An all-caps token is its own upper-case form. */
  lemma CapsTokenIsUpper(w: string)
    requires CapsToken(w)
    ensures ToUpper(w) == w
  {
    forall j | 0 <= j < |w| ensures ToUpper(w)[j] == w[j] { }
  }

  /** A lower-case word is left unchanged by the token case map. */
  lemma LowerWordConverts(p: string)
    requires |p| >= 1 && forall j :: 0 <= j < |p| ==> IsLower(p[j])
    ensures ConvertToken(p) == p
  {
    assert ToUpper(p)[0] != p[0];
    assert LcFirst(p) == [LowerChar(p[0])] + p[1..] == p;
  }

  /** Every token of the regex becomes a non-empty word of lower-case letters
      and digits that starts with a letter. */
  lemma ConvertedTokenIsWord(w: string)
    requires CapsToken(w) || WordToken(w)
    ensures SnakeWord(ConvertToken(w))
  {
    var r := ConvertToken(w);
    if CapsToken(w) {
      CapsTokenIsUpper(w);
      assert r == ToLower(w);
    } else {
      assert r == LcFirst(w);
      forall j | 0 <= j < |w| ensures IsWordChar(r[j]) {
        if j > 0 { assert r[j] == r[1..][j - 1] == w[1..][j - 1] == w[j]; }
      }
    }
  }

  /** Shape of a word list joined with '_': the words are recovered by
      splitting on '_', and every character is a word character or '_'. */
  lemma {:induction false} JoinedWords(ws: seq<string>)
    requires forall k :: 0 <= k < |ws| ==> SnakeWord(ws[k])
    ensures var r := Join("_", ws);
      && (forall j :: 0 <= j < |r| ==> IsWordChar(r[j]) || r[j] == '_')
      && (|ws| > 0 ==> Split(r, '_') == ws && r[..|ws[0]|] == ws[0])
      && (|ws| == 0 ==> r == "")
  {
    if |ws| > 1 {
      JoinedWords(ws[1..]);
      var rest := Join("_", ws[1..]);
      assert Join("_", ws) == ws[0] + "_" + rest;
      SplitAfterWord(ws[0], rest);
    } else if |ws| == 1 {
      SplitOfWord(ws[0]);
    }
  }

  lemma {:induction false} SplitOfWord(w: string)
    requires forall j :: 0 <= j < |w| ==> w[j] != '_'
    ensures Split(w, '_') == [w]
    decreases |w|
  {
    if |w| > 0 {
      SplitOfWord(w[1..]);
      assert [w[0]] + w[1..] == w;
    }
  }

  lemma {:induction false} SplitAfterWord(w: string, rest: string)
    requires forall j :: 0 <= j < |w| ==> w[j] != '_'
    ensures Split(w + "_" + rest, '_') == [w] + Split(rest, '_')
    decreases |w|
  {
    if |w| == 0 {
      assert w + "_" + rest == ['_'] + rest;
      assert (w + "_" + rest)[1..] == rest;
    } else {
      SplitAfterWord(w[1..], rest);
      assert (w + "_" + rest)[1..] == w[1..] + "_" + rest;
      assert [w[0]] + w[1..] == w;
    }
  }

  /** `to_snake_case` output: no upper-case letter, only lower-case letters,
      digits and '_', and the words (split on '_') are exactly the converted
      regex tokens, so they are non-empty: no leading, trailing or doubled '_'. */
  lemma SnakeCaseShape(s: string)
    ensures var r := ToSnakeCase(s); var ws := ConvertAll(Tokens(s));
      && NoUpper(r)
      && (forall j :: 0 <= j < |r| ==> IsWordChar(r[j]) || r[j] == '_')
      && (|ws| == 0 <==> r == "")
      && (|ws| > 0 ==> Split(r, '_') == ws && SnakeWord(ws[0]) && r[..|ws[0]|] == ws[0])
      && (forall k :: 0 <= k < |ws| ==> SnakeWord(ws[k]))
  {
    var ts := Tokens(s);
    var ws := ConvertAll(ts);
    forall k | 0 <= k < |ws| ensures SnakeWord(ws[k]) {
      ConvertedTokenIsWord(ts[k]);
    }
    JoinedWords(ws);
    var r := Join("_", ws);
    if |ws| > 0 { assert |r| >= |ws[0]| > 0; }
  }

  /** An all-caps run followed by a capitalised word is split right before
      the word's capital: `HTTPServer` matches `HTTP` first. */
  lemma CapsRunThenWord(u: string, w: string)
    requires CapsToken(u)
    requires |w| >= 2 && IsUpper(w[0]) && IsLower(w[1])
    ensures MatchLen(u + w) == Some(|u|)
    ensures Tokens(u + w) == [u] + Tokens(w)
  {
    var t := u + w;
    assert t[|u|] == w[0] && t[|u| + 1] == w[1];
    var e := RunEnd(t, 1, IsUpperOrDigit);
    assert forall j :: 1 <= j < |u| ==> t[j] == u[j];
    assert e == |u| + 1;
    assert !LookaheadAt(t, |u| + 1);
    assert LookaheadAt(t, |u|);
    assert Backtrack(t, 1, e) == Some(|u|);
    assert t[..|u|] == u && t[|u|..] == w;
  }

  /** A lower-case verb followed by a capitalised word is split after the verb:
      `getProcessedReport` matches `get` first. */
  lemma LowerWordThenWord(p: string, w: string)
    requires |p| >= 2 && forall j :: 0 <= j < |p| ==> IsLower(p[j])
    requires |w| >= 1 && IsUpper(w[0])
    ensures Tokens(p + w) == [p] + Tokens(w)
    ensures ConvertToken(p) == p
  {
    var t := p + w;
    assert t[|p|] == w[0];
    assert forall j :: 0 <= j < |p| ==> t[j] == p[j];
    assert RunEnd(t, 2, IsLowerOrDigit) == |p|;
    assert MatchLen(t) == Some(|p|);
    assert t[..|p|] == p && t[|p|..] == w;
    assert ToUpper(p)[0] != p[0];
    assert LcFirst(p) == p;
  }

  // ---------------------------------------------------------------------------
  // register_route
  // ---------------------------------------------------------------------------

  /** The request methods used for routes (section 9.3 of RFC 9110). */
  datatype Verb = GET | POST | PUT | DELETE

  /** The ordered prefix table of register_route. */
  const MethodPrefixes: seq<(string, Verb)> := [
    ("get", GET), ("edit", PUT), ("update", PUT), ("create", POST), ("add", POST),
    ("anonymize", POST), ("invalidate", POST), ("run", POST), ("send", POST),
    ("delete", DELETE), ("remove", DELETE)
  ]

  /** Prefixes kept in the route action. */
  const KeepPrefix: set<string> := {"anonymize", "invalidate", "run", "send"}

  const ApiVersion: string := "psstats/v1"

  datatype Route = Route(namespace: string, path: string, verb: Verb, apiModule: string, apiMethod: string)

  /** The index of the first table prefix the method name starts with. */
  function FirstPrefix(m: string, from: nat): (r: Option<nat>)
    ensures r.Some? ==> from <= r.value < |MethodPrefixes| && StartsWith(m, MethodPrefixes[r.value].0)
    ensures forall j :: from <= j < |MethodPrefixes| && (r.None? || j < r.value) ==>
      !StartsWith(m, MethodPrefixes[j].0)
    decreases |MethodPrefixes| - from
  {
    if from >= |MethodPrefixes| then None
    else if StartsWith(m, MethodPrefixes[from].0) then Some(from)
    else FirstPrefix(m, from + 1)
  }

  /** PHP 8 `substr($s, $n)`: empty once `n` passes the end. */
  function Substr(s: string, n: nat): string {
    if n <= |s| then s[n..] else ""
  }

  /** The action after stripping a prefix of length `n` from the snake name,
      together with any '_' that follows it. */
  function StrippedAction(snake: string, n: nat): string {
    Trim(TrimLeftBy(Substr(snake, n), IsUnderscore))
  }

  /** The route action register_route derives from an API method name. */
  function ActionFor(m: string): string {
    var snake := ToSnakeCase(m);
    match FirstPrefix(m, 0)
    case None => snake
    case Some(k) =>
      if MethodPrefixes[k].0 in KeepPrefix then snake
      else
        var stripped := StrippedAction(snake, |MethodPrefixes[k].0|);
        if PhpEmpty(stripped) then snake else stripped
  }

  /** The HTTP method register_route derives from an API method name. */
  function VerbFor(m: string): Verb {
    match FirstPrefix(m, 0)
    case None => GET
    case Some(k) => MethodPrefixes[k].1
  }

  /** `register_route`: scans the prefix table in order and stops at the first
      prefix the camelCase method name starts with. */
  method RegisterRoute(apiModule: string, apiMethod: string) returns (route: Route)
    ensures route.verb == VerbFor(apiMethod)
    ensures route.path == "/" + ToSnakeCase(apiModule) + "/" + ActionFor(apiMethod) + "/"
    ensures route.namespace == ApiVersion && route.apiModule == apiModule && route.apiMethod == apiMethod
  {
    var verb := GET;
    var wpModule := ToSnakeCase(apiModule);
    var wpAction := ToSnakeCase(apiMethod);
    var i := 0;
    while i < |MethodPrefixes|
      invariant 0 <= i <= |MethodPrefixes|
      invariant FirstPrefix(apiMethod, 0) == FirstPrefix(apiMethod, i)
      invariant verb == GET && wpAction == ToSnakeCase(apiMethod)
    {
      var (prefix, use) := MethodPrefixes[i];
      if StartsWith(apiMethod, prefix) {
        verb := use;
        if prefix !in KeepPrefix {
          var newAction := StrippedAction(wpAction, |prefix|);
          if !PhpEmpty(newAction) {
            wpAction := newAction;
          }
        }
        route := Route(ApiVersion, "/" + wpModule + "/" + wpAction + "/", verb, apiModule, apiMethod);
        return;
      }
      i := i + 1;
    }
    route := Route(ApiVersion, "/" + wpModule + "/" + wpAction + "/", verb, apiModule, apiMethod);
  }

  /** Every table prefix is a lower-case word of at least three letters,
      and no two of them share their first two letters. */
  lemma PrefixTableShape(i: nat, j: nat)
    requires i < |MethodPrefixes| && j < |MethodPrefixes|
    ensures var p := MethodPrefixes[i].0;
      |p| >= 3 && forall c :: 0 <= c < |p| ==> IsLower(p[c])
    ensures var p, q := MethodPrefixes[i].0, MethodPrefixes[j].0;
      i != j ==> |p| >= 2 && |q| >= 2 && (p[0] != q[0] || p[1] != q[1])
  {
    if i == 0 {} else if i == 1 {} else if i == 2 {} else if i == 3 {} else if i == 4 {}
    else if i == 5 {} else if i == 6 {} else if i == 7 {} else if i == 8 {} else if i == 9 {}
  }

  /** No table prefix is a proper prefix of another one, so a method name made
      of a table verb and a capitalised word selects exactly that verb. */
  lemma FirstPrefixOfVerbAndWord(k: nat, w: string)
    requires k < |MethodPrefixes|
    requires |w| >= 1 && IsUpper(w[0])
    ensures FirstPrefix(MethodPrefixes[k].0 + w, 0) == Some(k)
  {
    var p := MethodPrefixes[k].0;
    var m := p + w;
    PrefixTableShape(k, k);
    assert StartsWith(m, p) by { assert m[..|p|] == p; }
    assert m[0] == p[0] && m[1] == p[1];
    forall j | 0 <= j < k ensures !StartsWith(m, MethodPrefixes[j].0) {
      PrefixTableShape(j, k);
      var q := MethodPrefixes[j].0;
      assert !StartsWith(m, q) by {
        if |q| <= |m| { assert m[..|q|][0] == m[0] && m[..|q|][1] == m[1]; }
      }
    }
  }

  lemma SnakeOfVerbAndWord(p: string, w: string)
    requires |p| >= 2 && forall j :: 0 <= j < |p| ==> IsLower(p[j])
    requires |w| >= 2 && IsUpper(w[0]) && IsLowerOrDigit(w[1])
    ensures var sw := ToSnakeCase(w);
      && SnakeWord(sw[..1]) && (forall j :: 0 <= j < |sw| ==> IsWordChar(sw[j]) || sw[j] == '_')
      && ToSnakeCase(p + w) == p + "_" + sw
  {
    LowerWordThenWord(p, w);
    var ts := Tokens(w);
    assert MatchLen(w).Some?;
    assert |ts| > 0;
    SnakeCaseShape(w);
    var ws := ConvertAll(ts);
    assert ConvertAll([p] + ts) == [p] + ws;
    assert Join("_", [p] + ws) == p + "_" + Join("_", ws);
  }

  /** Stripping the one-letter prefix "_" leaves the rest to be trimmed. */
  lemma StripUnderscorePrefix(sw: string)
    ensures StrippedAction("_" + sw, 1) == Trim(TrimLeftBy(sw, IsUnderscore))
  {
    assert Substr("_" + sw, 1) == sw;
  }

  /** A word that starts with a letter and ends in a word character or '_'
      has nothing for `trim` to remove. */
  lemma SnakeWordTrimmed(sw: string)
    requires |sw| > 0 && IsLower(sw[0])
    requires IsWordChar(sw[|sw| - 1]) || sw[|sw| - 1] == '_'
    ensures Trim(sw) == sw
  {
    assert !IsTrimChar(sw[0]);
    assert !IsTrimChar(sw[|sw| - 1]);
    TrimKeeps(sw);
  }

  /** A snake name made of word characters and '_' that starts with a
      letter survives the trimming done by register_route. */
  lemma TrimKeepsSnake(sw: string)
    requires |sw| > 0 && IsLower(sw[0])
    requires IsWordChar(sw[|sw| - 1]) || sw[|sw| - 1] == '_'
    ensures StrippedAction("_" + sw, 1) == sw
  {
    StripUnderscorePrefix(sw);
    TrimLeftKeeps(sw, IsUnderscore);
    SnakeWordTrimmed(sw);
  }

  /** A name starting with a letter is not empty in PHP's sense. */
  lemma LetterFirstNotEmpty(sw: string)
    requires |sw| > 0 && IsLower(sw[0])
    ensures !PhpEmpty(sw)
  {
    assert sw[0] != "0"[0];
  }

  /** For a non-keep verb followed by a capitalised word the route action is
      the snake name of the word alone (`getProcessedReport` gives
      `processed_report`, `addGoal` gives `goal`); the HTTP method is that verb's. */
  lemma RouteOfVerbAndWord(k: nat, w: string)
    requires k < |MethodPrefixes| && MethodPrefixes[k].0 !in KeepPrefix
    requires |w| >= 2 && IsUpper(w[0]) && IsLowerOrDigit(w[1])
    ensures ActionFor(MethodPrefixes[k].0 + w) == ToSnakeCase(w)
    ensures VerbFor(MethodPrefixes[k].0 + w) == MethodPrefixes[k].1
  {
    var p := MethodPrefixes[k].0;
    PrefixTableShape(k, k);
    FirstPrefixOfVerbAndWord(k, w);
    SnakeOfVerbAndWord(p, w);
    var sw := ToSnakeCase(w);
    assert IsLower(sw[0]) by { assert SnakeWord(sw[..1]); }
    TrimKeepsSnake(sw);
    LetterFirstNotEmpty(sw);
    StripAfterPrefix(p, sw);
    ActionOfStrippedPrefix(p + w, k);
  }

  lemma StripAfterPrefix(p: string, sw: string)
    ensures StrippedAction(p + "_" + sw, |p|) == StrippedAction("_" + sw, 1)
  {
    assert Substr(p + "_" + sw, |p|) == "_" + sw;
    assert Substr("_" + sw, 1) == sw;
    assert TrimLeftBy("_" + sw, IsUnderscore) == TrimLeftBy(sw, IsUnderscore);
  }

  /** With a stripped (non-keep) prefix found, the action is the stripped
      snake name unless that is empty in PHP's sense. */
  lemma ActionOfStrippedPrefix(m: string, k: nat)
    requires k < |MethodPrefixes| && MethodPrefixes[k].0 !in KeepPrefix
    requires FirstPrefix(m, 0) == Some(k)
    ensures var st := StrippedAction(ToSnakeCase(m), |MethodPrefixes[k].0|);
      ActionFor(m) == if PhpEmpty(st) then ToSnakeCase(m) else st
  {
  }

  /** For a keep-prefix verb (anonymize, invalidate, run, send) followed by a
      capitalised word, the action is the whole snake name, prefix included. */
  lemma RouteOfKeptVerbAndWord(k: nat, w: string)
    requires k < |MethodPrefixes| && MethodPrefixes[k].0 in KeepPrefix
    requires |w| >= 2 && IsUpper(w[0]) && IsLowerOrDigit(w[1])
    ensures ActionFor(MethodPrefixes[k].0 + w) == MethodPrefixes[k].0 + "_" + ToSnakeCase(w)
    ensures VerbFor(MethodPrefixes[k].0 + w) == POST
  {
    var p := MethodPrefixes[k].0;
    assert FirstPrefix(p + w, 0) == Some(k) by {
      FirstPrefixOfVerbAndWord(k, w);
    }
    assert ActionFor(p + w) == ToSnakeCase(p + w) && VerbFor(p + w) == POST by {
      ActionOfKeptPrefix(p + w, k);
    }
    assert ToSnakeCase(p + w) == p + "_" + ToSnakeCase(w) by {
      PrefixTableShape(k, k);
      SnakeOfVerbAndWord(p, w);
    }
  }

  /** With a kept prefix found, the action is the whole snake name and the
      request method is POST. */
  lemma ActionOfKeptPrefix(m: string, k: nat)
    requires k < |MethodPrefixes| && MethodPrefixes[k].0 in KeepPrefix
    requires FirstPrefix(m, 0) == Some(k)
    ensures ActionFor(m) == ToSnakeCase(m) && VerbFor(m) == POST
  {
    assert MethodPrefixes[k].1 == POST by {
      if k == 0 {} else if k == 1 {} else if k == 2 {} else if k == 3 {} else if k == 4 {}
      else if k == 9 {} else if k == 10 {}
    }
  }

  /** A method name that is a table verb alone keeps its whole snake name as
      action (`Annotations.add` is routed as `/annotations/add/`). */
  lemma RouteOfBareVerb(k: nat)
    requires k < |MethodPrefixes|
    ensures ActionFor(MethodPrefixes[k].0) == MethodPrefixes[k].0
    ensures VerbFor(MethodPrefixes[k].0) == MethodPrefixes[k].1
  {
    var p := MethodPrefixes[k].0;
    PrefixTableShape(k, k);
    assert FirstPrefix(p, 0) == Some(k) by {
      assert StartsWith(p, p) by { assert p[..|p|] == p; }
      forall j | 0 <= j < k ensures !StartsWith(p, MethodPrefixes[j].0) {
        PrefixTableShape(j, k);
        var q := MethodPrefixes[j].0;
        assert !StartsWith(p, q) by {
          if |q| <= |p| { assert p[..|q|][0] == p[0] && p[..|q|][1] == p[1]; }
        }
      }
    }
    assert RunEnd(p, 2, IsLowerOrDigit) == |p|;
    assert MatchLen(p) == Some(|p|);
    assert p[..|p|] == p && p[|p|..] == "";
    assert Tokens(p) == [p];
    LowerWordConverts(p);
    assert ConvertAll([p]) == [p];
    assert ToSnakeCase(p) == p;
    assert Substr(p, |p|) == "";
  }

  // ---------------------------------------------------------------------------
  // execute_request
  // ---------------------------------------------------------------------------

  /** A request parameter: PHP null, a string, an int, or anything else. */
  datatype Param = Null | Str(s: string) | Int(i: int) | Other

  const SiteIdKeys: set<string> := {"idSite", "idsite", "idsites", "idSites"}

  /** `isset($params[$key])`. */
  predicate IsSet(params: map<string, Param>, key: string) {
    key in params && params[key] != Null
  }

  /** The parameters with the current site id under all four id spellings. */
  function WithSiteIds(params: map<string, Param>, siteId: int): (r: map<string, Param>)
    ensures forall k :: k in SiteIdKeys ==> k in r && r[k] == Int(siteId)
    ensures forall k :: k in params && k !in SiteIdKeys ==> k in r && r[k] == params[k]
    ensures forall k :: k in r ==> k in params || k in SiteIdKeys
  {
    params["idSite" := Int(siteId)]["idsite" := Int(siteId)]["idsites" := Int(siteId)]["idSites" := Int(siteId)]
  }

  /** The 'segment' parameter dropped when the request itself carries one,
      or unsanitised when it is a non-empty string; every other parameter
      is left alone. */
  function SegmentRewrite(params: map<string, Param>, segmentInRequest: bool,
                          unsanitize: string -> string): (r: map<string, Param>)
    ensures forall k :: k != "segment" ==> (k in r <==> k in params) && (k in r ==> r[k] == params[k])
    ensures IsSet(params, "segment") && segmentInRequest ==> "segment" !in r
    ensures IsSet(params, "segment") && !segmentInRequest && params["segment"].Str? && !PhpEmpty(params["segment"].s)
      ==> "segment" in r && r["segment"] == Str(unsanitize(params["segment"].s))
    ensures (!IsSet(params, "segment") || (!segmentInRequest && !(params["segment"].Str? && !PhpEmpty(params["segment"].s))))
      ==> r == params
  {
    if IsSet(params, "segment") then
      if segmentInRequest then params - {"segment"}
      else if params["segment"].Str? && !PhpEmpty(params["segment"].s) then
        params["segment" := Str(unsanitize(params["segment"].s))]
      else params
    else params
  }

  /** What `Request::processRequest` did: returned a value or threw. */
  datatype ApiOutcome = Returned(value: string) | Threw(className: string, code: int, message: string)

  datatype Response = Value(value: string) | WpError(code: string, message: string)

  const SiteNotFound := "Seite nicht gefunden. Stelle sicher, dass es synchronisiert ist"

  /** The error code of a thrown exception: 'psstats_error' for a plain
      Exception, doubled to 'psstats_error_psstats_error' when the exception
      has a non-zero code, and the snake name of any other class with 'piwik'
      replaced by 'psstats'. */
  function ErrorCode(className: string, code: int): (r: string)
    ensures className == "Exception" && code == 0 ==> r == "psstats_error"
    ensures className == "Exception" && code != 0 ==> r == "psstats_error_psstats_error"
    ensures className != "Exception" ==> r == ReplaceAll(ToSnakeCase(className), "piwik", "psstats")
  {
    var base := "psstats_error";
    var withCode := if code != 0 then base + "_" + base else base;
    if className != "Exception" then ReplaceAll(ToSnakeCase(className), "piwik", "psstats") else withCode
  }

  /** The request's own `$_GET` and `$_POST`, which execute_request edits. */
  class Superglobals {
    var get: map<string, string>
    var post: map<string, string>

    constructor (get: map<string, string>, post: map<string, string>)
      ensures this.get == get && this.post == post
    {
      this.get := get;
      this.post := post;
    }
  }

  /** `execute_request` with the site lookup result `siteId` (0 when the site
      is not synced) and the API dispatcher `process` as parameters. */
  method ExecuteRequest(g: Superglobals, apiMethod: string, withIdsite: bool, siteId: int,
                        params: map<string, Param>, unsanitize: string -> string,
                        process: (string, map<string, Param>) -> ApiOutcome)
    returns (r: Response)
    modifies g
    ensures withIdsite && siteId == 0 ==> r == WpError(SiteNotFound, "") && unchanged(g)
    ensures !(withIdsite && siteId == 0) ==>
      && g.get == old(g.get) - {"token_auth"} && g.post == old(g.post) - {"token_auth"}
      && var segmentInRequest := "segment" in old(g.get) || "segment" in old(g.post);
         var sent := SegmentRewrite(if withIdsite then WithSiteIds(params, siteId) else params,
                                    segmentInRequest, unsanitize);
         match process(apiMethod, sent)
         case Returned(v) => r == Value(v)
         case Threw(cls, code, msg) => r == WpError(ErrorCode(cls, code), msg)
  {
    if withIdsite && siteId == 0 {
      return WpError(SiteNotFound, "");
    }
    var p := params;
    if withIdsite {
      p := p["idSite" := Int(siteId)]["idsite" := Int(siteId)]["idsites" := Int(siteId)]["idSites" := Int(siteId)];
    }
    assert p == if withIdsite then WithSiteIds(params, siteId) else params;
    g.get := g.get - {"token_auth"};
    g.post := g.post - {"token_auth"};
    ghost var p0 := p;
    if IsSet(p, "segment") {
      if "segment" in g.get || "segment" in g.post {
        p := p - {"segment"};
      } else if p["segment"].Str? && !PhpEmpty(p["segment"].s) {
        p := p["segment" := Str(unsanitize(p["segment"].s))];
      }
    }
    assert p == SegmentRewrite(p0, "segment" in old(g.get) || "segment" in old(g.post), unsanitize);
    match process(apiMethod, p)
    case Returned(v) => r := Value(v);
    case Threw(cls, code, msg) => r := WpError(ErrorCode(cls, code), msg);
  }
}

=== FILE: static_container.dfy ===
/** Static access to the dependency-injection container
    (app/core/Container/StaticContainer.php): a stack of containers whose top
    is the current one, and an append-only list of definition arrays. The two
    static arrays are the fields of one registry object. */
module StaticContainer {
  import opened Wrappers

  const NoRootContainer := "Der Root-Container wurde noch nicht erstellt."

  /** A container, reduced to the entries it can hand out by name. */
  datatype Container = Container(entries: map<string, string>)

  /** One `addDefinitions` argument: entry names to definitions. */
  type Definitions = map<string, string>

  /** What `StaticContainer::get` yields: the entry, the
      ContainerDoesNotExistException of an empty stack, or the container's own
      not-found failure. */
  datatype Lookup = Found(value: string) | NoContainer(message: string) | NotFound(name: string)

  class Registry {
    var containerStack: seq<Container>
    var definitions: seq<Definitions>

    constructor ()
      ensures containerStack == [] && definitions == []
    {
      containerStack := [];
      definitions := [];
    }

    /** `getContainer`: the top of the stack, or the exception's message when
        the stack is empty. */
    function GetContainer(): (r: Result<Container>)
      reads this
      ensures containerStack == [] <==> r == Err(NoRootContainer)
      ensures containerStack != [] ==> r == Ok(containerStack[|containerStack| - 1])
    {
      if |containerStack| == 0 then Err(NoRootContainer) else Ok(containerStack[|containerStack| - 1])
    }

    method Push(c: Container)
      modifies this
      ensures containerStack == old(containerStack) + [c]
      ensures definitions == old(definitions)
      ensures GetContainer() == Ok(c)
    {
      containerStack := containerStack + [c];
    }

    /** `pop`: `array_pop`, which leaves an empty stack empty. */
    method Pop()
      modifies this
      ensures old(containerStack) == [] ==> containerStack == []
      ensures old(containerStack) != [] ==> containerStack == old(containerStack)[..|old(containerStack)| - 1]
      ensures definitions == old(definitions)
    {
      if |containerStack| > 0 {
        containerStack := containerStack[..|containerStack| - 1];
      }
    }

    /** `clearContainer`: the same as `pop`. */
    method ClearContainer()
      modifies this
      ensures old(containerStack) == [] ==> containerStack == []
      ensures old(containerStack) != [] ==> containerStack == old(containerStack)[..|old(containerStack)| - 1]
      ensures definitions == old(definitions)
    {
      Pop();
    }

    method AddDefinitions(d: Definitions)
      modifies this
      ensures definitions == old(definitions) + [d]
      ensures containerStack == old(containerStack)
    {
      definitions := definitions + [d];
    }

    /** `getDefinitions`: every added array, in the order added. */
    function GetDefinitions(): (r: seq<Definitions>)
      reads this
      ensures r == definitions
    {
      definitions
    }

    /** `get`: delegates to the current container. */
    function Get(name: string): (r: Lookup)
      reads this
      ensures containerStack == [] ==> r == NoContainer(NoRootContainer)
      ensures containerStack != [] ==>
        var top := containerStack[|containerStack| - 1];
        r == if name in top.entries then Found(top.entries[name]) else NotFound(name)
    {
      match GetContainer()
      case Err(msg) => NoContainer(msg)
      case Ok(top) => if name in top.entries then Found(top.entries[name]) else NotFound(name)
    }
  }

  /** Push then pop restores the stack, and with it the current container;
      the definitions are untouched by either. */
  method PushPopRestores(reg: Registry, c: Container)
    modifies reg
    ensures reg.containerStack == old(reg.containerStack)
    ensures reg.GetContainer() == old(reg.GetContainer())
    ensures reg.GetDefinitions() == old(reg.GetDefinitions())
  {
    reg.Push(c);
    reg.Pop();
    assert (old(reg.containerStack) + [c])[..|old(reg.containerStack)|] == old(reg.containerStack);
  }
}

=== FILE: sync_config.dfy ===
/** Network-wide configuration synchronisation
    (classes/WpPsstats/Site/Sync/SyncConfig.php). In network mode the
    configuration values are kept in one global WordPress option, a two-level
    map category -> key -> value, and copied into the current site's config
    file; outside network mode values are written to the config file
    directly. Values are strings; PHP's loose `!=` is modelled as `!=`. */
module SyncConfig {
  import opened Wrappers

  type Group = map<string, string>
  type Sections = map<string, Group>

  /** A config section, with an absent one read as empty (`empty($cat)`). */
  function CatOf(config: Sections, c: string): Group {
    if c in config then config[c] else map[]
  }

  /** `!isset($cat[$key]) || $cat[$key] != $value`. */
  predicate Differs(cat: Group, keys: Group, k: string)
    requires k in keys
  {
    k !in cat || cat[k] != keys[k]
  }

  predicate KeyChange(cat: Group, keys: Group) {
    exists k :: k in keys && Differs(cat, keys, k)
  }

  /** Whether syncing category `c` changes anything. */
  predicate CategoryChanges(config: Sections, options: Sections, c: string)
    requires c in options
  {
    if options[c] == map[] then CatOf(config, c) != map[] else KeyChange(CatOf(config, c), options[c])
  }

  /** One category after syncing it: its keys merged over the section, or the
      section emptied when the category lists no keys. */
  function SyncedCat(config: Sections, options: Sections, c: string): Group
    requires c in config || (c in options && options[c] != map[])
  {
    if c in options && options[c] != map[] then CatOf(config, c) + options[c]
    else if c in options && CatOf(config, c) != map[] then map[]
    else config[c]
  }

  function NonEmptyCategories(options: Sections): set<string> {
    set c | c in options && options[c] != map[]
  }

  /** The config after `sync_config_for_current_site` in network mode. */
  function Synced(config: Sections, options: Sections): (r: Sections)
    ensures forall c :: c in options && options[c] != map[] ==> c in r && r[c] == CatOf(config, c) + options[c]
    ensures forall c :: c in options && options[c] == map[] && c in config ==> c in r && r[c] == map[]
    ensures forall c :: c !in options ==> (c in r <==> c in config) && (c in config ==> r[c] == config[c])
    ensures forall c :: c in r <==> c in config || (c in options && options[c] != map[])
  {
    map c | c in config.Keys + NonEmptyCategories(options) :: SyncedCat(config, options, c)
  }

  predicate HasChange(config: Sections, options: Sections) {
    exists c :: c in options && CategoryChanges(config, options, c)
  }

  /** The loop invariant of the sync: the categories in `done` are synced,
      every other section is as it was. */
  ghost predicate PartiallySynced(cur: Sections, config0: Sections, options: Sections, done: set<string>)
    requires done <= options.Keys
  {
    && (forall x :: x in cur <==> x in config0 || (x in done && options[x] != map[]))
    && (forall x :: x in cur ==> cur[x] == if x in done then SyncedCat(config0, options, x) else config0[x])
  }

  ghost predicate ChangedSome(config0: Sections, options: Sections, done: set<string>)
    requires done <= options.Keys
  {
    exists c :: c in done && CategoryChanges(config0, options, c)
  }

  lemma ChangedSomeStep(config0: Sections, options: Sections, done: set<string>, c: string)
    requires done <= options.Keys && c in options
    ensures ChangedSome(config0, options, done + {c}) <==>
      ChangedSome(config0, options, done) || CategoryChanges(config0, options, c)
  {
    if ChangedSome(config0, options, done + {c}) {
      var x :| x in done + {c} && CategoryChanges(config0, options, x);
      if x != c { assert x in done; }
    }
  }

  /** Some key among `done` is missing from the section or differs. */
  ghost predicate DiffersAmong(cat: Group, keys: Group, done: set<string>)
    requires done <= keys.Keys
  {
    exists k :: k in done && Differs(cat, keys, k)
  }

  lemma DiffersAmongStep(cat: Group, keys: Group, done: set<string>, key: string)
    requires done <= keys.Keys && key in keys
    ensures DiffersAmong(cat, keys, done + {key}) <==> DiffersAmong(cat, keys, done) || Differs(cat, keys, key)
  {
    if DiffersAmong(cat, keys, done + {key}) {
      var x :| x in done + {key} && Differs(cat, keys, x);
      if x != key { assert x in done; }
    }
  }

  lemma DiffersAmongAll(cat: Group, keys: Group)
    ensures DiffersAmong(cat, keys, keys.Keys) <==> KeyChange(cat, keys)
  {
  }

  /** The loop invariant of merging one category: the keys in `done` are
      merged into the section, the other entries are as they were. */
  ghost predicate MergedSoFar(cat: Group, cat0: Group, keys: Group, done: set<string>)
    requires done <= keys.Keys
  {
    && (forall k :: k in cat <==> k in cat0 || k in done)
    && (forall k :: k in cat ==> cat[k] == if k in done then keys[k] else cat0[k])
  }

  /** The sections hold the merged section once something changed, and are
      as they were before otherwise. */
  ghost predicate WrittenBack(sections: Sections, before: Sections, category: string, cat: Group, changed: bool) {
    && (forall c :: c in sections <==> c in before || (changed && c == category))
    && (forall c :: c in sections ==> sections[c] == if changed && c == category then cat else before[c])
  }

  lemma MergeKeyStep(cat: Group, cat0: Group, keys: Group, done: set<string>, key: string,
                     sections: Sections, before: Sections, category: string, changed: bool)
    requires done <= keys.Keys && key in keys && key !in done
    requires MergedSoFar(cat, cat0, keys, done) && WrittenBack(sections, before, category, cat, changed)
    ensures Differs(cat, keys, key) <==> Differs(cat0, keys, key)
    ensures !Differs(cat, keys, key) ==> MergedSoFar(cat, cat0, keys, done + {key})
    ensures var next := cat[key := keys[key]];
      MergedSoFar(next, cat0, keys, done + {key}) && WrittenBack(sections[category := next], before, category, next, true)
  {
  }

  lemma WrittenBackIs(sections: Sections, before: Sections, category: string, cat: Group, changed: bool)
    requires WrittenBack(sections, before, category, cat, changed)
    ensures sections == if changed then before[category := cat] else before
  {
    MapsEqual(sections, if changed then before[category := cat] else before);
  }

  lemma MergedAll(cat: Group, cat0: Group, keys: Group)
    requires MergedSoFar(cat, cat0, keys, keys.Keys)
    ensures cat == cat0 + keys
  {
    GroupsEqual(cat, cat0 + keys);
  }

  lemma ChangedSomeAll(config0: Sections, options: Sections)
    ensures ChangedSome(config0, options, options.Keys) <==> HasChange(config0, options)
  {
  }

  lemma SyncLoopStepCat(cur: Sections, config0: Sections, options: Sections, done: set<string>, c: string)
    requires done <= options.Keys && c in options && c !in done
    requires PartiallySynced(cur, config0, options, done)
    ensures CatOf(cur, c) == CatOf(config0, c)
  {
  }

  /** A category without keys: the section is emptied when it held
      anything. */
  lemma SyncLoopStepEmpty(cur: Sections, config0: Sections, options: Sections, done: set<string>, c: string,
                          emptied: bool, next: Sections)
    requires done <= options.Keys && c in options && c !in done && options[c] == map[]
    requires PartiallySynced(cur, config0, options, done)
    requires emptied <==> CatOf(cur, c) != map[]
    requires next == if emptied then cur[c := map[]] else cur
    ensures PartiallySynced(next, config0, options, done + {c})
  {
    SyncLoopStepCat(cur, config0, options, done, c);
  }

  /** A category with keys: they are merged into the section when any of
      them changes it. */
  lemma SyncLoopStepMerge(cur: Sections, config0: Sections, options: Sections, done: set<string>, c: string,
                          changed: bool, next: Sections)
    requires done <= options.Keys && c in options && c !in done && options[c] != map[]
    requires PartiallySynced(cur, config0, options, done)
    requires changed <==> KeyChange(CatOf(cur, c), options[c])
    requires next == if changed then cur[c := CatOf(cur, c) + options[c]] else cur
    ensures PartiallySynced(next, config0, options, done + {c})
  {
    if changed {
      MergeWritten(cur, config0, options, done, c);
    } else {
      MergeUnchanged(cur, config0, options, done, c);
    }
  }

  lemma MergeWritten(cur: Sections, config0: Sections, options: Sections, done: set<string>, c: string)
    requires done <= options.Keys && c in options && c !in done && options[c] != map[]
    requires PartiallySynced(cur, config0, options, done)
    ensures PartiallySynced(cur[c := CatOf(cur, c) + options[c]], config0, options, done + {c})
  {
    SyncLoopStepCat(cur, config0, options, done, c);
  }

  lemma MergeUnchanged(cur: Sections, config0: Sections, options: Sections, done: set<string>, c: string)
    requires done <= options.Keys && c in options && c !in done && options[c] != map[]
    requires PartiallySynced(cur, config0, options, done)
    requires !KeyChange(CatOf(cur, c), options[c])
    ensures PartiallySynced(cur, config0, options, done + {c})
  {
    SyncLoopStepCat(cur, config0, options, done, c);
    NoKeyChangeMerge(CatOf(cur, c), options[c]);
  }

  lemma SyncedAll(cur: Sections, config0: Sections, options: Sections)
    requires PartiallySynced(cur, config0, options, options.Keys)
    ensures cur == Synced(config0, options)
  {
    MapsEqual(cur, Synced(config0, options));
  }

  /** Merging keys that are all present with equal values changes nothing,
      and then the section was not empty. */
  lemma NoKeyChangeMerge(cat: Group, keys: Group)
    requires keys != map[] && !KeyChange(cat, keys)
    ensures cat + keys == cat && cat != map[]
  {
    forall k | k in keys ensures k in cat && cat[k] == keys[k] {
      assert !Differs(cat, keys, k);
    }
    GroupsEqual(cat + keys, cat);
    var k0 :| k0 in keys;
    assert k0 in cat;
  }

  /** A loop over a set that has not visited every element yet has one
      left to visit. */
  lemma NotDoneYet(all: set<string>, done: set<string>)
    requires done <= all && done != all
    ensures all - done != {}
  {
    var x :| x in all && x !in done;
    assert x in all - done;
  }

  lemma GroupsEqual(a: Group, b: Group)
    requires forall x :: x in a <==> x in b
    requires forall x :: x in a ==> a[x] == b[x]
    ensures a == b
  {
  }

  lemma MapsEqual(a: Sections, b: Sections)
    requires forall x :: x in a <==> x in b
    requires forall x :: x in a ==> a[x] == b[x]
    ensures a == b
  {
  }

  /** The config file, as far as the model needs it: the sections in memory
      and the sections last saved. */
  class SiteConfig {
    var sections: Sections
    var saved: Sections
    var saveCount: nat

    constructor (sections: Sections)
      ensures this.sections == sections && saved == sections && saveCount == 0
    {
      this.sections := sections;
      this.saved := sections;
      this.saveCount := 0;
    }

    /** `forceSave`. */
    method ForceSave()
      modifies this
      ensures saved == sections && saveCount == old(saveCount) + 1
      ensures sections == old(sections)
    {
      saved := sections;
      saveCount := saveCount + 1;
    }
  }

  class SyncConfig {
    const config: SiteConfig
    var networkEnabled: bool
    var safeMode: bool
    /** The network config option; None when it is empty or not an array. */
    var networkOptions: Option<Sections>
    /** Times at which the sync event was scheduled, in order. */
    var syncEvents: seq<int>

    constructor (config: SiteConfig, networkEnabled: bool, safeMode: bool, networkOptions: Option<Sections>)
      ensures this.config == config && this.networkEnabled == networkEnabled && this.safeMode == safeMode
      ensures this.networkOptions == networkOptions && syncEvents == []
    {
      this.config := config;
      this.networkEnabled := networkEnabled;
      this.safeMode := safeMode;
      this.networkOptions := networkOptions;
      this.syncEvents := [];
    }

    /** `get_all`: the option, or no categories when it is empty or not an array. */
    function GetAll(): (r: Sections)
      reads this
      ensures networkOptions.None? ==> r == map[]
      ensures networkOptions.Some? ==> r == networkOptions.value
    {
      networkOptions.GetOr(map[])
    }

    /** `sync_config_for_current_site`: in network mode merges every category
        of the option into the config and saves iff something changed;
        otherwise does nothing. */
    method SyncConfigForCurrentSite()
      modifies config
      ensures !networkEnabled ==>
        config.sections == old(config.sections) && config.saved == old(config.saved)
        && config.saveCount == old(config.saveCount)
      ensures networkEnabled ==> config.sections == Synced(old(config.sections), GetAll())
      ensures networkEnabled && HasChange(old(config.sections), GetAll()) ==>
        config.saved == config.sections && config.saveCount == old(config.saveCount) + 1
      ensures networkEnabled && !HasChange(old(config.sections), GetAll()) ==>
        config.saved == old(config.saved) && config.saveCount == old(config.saveCount)
    {
      if !networkEnabled {
        return;
      }
      var options := GetAll();
      var hasChange := SyncSections(options);
      if hasChange {
        config.ForceSave();
      }
    }

    /** The loop of the sync over the categories of the option: each one
        is emptied or merged in, and the result says whether any of them
        changed the config. */
    method SyncSections(options: Sections) returns (hasChange: bool)
      modifies config`sections
      ensures config.sections == Synced(old(config.sections), options)
      ensures hasChange <==> HasChange(old(config.sections), options)
    {
      ghost var config0 := config.sections;
      hasChange := false;
      var done: set<string> := {};
      while done != options.Keys
        invariant done <= options.Keys
        invariant PartiallySynced(config.sections, config0, options, done)
        invariant hasChange <==> ChangedSome(config0, options, done)
        decreases options.Keys - done
      {
        NotDoneYet(options.Keys, done);
        var category :| category in options.Keys - done;
        var changed := SyncCategory(options, category, config0, done);
        ChangedSomeStep(config0, options, done, category);
        hasChange := hasChange || changed;
        done := done + {category};
      }
      SyncedAll(config.sections, config0, options);
      ChangedSomeAll(config0, options);
    }

    /** One round of the sync: the category is emptied when it lists no
        keys, and its keys are merged in otherwise. */
    method SyncCategory(options: Sections, category: string, ghost config0: Sections, ghost done: set<string>)
      returns (changed: bool)
      requires done <= options.Keys && category in options && category !in done
      requires PartiallySynced(config.sections, config0, options, done)
      modifies config`sections
      ensures PartiallySynced(config.sections, config0, options, done + {category})
      ensures changed <==> CategoryChanges(config0, options, category)
    {
      ghost var cur := config.sections;
      var keys := options[category];
      SyncLoopStepCat(cur, config0, options, done, category);
      if keys == map[] {
        changed := CatOf(config.sections, category) != map[];
        if changed {
          config.sections := config.sections[category := map[]];
        }
        SyncLoopStepEmpty(cur, config0, options, done, category, changed, config.sections);
      } else {
        changed := MergeCategory(category, keys);
        SyncLoopStepMerge(cur, config0, options, done, category, changed, config.sections);
      }
    }

    /** The inner loop of the sync: merges `keys` into one section, writing
        the section back on every key that was missing or different. */
    method MergeCategory(category: string, keys: Group) returns (changed: bool)
      modifies config`sections
      ensures changed <==> KeyChange(old(CatOf(config.sections, category)), keys)
      ensures config.sections == if changed then old(config.sections)[category := old(CatOf(config.sections, category)) + keys]
                                 else old(config.sections)
    {
      var cat := CatOf(config.sections, category);
      ghost var cat0 := cat;
      ghost var before := config.sections;
      var doneKeys: set<string> := {};
      changed := false;
      while doneKeys != keys.Keys
        invariant doneKeys <= keys.Keys
        invariant MergedSoFar(cat, cat0, keys, doneKeys)
        invariant changed <==> DiffersAmong(cat0, keys, doneKeys)
        invariant WrittenBack(config.sections, before, category, cat, changed)
        decreases keys.Keys - doneKeys
      {
        NotDoneYet(keys.Keys, doneKeys);
        var key :| key in keys.Keys - doneKeys;
        DiffersAmongStep(cat0, keys, doneKeys, key);
        MergeKeyStep(cat, cat0, keys, doneKeys, key, config.sections, before, category, changed);
        var differs;
        cat, differs := MergeKey(category, cat, key, keys[key]);
        changed := changed || differs;
        doneKeys := doneKeys + {key};
      }
      MergedAll(cat, cat0, keys);
      DiffersAmongAll(cat0, keys);
      WrittenBackIs(config.sections, before, category, cat, changed);
    }

    /** One key of the inner loop: a missing or different value is set in
        the section, which is then written back to the config. */
    method MergeKey(category: string, cat: Group, key: string, value: string) returns (cat': Group, differs: bool)
      modifies config`sections
      ensures differs <==> key !in cat || cat[key] != value
      ensures cat' == if differs then cat[key := value] else cat
      ensures config.sections == if differs then old(config.sections)[category := cat'] else old(config.sections)
    {
      cat' := cat;
      differs := key !in cat || cat[key] != value;
      if differs {
        cat' := cat[key := value];
        config.sections := config.sections[category := cat'];
      }
    }

    /** `get_config_value`: from the option in network mode, from the config
        file otherwise; None stands for PHP's null. */
    function GetConfigValue(group: string, key: string): (r: Option<string>)
      reads this, config
      ensures networkEnabled ==>
        (r.Some? <==> group in GetAll() && key in GetAll()[group])
      ensures !networkEnabled ==>
        (r.Some? <==> group in config.sections && key in config.sections[group])
      ensures r.Some? ==> r.value == (if networkEnabled then GetAll()[group][key] else config.sections[group][key])
    {
      var source := if networkEnabled then GetAll() else config.sections;
      if group in source && key in source[group] then Some(source[group][key]) else None
    }

    /** `set_config_value`: in network mode stores the value in the option
        and schedules the sync event five seconds ahead; otherwise, outside
        safe mode, writes it into the config file and saves; in safe mode
        does nothing. */
    method SetConfigValue(group: string, key: string, value: string, now: int)
      modifies this, config
      ensures networkEnabled ==>
        && networkOptions == Some(old(GetAll())[group := CatOf(old(GetAll()), group)[key := value]])
        && syncEvents == old(syncEvents) + [now + 5]
        && config.sections == old(config.sections) && config.saved == old(config.saved)
      ensures !networkEnabled && !safeMode ==>
        && config.sections == old(config.sections)[group := CatOf(old(config.sections), group)[key := value]]
        && config.saved == config.sections
        && networkOptions == old(networkOptions) && syncEvents == old(syncEvents)
      ensures !networkEnabled && safeMode ==>
        config.sections == old(config.sections) && config.saved == old(config.saved)
        && networkOptions == old(networkOptions) && syncEvents == old(syncEvents)
      ensures networkEnabled == old(networkEnabled) && safeMode == old(safeMode)
      ensures networkEnabled || !safeMode ==> GetConfigValue(group, key) == Some(value)
      ensures forall g, k :: (g != group || k != key) ==> GetConfigValue(g, k) == old(GetConfigValue(g, k))
    {
      if networkEnabled {
        var all := GetAll();
        var theGroup := CatOf(all, group);
        all := all[group := theGroup[key := value]];
        networkOptions := Some(all);
        syncEvents := syncEvents + [now + 5];
      } else if !safeMode {
        var theGroup := CatOf(config.sections, group);
        theGroup := theGroup[key := value];
        config.sections := config.sections[group := theGroup];
        config.ForceSave();
      }
    }
  }

  /** The config is saved exactly when the sync changes it. */
  lemma SaveIffChanged(config: Sections, options: Sections)
    ensures HasChange(config, options) <==> Synced(config, options) != config
  {
    var r := Synced(config, options);
    if HasChange(config, options) {
      var c :| c in options && CategoryChanges(config, options, c);
      if options[c] == map[] {
        assert c in config && r[c] == map[] != config[c];
      } else {
        var k :| k in options[c] && Differs(CatOf(config, c), options[c], k);
        assert k in r[c] && r[c][k] == options[c][k];
        if c in config {
          assert r[c] != config[c];
        } else {
          assert c in r;
        }
      }
    } else {
      forall c | c in r ensures c in config && r[c] == config[c] {
        if c in options {
          assert !CategoryChanges(config, options, c);
          if options[c] != map[] {
            var cat := CatOf(config, c);
            forall k | k in options[c] ensures k in cat && cat[k] == options[c][k] {
              assert !Differs(cat, options[c], k);
            }
            assert cat + options[c] == cat;
            var k0 :| k0 in options[c];
            assert c in config;
          }
        }
      }
      assert r == config;
    }
  }

  /** A second sync right after the first changes nothing, so it does not
      save either. */
  lemma SyncIdempotent(config: Sections, options: Sections)
    ensures Synced(Synced(config, options), options) == Synced(config, options)
    ensures !HasChange(Synced(config, options), options)
  {
    var once := Synced(config, options);
    SaveIffChanged(once, options);
  }
}

=== FILE: system_report.dfy ===
/** The aggregation logic of the system report page
    (classes/WpPsstats/Admin/SystemReport.php): report rows and tables with
    their warning and error flags, the "Errors" table put in front, the
    file check row, the rows made of diagnostic results and of logged
    errors, and the parsing and classification of the database user's
    grants. Everything the page probes (files, the database, the clock,
    the translation, the anonymiser) is a parameter. */
module SystemReport {
  import opened Wrappers
  import opened Text
  import Logger

  // ---------------------------------------------------------------------------
  // Rows and tables
  // ---------------------------------------------------------------------------

  /** A report row; a missing `is_warning`/`is_error` key reads as false. */
  datatype Row = Row(name: string, value: string, comment: string, isWarning: bool, isError: bool)

  datatype Table = Table(title: string, rows: seq<Row>, hasComments: bool)

  const ErrorsTitle := "Errors"

  predicate AnyError(tables: seq<Table>) {
    exists t, x :: t in tables && x in t.rows && x.isError
  }

  predicate AnyWarning(tables: seq<Table>) {
    exists t, x :: t in tables && x in t.rows && x.isWarning
  }

  /** `has_only_warnings_no_error`: some row is a warning and none is an
      error. */
  method HasOnlyWarningsNoError(tables: seq<Table>) returns (r: bool)
    ensures r <==> AnyWarning(tables) && !AnyError(tables)
  {
    var hasWarning := false;
    var hasError := false;
    var i := 0;
    while i < |tables|
      invariant 0 <= i <= |tables|
      invariant hasError <==> AnyError(tables[..i])
      invariant hasWarning <==> AnyWarning(tables[..i])
    {
      var rows := tables[i].rows;
      assert forall t :: t in tables[..i + 1] <==> t in tables[..i] || t == tables[i];
      var j := 0;
      while j < |rows|
        invariant 0 <= j <= |rows|
        invariant hasError <==> AnyError(tables[..i]) || exists x :: x in rows[..j] && x.isError
        invariant hasWarning <==> AnyWarning(tables[..i]) || exists x :: x in rows[..j] && x.isWarning
      {
        assert forall x :: x in rows[..j + 1] <==> x in rows[..j] || x == rows[j];
        if rows[j].isError {
          hasError := true;
        }
        if rows[j].isWarning {
          hasWarning := true;
        }
        j := j + 1;
      }
      assert rows[..|rows|] == rows;
      i := i + 1;
    }
    assert tables[..|tables|] == tables;
    r := hasWarning && !hasError;
  }

  /** The error rows of one table, in row order. */
  function ErrorsIn(rows: seq<Row>): (r: seq<Row>)
    ensures |r| <= |rows|
  {
    if |rows| == 0 then []
    else
      var last := rows[|rows| - 1];
      ErrorsIn(rows[..|rows| - 1]) + (if last.isError then [last] else [])
  }

  /** The error rows of all tables, in table and row order. */
  function ErrorRows(tables: seq<Table>): seq<Row>
  {
    if |tables| == 0 then []
    else
      var n := |tables| - 1;
      ErrorRows(tables[..n]) + ErrorsIn(tables[n].rows)
  }

  lemma {:induction false} ErrorsInMembers(rows: seq<Row>)
    ensures forall x :: x in ErrorsIn(rows) <==> x in rows && x.isError
  {
    if |rows| > 0 {
      var n := |rows| - 1;
      ErrorsInMembers(rows[..n]);
      assert forall x :: x in rows <==> x in rows[..n] || x == rows[n];
    }
  }

  /** Exactly the error rows of the tables are collected. */
  lemma {:induction false} ErrorRowsMembers(tables: seq<Table>)
    ensures forall x :: x in ErrorRows(tables) <==> x.isError && exists t :: t in tables && x in t.rows
  {
    if |tables| > 0 {
      var n := |tables| - 1;
      ErrorRowsMembers(tables[..n]);
      ErrorsInMembers(tables[n].rows);
      assert forall t :: t in tables <==> t in tables[..n] || t == tables[n];
    }
  }

  /** There are error rows to collect exactly when some row is an error. */
  lemma ErrorRowsEmpty(tables: seq<Table>)
    ensures ErrorRows(tables) == [] <==> !AnyError(tables)
  {
    var r := ErrorRows(tables);
    ErrorRowsMembers(tables);
    if r != [] {
      assert r[0] in r;
    }
  }

  /** What `add_errors_first` returns: the tables unchanged when no row is
      an error, otherwise an "Errors" table holding every error row in front
      of them. */
  function ErrorsFirst(tables: seq<Table>): (r: seq<Table>)
    ensures !AnyError(tables) ==> r == tables
    ensures AnyError(tables) ==>
      && |r| == |tables| + 1 && r[1..] == tables
      && r[0] == Table(ErrorsTitle, ErrorRows(tables), true)
      && r[0].rows != []
  {
    ErrorRowsEmpty(tables);
    var errors := ErrorRows(tables);
    if errors == [] then tables else [Table(ErrorsTitle, errors, true)] + tables
  }

  /** `add_errors_first`: collects the error rows table by table and puts
      the "Errors" table first when there are any. */
  method AddErrorsFirst(tables: seq<Table>) returns (r: seq<Table>)
    ensures r == ErrorsFirst(tables)
  {
    var errors: seq<Row> := [];
    var i := 0;
    while i < |tables|
      invariant 0 <= i <= |tables|
      invariant errors == ErrorRows(tables[..i])
    {
      var rows := tables[i].rows;
      ghost var before := errors;
      var j := 0;
      while j < |rows|
        invariant 0 <= j <= |rows|
        invariant errors == before + ErrorsIn(rows[..j])
      {
        ErrorsInStep(rows, j);
        ghost var found := ErrorsIn(rows[..j]);
        if rows[j].isError {
          assert (before + found) + [rows[j]] == before + (found + [rows[j]]);
          errors := errors + [rows[j]];
        }
        j := j + 1;
      }
      assert rows[..|rows|] == rows;
      ErrorRowsStep(tables, i);
      i := i + 1;
    }
    assert tables[..|tables|] == tables;
    if |errors| > 0 {
      r := [Table(ErrorsTitle, errors, true)] + tables;
    } else {
      r := tables;
    }
  }

  lemma ErrorsInStep(rows: seq<Row>, j: nat)
    requires j < |rows|
    ensures ErrorsIn(rows[..j + 1]) == ErrorsIn(rows[..j]) + (if rows[j].isError then [rows[j]] else [])
  {
    assert rows[..j + 1][..j] == rows[..j];
  }

  lemma ErrorRowsStep(tables: seq<Table>, i: nat)
    requires i < |tables|
    ensures ErrorRows(tables[..i + 1]) == ErrorRows(tables[..i]) + ErrorsIn(tables[i].rows)
  {
    assert tables[..i + 1][..i] == tables[..i];
  }

  /** Putting the errors first does not change the verdict of
      `has_only_warnings_no_error`: the copied rows are errors, and there
      were errors already. */
  lemma ErrorsFirstKeepsVerdict(tables: seq<Table>)
    ensures AnyError(ErrorsFirst(tables)) == AnyError(tables)
    ensures (AnyWarning(ErrorsFirst(tables)) && !AnyError(ErrorsFirst(tables)))
      == (AnyWarning(tables) && !AnyError(tables))
  {
    var r := ErrorsFirst(tables);
    if AnyError(tables) {
      var t, x :| t in tables && x in t.rows && x.isError;
      assert t in r[1..];
    }
  }

  // ---------------------------------------------------------------------------
  // check_file_exists_and_writable
  // ---------------------------------------------------------------------------

  /** What the file system says about a path. */
  datatype FileStatus = FileStatus(present: bool, readable: bool, writable: bool)

  /** The row `check_file_exists_and_writable` appends (with the texts
      untranslated). */
  function FileCheckRow(path: string, title: string, required: bool, f: FileStatus): (r: Row)
    ensures r.value == "Yes" <==> f.present && f.readable && f.writable
    ensures r.value == "Yes" || r.value == "No"
    ensures r.isError <==> required && (!f.present || !f.readable)
    ensures r.isWarning <==> !required && (!f.present || !f.readable)
    ensures StartsWith(r.comment, "\"" + path + "\" ")
    ensures r.comment == "\"" + path + "\" " <==> f.present && f.readable && f.writable
  {
    var comment := "\"" + path + "\" "
      + (if !f.present then title + " does not exist. " else "")
      + (if !f.readable then title + " is not readable. " else "")
      + (if !f.writable then title + " is not writable. " else "");
    assert comment[..|path| + 3] == "\"" + path + "\" ";
    Row(title + " exists and is writable.",
        if f.present && f.readable && f.writable then "Yes" else "No",
        comment,
        !required && (!f.present || !f.readable),
        required && (!f.present || !f.readable))
  }

  /** `check_file_exists_and_writable`: exactly one row is appended. */
  function CheckFileExistsAndWritable(rows: seq<Row>, path: string, title: string, required: bool, f: FileStatus): (r: seq<Row>)
    ensures |r| == |rows| + 1 && r[..|rows|] == rows
    ensures r[|rows|] == FileCheckRow(path, title, required, f)
  {
    rows + [FileCheckRow(path, title, required, f)]
  }

  /** A file that exists and is readable never raises a flag, writable or
      not; and the row is never both a warning and an error. */
  lemma FileCheckFlags(path: string, title: string, required: bool, f: FileStatus)
    ensures f.present && f.readable ==>
      !FileCheckRow(path, title, required, f).isError && !FileCheckRow(path, title, required, f).isWarning
    ensures !(FileCheckRow(path, title, required, f).isError && FileCheckRow(path, title, required, f).isWarning)
    ensures !f.writable ==> FileCheckRow(path, title, required, f).value == "No"
  {
  }

  // ---------------------------------------------------------------------------
  // convert_time_to_date and the log rows
  // ---------------------------------------------------------------------------

  const Unknown := "Unknown"

  /** `convert_time_to_date`: "Unknown" for an empty time; otherwise the
      date the formatter (gmdate in the blog's time zone) makes of it. */
  function ConvertTimeToDate(time: Option<int>, format: int -> string): (r: string)
    ensures time.None? || time == Some(0) ==> r == Unknown
    ensures time.Some? && time.value != 0 ==> r == format(time.value)
  {
    if time.None? || time.value == 0 then Unknown else format(time.value)
  }

  /** The two notices put in front of a `plugin_update` entry's comment. */
  const PluginUpdateHelp := "Please reach out to us and include the copied system report (see https://n3rds.work/faq/wordpress/how-do-i-troubleshoot-a-failed-database-upgrade-in-psstats-for-wordpress/ for more info)<br><br>You can also retry the update manually by clicking in the top on the \"Troubleshooting\" tab and then clicking on the \"Run updater\" button."

  const PluginUpdateIgnorable := "As there are no outstanding plugin updates it looks like this log can be ignored.<br><br>"

  /** What the log rows depend on besides the entries: the install time
      (None when the option is empty or not numeric), whether plugin updates
      are still outstanding, the date formatter, `psstats_anonymize_value`,
      and the two notices (the report passes `PluginUpdateHelp` and
      `PluginUpdateIgnorable`, see `ReportLogContext`). */
  datatype LogContext = LogContext(installTime: Option<int>, outstanding: bool,
                                   format: int -> string, anonymize: string -> string,
                                   updateHelp: string, updateIgnorable: string)

  function ReportLogContext(installTime: Option<int>, outstanding: bool,
                            format: int -> string, anonymize: string -> string): LogContext
  {
    LogContext(installTime, outstanding, format, anonymize, PluginUpdateHelp, PluginUpdateIgnorable)
  }

  /** The first `cron_sync` run may follow the installation within five
      minutes; such an entry is not shown. */
  predicate SkippedLogEntry(e: Logger.Entry, installTime: Option<int>) {
    && installTime.Some? && installTime.value != 0
    && e.value.Some? && e.value.value != 0
    && e.name == "cron_sync"
    && e.value.value < installTime.value + 300
  }

  /** The row shown for a logged error. */
  function LogRow(e: Logger.Entry, ctx: LogContext): (r: Row)
    ensures r.name == e.name
    ensures r.value == ConvertTimeToDate(e.value, ctx.format)
    ensures r.isWarning <==> ContainsCI(e.name, "archiv") && e.name != "archive_boot"
    ensures r.isError <==> e.name == "plugin_update" && ctx.outstanding
    ensures e.name == "plugin_update" && ctx.outstanding ==> r.comment == ctx.anonymize(ctx.updateHelp + e.comment)
    ensures e.name == "plugin_update" && !ctx.outstanding ==> r.comment == ctx.anonymize(ctx.updateIgnorable + e.comment)
    ensures e.name != "plugin_update" ==> r.comment == ctx.anonymize(e.comment)
  {
    var isPluginUpdateError := !PhpEmpty(e.name) && e.name == "plugin_update" && ctx.outstanding;
    var skipPluginUpdate := !PhpEmpty(e.name) && e.name == "plugin_update" && !ctx.outstanding;
    var comment :=
      if isPluginUpdateError then ctx.updateHelp + e.comment
      else if skipPluginUpdate then ctx.updateIgnorable + e.comment
      else e.comment;
    Row(e.name,
        ConvertTimeToDate(e.value, ctx.format),
        ctx.anonymize(comment),
        !PhpEmpty(e.name) && ContainsCI(e.name, "archiv") && e.name != "archive_boot",
        isPluginUpdateError)
  }

  /** The log rows of the report, in the order of the entries. */
  function LogRows(entries: seq<Logger.Entry>, ctx: LogContext): (r: seq<Row>)
    ensures |r| <= |entries|
  {
    if |entries| == 0 then []
    else
      var n := |entries| - 1;
      var front := LogRows(entries[..n], ctx);
      var e := entries[n];
      if SkippedLogEntry(e, ctx.installTime) then front else front + [LogRow(e, ctx)]
  }

  /** Every entry that is not skipped has its row, and every row comes from
      such an entry. */
  lemma {:induction false} LogRowsShown(entries: seq<Logger.Entry>, ctx: LogContext)
    ensures forall e :: e in entries && !SkippedLogEntry(e, ctx.installTime) ==> LogRow(e, ctx) in LogRows(entries, ctx)
    ensures forall x :: x in LogRows(entries, ctx) ==>
      exists e :: e in entries && !SkippedLogEntry(e, ctx.installTime) && x == LogRow(e, ctx)
  {
    if |entries| > 0 {
      var n := |entries| - 1;
      LogRowsShown(entries[..n], ctx);
      assert forall x :: x in entries <==> x in entries[..n] || x == entries[n];
    }
  }

  /** The row shown under "Logs" when nothing was logged. */
  const NoneRow := Row("None", "", "", false, false)

  /** The loop over the logged errors in `get_psstats_info`; an empty log
      shows the single "None" row instead. */
  method AddLogRows(rows: seq<Row>, entries: seq<Logger.Entry>, ctx: LogContext) returns (r: seq<Row>)
    ensures entries == [] ==> r == rows + [NoneRow]
    ensures entries != [] ==> r == rows + LogRows(entries, ctx)
  {
    if |entries| == 0 {
      return rows + [NoneRow];
    }
    r := rows;
    var i := 0;
    while i < |entries|
      invariant 0 <= i <= |entries|
      invariant r == rows + LogRows(entries[..i], ctx)
    {
      LogRowsStep(entries, i, ctx);
      var error := entries[i];
      if SkippedLogEntry(error, ctx.installTime) {
        i := i + 1;
        continue;
      }
      r := r + [LogRow(error, ctx)];
      i := i + 1;
    }
    assert entries[..|entries|] == entries;
  }

  /** One more entry adds its row, unless it is skipped. */
  lemma LogRowsStep(entries: seq<Logger.Entry>, i: nat, ctx: LogContext)
    requires i < |entries|
    ensures LogRows(entries[..i + 1], ctx)
      == LogRows(entries[..i], ctx) + (if SkippedLogEntry(entries[i], ctx.installTime) then [] else [LogRow(entries[i], ctx)])
  {
    assert entries[..i + 1][..i] == entries[..i];
  }

  /** A `cron_sync` entry logged within five minutes of the installation
      produces no row; the same entry five minutes later does. */
  lemma FirstCronSyncHidden(e: Logger.Entry, ctx: LogContext)
    requires ctx.installTime.Some? && ctx.installTime.value != 0
    requires e.name == "cron_sync" && e.value.Some? && e.value.value != 0
    ensures e.value.value < ctx.installTime.value + 300 ==> LogRows([e], ctx) == []
    ensures e.value.value >= ctx.installTime.value + 300 ==> LogRows([e], ctx) == [LogRow(e, ctx)]
  {
    assert [e][..0] == [];
  }

  // ---------------------------------------------------------------------------
  // add_diagnostic_results
  // ---------------------------------------------------------------------------

  /** The status of a diagnostic result; the class that defines the status
      constants is not part of this model, so their text is a parameter. */
  datatype Status = StatusOk | StatusWarning | StatusError | StatusInformational

  /** A diagnostic result; an item comment is None when it is not a string. */
  datatype DiagnosticResult = DiagnosticResult(resultLabel: string, status: Status, longErrorMessage: string,
                                               items: seq<Option<string>>)

  const ArchiveCommand := "core:archive"
  const ArchivingStale := "Archiving hasn't run in a while."

  /** The part of an item comment that is kept: a comment in which
      "core:archive" occurs (ignoring case) after its start is cut before it
      and then back to its last '.', or replaced by a fixed sentence when the
      cut text has no '.' after its first character. */
  function ShortComment(c: string): (r: string)
    ensures !(ContainsCI(c, ArchiveCommand) && IndexOfCI(c, ArchiveCommand).value > 0) ==> r == c
    ensures ContainsCI(c, ArchiveCommand) && IndexOfCI(c, ArchiveCommand).value > 0 ==>
      var p := IndexOfCI(c, ArchiveCommand).value;
      && ('.' !in c[..p] || c[0] == '.' ==> r == ArchivingStale)
      && ('.' in c[..p] && c[0] != '.' ==>
            && LastIndexOfChar(c[..p], '.').Some?
            && r == c[..LastIndexOfChar(c[..p], '.').value]
            && 0 < |r| < p && c[|r|] == '.'
            && !ContainsCI(r, ArchiveCommand))
  {
    var at := IndexOfCI(c, ArchiveCommand);
    if at.None? || at.value == 0 then c
    else
      var cut := c[..at.value];
      FirstDot(cut);
      var dot := IndexOf(cut, ".");
      if dot.None? || dot.value == 0 then ArchivingStale
      else
        CutAtLastDot(c, at.value, dot.value);
        cut[..LastIndexOfChar(cut, '.').value]
  }

  /** `strpos($cut, '.')` finds a '.' exactly when there is one, and finds
      the one at the start when the text starts with it. */
  lemma FirstDot(cut: string)
    ensures IndexOf(cut, ".").Some? <==> '.' in cut
    ensures IndexOf(cut, ".").Some? ==> cut[IndexOf(cut, ".").value] == '.'
    ensures |cut| > 0 && cut[0] == '.' ==> IndexOf(cut, ".") == Some(0)
  {
    IndexFromFirst(cut, ".", 0);
    var d := IndexOf(cut, ".");
    if d.Some? {
      assert cut[d.value..d.value + 1] == ".";
    }
    if '.' in cut {
      var j :| 0 <= j < |cut| && cut[j] == '.';
      assert cut[j..j + 1] == ".";
      assert OccursAt(cut, ".", j);
    }
    if |cut| > 0 && cut[0] == '.' {
      assert cut[0..1] == ".";
    }
  }

  /** The cut back to the last '.' keeps a prefix of the comment that ends
      before a '.' and holds no "core:archive". */
  lemma CutAtLastDot(c: string, p: nat, d: nat)
    requires IndexOfCI(c, ArchiveCommand) == Some(p)
    requires IndexOf(c[..p], ".") == Some(d)
    ensures LastIndexOfChar(c[..p], '.').Some?
    ensures var last := LastIndexOfChar(c[..p], '.').value;
      last < p && c[..p][..last] == c[..last] && c[last] == '.' && !ContainsCI(c[..last], ArchiveCommand)
  {
    var cut := c[..p];
    assert cut[d..d + 1] == ".";
    assert cut[d] == '.';
    var last := LastIndexOfChar(cut, '.').value;
    AbsentBeforeFirst(c, ArchiveCommand, p, last);
  }

  /** What one item adds to the comment. */
  function ItemText(item: Option<string>): string {
    if item.Some? && !PhpEmpty(item.value) then ShortComment(item.value) + "<br/>" else ""
  }

  /** The comments of a list of items, in order. */
  function ItemsText(items: seq<Option<string>>): string {
    if |items| == 0 then "" else ItemsText(items[..|items| - 1]) + ItemText(items[|items| - 1])
  }

  /** The comment of a result: nothing for an OK result. */
  function ResultComment(res: DiagnosticResult): (r: string)
    ensures res.status == StatusOk ==> r == ""
    ensures res.status != StatusOk ==> r == ItemsText(res.items)
  {
    if res.status == StatusOk then "" else ItemsText(res.items)
  }

  /** The row of one diagnostic result. */
  function DiagnosticRow(res: DiagnosticResult, statusText: Status -> string): (r: Row)
    ensures r.name == res.resultLabel
    ensures r.value == statusText(res.status) + " " + res.longErrorMessage
    ensures r.comment == ResultComment(res)
    ensures r.isWarning <==> res.status == StatusWarning
    ensures r.isError <==> res.status == StatusError
  {
    Row(res.resultLabel, statusText(res.status) + " " + res.longErrorMessage, ResultComment(res),
        res.status == StatusWarning, res.status == StatusError)
  }

  /** The inner loop of `add_diagnostic_results` over a result's items. */
  method CollectComment(items: seq<Option<string>>) returns (comment: string)
    ensures comment == ItemsText(items)
  {
    comment := "";
    var k := 0;
    while k < |items|
      invariant 0 <= k <= |items|
      invariant comment == ItemsText(items[..k])
    {
      ItemsTextStep(items, k);
      var text := ItemComment(items[k]);
      comment := comment + text;
      k := k + 1;
    }
    assert items[..|items|] == items;
  }

  /** One item of that loop: its shortened comment and a line break, when
      the item holds a non-empty comment. */
  method ItemComment(item: Option<string>) returns (text: string)
    ensures text == ItemText(item)
  {
    text := "";
    if item.Some? && !PhpEmpty(item.value) {
      var itemComment := ShortComment(item.value);
      text := itemComment + "<br/>";
    }
  }

  lemma ItemsTextStep(items: seq<Option<string>>, k: nat)
    requires k < |items|
    ensures ItemsText(items[..k + 1]) == ItemsText(items[..k]) + ItemText(items[k])
  {
    assert items[..k + 1][..k] == items[..k];
  }

  /** The rows of a list of results: one per result, in order. */
  function DiagnosticRows(results: seq<DiagnosticResult>, statusText: Status -> string): (r: seq<Row>)
    ensures |r| == |results|
    ensures forall k :: 0 <= k < |results| ==> r[k] == DiagnosticRow(results[k], statusText)
  {
    if |results| == 0 then []
    else DiagnosticRows(results[..|results| - 1], statusText) + [DiagnosticRow(results[|results| - 1], statusText)]
  }

  /** The body of the outer loop of `add_diagnostic_results`: the row of one
      result, its comment collected only for a result that is not OK. */
  method ResultRow(result: DiagnosticResult, statusText: Status -> string) returns (row: Row)
    ensures row == DiagnosticRow(result, statusText)
  {
    var comment := "";
    if result.status != StatusOk {
      comment := CollectComment(result.items);
    }
    row := Row(result.resultLabel, statusText(result.status) + " " + result.longErrorMessage, comment,
               result.status == StatusWarning, result.status == StatusError);
  }

  /** `add_diagnostic_results`: one row per result, after the given rows. */
  method AddDiagnosticResults(rows: seq<Row>, results: seq<DiagnosticResult>, statusText: Status -> string)
    returns (r: seq<Row>)
    ensures r == rows + DiagnosticRows(results, statusText)
  {
    r := rows;
    var i := 0;
    while i < |results|
      invariant 0 <= i <= |results|
      invariant r == rows + DiagnosticRows(results[..i], statusText)
    {
      assert results[..i + 1][..i] == results[..i];
      var row := ResultRow(results[i], statusText);
      r := r + [row];
      i := i + 1;
    }
    assert results[..|results|] == results;
  }

  // ---------------------------------------------------------------------------
  // get_db_grants
  // ---------------------------------------------------------------------------

  const AllPrivileges := "ALL PRIVILEGES"

  /** The words after which a grant line is cut off. */
  const GrantKeywords: seq<string> := [" ON ", " TO ", " IDENTIFIED ", " BY "]

  /** `substr($s, 0, $n)` with `$n` the result of `stripos`: false reads as 0. */
  function CutBefore(s: string, at: Option<nat>): (r: string)
    ensures at.Some? && at.value <= |s| ==> r == s[..at.value]
  {
    match at
    case None => ""
    case Some(n) => if n <= |s| then s[..n] else s
  }

  /** `substr($s, $start)` with `$start >= 0`. */
  function SuffixFrom(s: string, start: nat): (r: string)
    ensures start <= |s| ==> r == s[start..]
  {
    if start <= |s| then s[start..] else ""
  }

  /** One keyword round of `get_db_grants` as the code is written: both cuts
      take the ORIGINAL line `original` apart, while the tests look at the
      current text; the GRANT cut therefore undoes the keyword cut made
      just before it. */
  function KeywordRoundAsWritten(original: string, current: string, keyword: string): string {
    var cut := if ContainsCI(current, keyword) then CutBefore(original, IndexOfCI(original, keyword)) else current;
    if ContainsCI(cut, "GRANT") then SuffixFrom(original, IndexOfCI(cut, "GRANT").value + 5) else cut
  }

  function StripAsWritten(original: string, current: string, keywords: seq<string>): string
    decreases |keywords|
  {
    if |keywords| == 0 then current
    else StripAsWritten(original, KeywordRoundAsWritten(original, current, keywords[0]), keywords[1..])
  }

  /** `r` is a contiguous piece of `s`. */
  ghost predicate IsSliceOf(r: string, s: string) {
    exists a, b :: 0 <= a <= b <= |s| && r == s[a..b]
  }

  /** A slice of a slice is a slice of the whole. */
  lemma SubSlice(s: string, a: nat, b: nat, c: nat, d: nat)
    requires a <= b <= |s| && c <= d <= b - a
    ensures s[a..b][c..d] == s[a + c..a + d]
  {
    forall k | 0 <= k < d - c ensures s[a..b][c..d][k] == s[a + c + k] {
    }
  }

  lemma SliceOfSlice(r: string, m: string, s: string)
    requires IsSliceOf(r, m) && IsSliceOf(m, s)
    ensures IsSliceOf(r, s)
  {
    var a, b :| 0 <= a <= b <= |s| && m == s[a..b];
    var c, d :| 0 <= c <= d <= |m| && r == m[c..d];
    SubSlice(s, a, b, c, d);
  }

  lemma AbsentFromPiece(r: string, s: string, needle: string)
    requires IsSliceOf(r, s) && !ContainsCI(s, needle)
    ensures !ContainsCI(r, needle)
  {
    var a, b :| 0 <= a <= b <= |s| && r == s[a..b];
    AbsentFromSlice(s, needle, a, b);
  }

  /** The first cut of a round as intended: the current text up to the
      first occurrence of the keyword, ignoring case. */
  function KeywordCut(current: string, keyword: string): string {
    if ContainsCI(current, keyword) then current[..IndexOfCI(current, keyword).value] else current
  }

  /** The second cut of a round: what follows the first "GRANT", ignoring
      case. */
  function GrantCut(cut: string): string {
    if ContainsCI(cut, "GRANT") then cut[IndexOfCI(cut, "GRANT").value + 5..] else cut
  }

  /** One keyword round as intended: cut the current text before the
      keyword, then drop everything up to and including "GRANT". */
  function KeywordRound(current: string, keyword: string): string {
    GrantCut(KeywordCut(current, keyword))
  }

  /** The first cut keeps a prefix in which a non-empty keyword no longer
      occurs. */
  lemma KeywordCutPrefix(current: string, keyword: string)
    ensures var cut := KeywordCut(current, keyword);
      |cut| <= |current| && cut == current[..|cut|]
      && (|keyword| > 0 ==> !ContainsCI(cut, keyword))
  {
    if ContainsCI(current, keyword) && |keyword| > 0 {
      var p := IndexOfCI(current, keyword).value;
      AbsentBeforeFirst(current, keyword, p, p);
    }
  }

  /** The second cut keeps a suffix. */
  lemma GrantCutSuffix(cut: string)
    ensures var r := GrantCut(cut); |r| <= |cut| && r == cut[|cut| - |r|..]
  {
  }

  /** A round keeps a piece of its input in which the keyword no longer
      occurs. */
  lemma KeywordRoundCuts(current: string, keyword: string)
    ensures IsSliceOf(KeywordRound(current, keyword), current)
    ensures |keyword| > 0 ==> !ContainsCI(KeywordRound(current, keyword), keyword)
  {
    var cut := KeywordCut(current, keyword);
    var r := GrantCut(cut);
    KeywordCutPrefix(current, keyword);
    GrantCutSuffix(cut);
    assert IsSliceOf(r, current) by {
      assert r == current[|cut| - |r|..|cut|];
    }
    if |keyword| > 0 {
      AbsentFromSlice(cut, keyword, |cut| - |r|, |cut|);
      assert cut[|cut| - |r|..|cut|] == r;
    }
  }

  /** The keyword rounds in turn. */
  function StripKeywords(current: string, keywords: seq<string>): string
    decreases |keywords|
  {
    if |keywords| == 0 then current
    else StripKeywords(KeywordRound(current, keywords[0]), keywords[1..])
  }

  /** The rounds keep a piece of the line. */
  lemma {:induction false} StripKeywordsSlice(current: string, keywords: seq<string>)
    ensures IsSliceOf(StripKeywords(current, keywords), current)
    decreases |keywords|
  {
    if |keywords| == 0 {
      assert current == current[0..|current|];
    } else {
      var next := KeywordRound(current, keywords[0]);
      KeywordRoundCuts(current, keywords[0]);
      StripKeywordsSlice(next, keywords[1..]);
      SliceOfSlice(StripKeywords(next, keywords[1..]), next, current);
    }
  }

  /** The intended property: no keyword survives the rounds, so nothing
      after " ON ", " TO ", " IDENTIFIED " or " BY " (the object, the user,
      the password) is ever shown. */
  lemma {:induction false} StripKeywordsRemovesAll(current: string, keywords: seq<string>)
    requires forall k :: 0 <= k < |keywords| ==> |keywords[k]| > 0
    ensures forall k :: 0 <= k < |keywords| ==> !ContainsCI(StripKeywords(current, keywords), keywords[k])
  {
    if |keywords| > 0 {
      var next := KeywordRound(current, keywords[0]);
      var r := StripKeywords(next, keywords[1..]);
      StripKeywordsRemovesAll(next, keywords[1..]);
      KeywordRoundCuts(current, keywords[0]);
      StripKeywordsSlice(next, keywords[1..]);
      AbsentFromPiece(r, next, keywords[0]);
      forall k | 1 <= k < |keywords| ensures !ContainsCI(r, keywords[k]) {
        assert keywords[k] == keywords[1..][k - 1];
      }
    }
  }

  /** A `SHOW GRANTS` row is skipped when its first column is empty or is
      not a string (None). */
  predicate SkippedGrantRow(row: Option<string>) {
    row.None? || PhpEmpty(row.value)
  }

  /** What is left of a grant line once cut: the database user and
      password masked, then split at ','. */
  function MaskAndSplit(kept: string, dbUser: string, dbPassword: string): seq<string> {
    Split(ReplaceAll(ReplaceAll(kept, dbUser, "DB_USER"), dbPassword, "DB_PASS"), ',')
  }

  /** The privilege texts one grant line contributes: the keyword rounds,
      the database user and password masked, split at ','. */
  function RowGrants(line: string, dbUser: string, dbPassword: string): (r: seq<string>)
    ensures |r| >= 1
    ensures forall k :: 0 <= k < |r| ==> ',' !in r[k]
  {
    MaskAndSplit(StripKeywords(line, GrantKeywords), dbUser, dbPassword)
  }

  /** The same with the keyword rounds as the code is written. */
  function RowGrantsAsWritten(line: string, dbUser: string, dbPassword: string): (r: seq<string>)
    ensures |r| >= 1
    ensures forall k :: 0 <= k < |r| ==> ',' !in r[k]
  {
    MaskAndSplit(StripAsWritten(line, line, GrantKeywords), dbUser, dbPassword)
  }

  /** What the loop over the rows gathers before normalising: either the
      early answer for ALL PRIVILEGES or the raw pieces, in row order. */
  datatype GrantScan = AllPrivilegesFound | Pieces(pieces: seq<string>)

  /** One row of the scan: ALL PRIVILEGES is final, a skipped row changes
      nothing, any other row adds its pieces. */
  function ScanStep(acc: GrantScan, row: Option<string>, dbUser: string, dbPassword: string): GrantScan {
    match acc
    case AllPrivilegesFound => AllPrivilegesFound
    case Pieces(p) =>
      if SkippedGrantRow(row) then Pieces(p)
      else if ContainsCI(row.value, AllPrivileges) then AllPrivilegesFound
      else Pieces(p + RowGrants(row.value, dbUser, dbPassword))
  }

  function ScanGrants(rows: seq<Option<string>>, dbUser: string, dbPassword: string): GrantScan {
    if |rows| == 0 then Pieces([])
    else ScanStep(ScanGrants(rows[..|rows| - 1], dbUser, dbPassword), rows[|rows| - 1], dbUser, dbPassword)
  }

  /** `array_unique`: the first occurrence of each value, in order. */
  function Unique(xs: seq<string>): (r: seq<string>)
    ensures |r| <= |xs|
    ensures forall x :: x in r <==> x in xs
    ensures forall a, b :: 0 <= a < b < |r| ==> r[a] != r[b]
  {
    if |xs| == 0 then []
    else
      var front := Unique(xs[..|xs| - 1]);
      var last := xs[|xs| - 1];
      assert forall x :: x in xs <==> x in xs[..|xs| - 1] || x == last;
      if last in front then front else front + [last]
  }

  /** A grant name as reported: no lower-case letter and no white space
      `trim` would strip at either end. */
  predicate CleanName(x: string) {
    && (forall j :: 0 <= j < |x| ==> !IsLower(x[j]))
    && (|x| > 0 ==> !IsTrimChar(x[0]) && !IsTrimChar(x[|x| - 1]))
  }

  lemma UpperTrimClean(s: string)
    ensures CleanName(ToUpper(Trim(s)))
  {
    var t := Trim(s);
    if |t| > 0 {
      assert ToUpper(t)[0] == UpperChar(t[0]);
      assert ToUpper(t)[|t| - 1] == UpperChar(t[|t| - 1]);
    }
  }

  /** `trim` then `strtoupper` on every piece. */
  function Normalised(pieces: seq<string>): (r: seq<string>)
    ensures |r| == |pieces|
    ensures forall k :: 0 <= k < |r| ==> r[k] == ToUpper(Trim(pieces[k])) && CleanName(r[k])
  {
    assert forall k :: 0 <= k < |pieces| ==> CleanName(ToUpper(Trim(pieces[k]))) by {
      forall k | 0 <= k < |pieces| { UpperTrimClean(pieces[k]); }
    }
    seq(|pieces|, k requires 0 <= k < |pieces| => ToUpper(Trim(pieces[k])))
  }

  /** The result of `get_db_grants` (with the intended cuts). */
  function DbGrants(rows: seq<Option<string>>, dbUser: string, dbPassword: string): seq<string> {
    match ScanGrants(rows, dbUser, dbPassword)
    case AllPrivilegesFound => [AllPrivileges]
    case Pieces(p) => Unique(Normalised(p))
  }

  /** The answer of `get_db_grants` as the code is written, for a
      `SHOW GRANTS` result of the single row `line`. */
  function DbGrantsAsWritten(line: string, dbUser: string, dbPassword: string): (r: seq<string>)
    ensures SkippedGrantRow(Some(line)) ==> r == []
    ensures !SkippedGrantRow(Some(line)) && ContainsCI(line, AllPrivileges) ==> r == [AllPrivileges]
    ensures !SkippedGrantRow(Some(line)) && !ContainsCI(line, AllPrivileges) ==>
      forall x :: x in r <==> x in Normalised(RowGrantsAsWritten(line, dbUser, dbPassword))
  {
    if SkippedGrantRow(Some(line)) then []
    else if ContainsCI(line, AllPrivileges) then [AllPrivileges]
    else Unique(Normalised(RowGrantsAsWritten(line, dbUser, dbPassword)))
  }

  /** With the intended cuts the single-row answer has the same shape. */
  lemma DbGrantsOneRow(line: string, dbUser: string, dbPassword: string)
    ensures DbGrants([Some(line)], dbUser, dbPassword) ==
      if SkippedGrantRow(Some(line)) then []
      else if ContainsCI(line, AllPrivileges) then [AllPrivileges]
      else Unique(Normalised(RowGrants(line, dbUser, dbPassword)))
  {
    var x := Some(line);
    assert [x][..0] == [];
    assert ScanGrants([x], dbUser, dbPassword) == ScanStep(Pieces([]), x, dbUser, dbPassword);
    assert [] + RowGrants(line, dbUser, dbPassword) == RowGrants(line, dbUser, dbPassword);
  }

  /** The inner loop of `get_db_grants`: the keyword rounds in turn, each
      cutting before the keyword and then after "GRANT". */
  method CutKeywords(line: string, keywords: seq<string>) returns (current: string)
    ensures current == StripKeywords(line, keywords)
  {
    current := line;
    var k := 0;
    while k < |keywords|
      invariant 0 <= k <= |keywords|
      invariant StripKeywords(current, keywords[k..]) == StripKeywords(line, keywords)
    {
      StripKeywordsStep(current, keywords, k);
      current := CutRound(current, keywords[k]);
      k := k + 1;
    }
  }

  /** One pass of that loop: the cut before the keyword, then the cut after
      "GRANT". */
  method CutRound(current: string, keyword: string) returns (r: string)
    ensures r == KeywordRound(current, keyword)
  {
    r := current;
    if ContainsCI(r, keyword) {
      r := r[..IndexOfCI(r, keyword).value];
    }
    assert r == KeywordCut(current, keyword);
    if ContainsCI(r, "GRANT") {
      r := r[IndexOfCI(r, "GRANT").value + 5..];
    }
  }

  /** The rounds from keyword `k` on are the round with keyword `k`, then
      the rounds after it. */
  lemma StripKeywordsStep(current: string, keywords: seq<string>, k: nat)
    requires k < |keywords|
    ensures StripKeywords(current, keywords[k..])
      == StripKeywords(KeywordRound(current, keywords[k]), keywords[k + 1..])
  {
    assert keywords[k..][0] == keywords[k];
    assert keywords[k..][1..] == keywords[k + 1..];
  }

  /** `get_db_grants`: walks the rows, stops at the first one granting ALL
      PRIVILEGES, cuts every other line keyword by keyword, and normalises
      the collected pieces. */
  method GetDbGrants(rows: seq<Option<string>>, dbUser: string, dbPassword: string) returns (grants: seq<string>)
    ensures grants == DbGrants(rows, dbUser, dbPassword)
  {
    var collected: seq<string> := [];
    var index := 0;
    while index < |rows|
      invariant 0 <= index <= |rows|
      invariant ScanGrants(rows[..index], dbUser, dbPassword) == Pieces(collected)
    {
      assert rows[..index + 1][..index] == rows[..index];
      var value := rows[index];
      if value.None? || PhpEmpty(value.value) {
        index := index + 1;
        continue;
      }
      if ContainsCI(value.value, AllPrivileges) {
        AllPrivilegesSticks(rows, index + 1, dbUser, dbPassword);
        return [AllPrivileges];
      }
      var current := CutKeywords(value.value, GrantKeywords);
      current := ReplaceAll(ReplaceAll(current, dbUser, "DB_USER"), dbPassword, "DB_PASS");
      collected := collected + Split(current, ',');
      index := index + 1;
    }
    assert rows[..|rows|] == rows;
    grants := Unique(Normalised(collected));
  }

  /** Once a row grants ALL PRIVILEGES, later rows change nothing. */
  lemma {:induction false} AllPrivilegesSticks(rows: seq<Option<string>>, n: nat, dbUser: string, dbPassword: string)
    requires n <= |rows|
    requires ScanGrants(rows[..n], dbUser, dbPassword) == AllPrivilegesFound
    ensures ScanGrants(rows, dbUser, dbPassword) == AllPrivilegesFound
    decreases |rows| - n
  {
    if n < |rows| {
      assert rows[..n + 1][..n] == rows[..n];
      AllPrivilegesSticks(rows, n + 1, dbUser, dbPassword);
    } else {
      assert rows[..n] == rows;
    }
  }

  /** Any row granting ALL PRIVILEGES (in any case) makes that the whole
      answer. */
  lemma {:induction false} AllPrivilegesWins(rows: seq<Option<string>>, k: nat, dbUser: string, dbPassword: string)
    requires k < |rows| && rows[k].Some? && ContainsCI(rows[k].value, AllPrivileges)
    ensures DbGrants(rows, dbUser, dbPassword) == [AllPrivileges]
  {
    var prefix := rows[..k + 1];
    assert prefix[..k] == rows[..k];
    assert !PhpEmpty(rows[k].value) by {
      assert IndexOfCI(rows[k].value, AllPrivileges).value + |AllPrivileges| <= |rows[k].value|;
    }
    AllPrivilegesSticks(rows, k + 1, dbUser, dbPassword);
  }

  /** Skipped rows (empty or not a string) contribute nothing, wherever they
      stand. */
  lemma {:induction false} SkippedRowIgnored(front: seq<Option<string>>, row: Option<string>, back: seq<Option<string>>,
                                             dbUser: string, dbPassword: string)
    requires SkippedGrantRow(row)
    ensures ScanGrants(front + [row] + back, dbUser, dbPassword) == ScanGrants(front + back, dbUser, dbPassword)
    decreases |back|
  {
    if |back| == 0 {
      ScanSnoc(front, row, dbUser, dbPassword);
      assert front + [row] + back == front + [row];
      assert front + back == front;
    } else {
      var b := back[..|back| - 1];
      var y := back[|back| - 1];
      SkippedRowIgnored(front, row, b, dbUser, dbPassword);
      SnocCongruent(front + [row] + b, front + b, y, dbUser, dbPassword);
      SplitLast(front + [row], back);
      SplitLast(front, back);
    }
  }

  lemma SplitLast(xs: seq<Option<string>>, back: seq<Option<string>>)
    requires |back| > 0
    ensures xs + back == xs + back[..|back| - 1] + [back[|back| - 1]]
  {
    assert back == back[..|back| - 1] + [back[|back| - 1]];
  }

  /** Rows that scan alike still scan alike after one more row. */
  lemma SnocCongruent(rows: seq<Option<string>>, others: seq<Option<string>>, y: Option<string>,
                      dbUser: string, dbPassword: string)
    requires ScanGrants(rows, dbUser, dbPassword) == ScanGrants(others, dbUser, dbPassword)
    ensures ScanGrants(rows + [y], dbUser, dbPassword) == ScanGrants(others + [y], dbUser, dbPassword)
  {
    ScanSnoc(rows, y, dbUser, dbPassword);
    ScanSnoc(others, y, dbUser, dbPassword);
  }

  lemma ScanSnoc(rows: seq<Option<string>>, y: Option<string>, dbUser: string, dbPassword: string)
    ensures ScanGrants(rows + [y], dbUser, dbPassword) == ScanStep(ScanGrants(rows, dbUser, dbPassword), y, dbUser, dbPassword)
  {
    assert (rows + [y])[..|rows|] == rows;
  }

  /** The answer lists distinct, trimmed, upper-case names. */
  lemma DbGrantsNormalised(rows: seq<Option<string>>, dbUser: string, dbPassword: string)
    ensures var r := DbGrants(rows, dbUser, dbPassword);
      && (forall a, b :: 0 <= a < b < |r| ==> r[a] != r[b])
      && (forall x :: x in r ==> CleanName(x))
  {
    match ScanGrants(rows, dbUser, dbPassword)
    case AllPrivilegesFound =>
      assert CleanName(AllPrivileges);
    case Pieces(p) =>
      var n := Normalised(p);
      assert forall x :: x in n ==> CleanName(x);
  }

  // ---------------------------------------------------------------------------
  // Grant classification in get_db_info
  // ---------------------------------------------------------------------------

  const NeededGrants: seq<string> :=
    ["SELECT", "INSERT", "UPDATE", "INDEX", "DELETE", "CREATE", "DROP", "ALTER", "CREATE TEMPORARY TABLES", "LOCK TABLES"]

  /** `array_diff($needed, $granted)`: the needed names not granted, in order. */
  function Missing(needed: seq<string>, granted: seq<string>): (r: seq<string>)
    ensures |r| <= |needed|
    ensures forall x :: x in r <==> x in needed && x !in granted
    ensures |r| == |needed| <==> forall k :: 0 <= k < |needed| ==> needed[k] !in granted
  {
    if |needed| == 0 then []
    else
      var rest := Missing(needed[1..], granted);
      assert forall x :: x in needed <==> x == needed[0] || x in needed[1..];
      assert forall k :: 1 <= k < |needed| ==> needed[k] == needed[1..][k - 1];
      if needed[0] in granted then rest else [needed[0]] + rest
  }

  /** Nothing is missing exactly when every needed name is granted. */
  lemma MissingEmpty(needed: seq<string>, granted: seq<string>)
    ensures Missing(needed, granted) == [] <==> forall k :: 0 <= k < |needed| ==> needed[k] in granted
  {
    var m := Missing(needed, granted);
    if m != [] {
      assert m[0] in m;
    }
  }

  /** The three outcomes of the permission check. */
  datatype GrantVerdict = FailedToDetect | MissingGrants(missing: seq<string>) | AllGranted

  /** The permission check on the detected grants: ALL PRIVILEGES stands for
      every needed grant; nothing detected, or none of the needed ones, is a
      failure to detect; some missing is reported with the missing names. */
  function ClassifyGrants(grants: seq<string>): (r: GrantVerdict)
    ensures AllPrivileges in grants ==> r == AllGranted
    ensures r == FailedToDetect <==>
      AllPrivileges !in grants && forall k :: 0 <= k < |NeededGrants| ==> NeededGrants[k] !in grants
    ensures r == AllGranted <==>
      AllPrivileges in grants || forall k :: 0 <= k < |NeededGrants| ==> NeededGrants[k] in grants
    ensures r.MissingGrants? ==>
      && r.missing != []
      && (forall x :: x in r.missing <==> x in NeededGrants && x !in grants)
  {
    var effective := if AllPrivileges in grants then NeededGrants else grants;
    var missing := Missing(NeededGrants, effective);
    MissingEmpty(NeededGrants, effective);
    if |effective| == 0 || |missing| == |NeededGrants| then FailedToDetect
    else if |missing| > 0 then MissingGrants(missing)
    else AllGranted
  }

  const PermissionsRowName := "Required permissions"
  /** The values of that row: grants undetected, missing, or all there. */
  const UndetectedValue := "Failed to detect granted permissions"
  const MissingValue := "Error"
  const GrantedValue := "OK"
  const GrantsHelpLink := "https://n3rds.work/faq/troubleshooting/how-do-i-check-if-my-mysql-user-has-all-required-grants/"

  /** The comment of the row when no needed grant was recognised. */
  function UndetectedComment(needed: seq<string>): string {
    "Please check your MySQL user has these permissions (grants):" + "<br />" + Join(", ", needed)
  }

  /** The comment of the row listing the missing grants. */
  function MissingComment(missing: seq<string>): string {
    "Missing permissions" + ": " + Join(", ", missing) + ". "
      + "Please check if any of these MySQL permission (grants) are missing and add them if needed."
      + " " + "Learn more" + ": " + GrantsHelpLink
  }

  /** The "Required permissions" row for a verdict; only missing grants make
      it a warning. */
  function GrantRow(v: GrantVerdict): (r: Row)
    ensures r.name == PermissionsRowName
    ensures r.isWarning <==> v.MissingGrants?
    ensures !r.isError
    ensures v == FailedToDetect ==> r.value == UndetectedValue && r.comment == UndetectedComment(NeededGrants)
    ensures v.MissingGrants? ==> r.value == MissingValue && r.comment == MissingComment(v.missing)
    ensures v == AllGranted ==> r.value == GrantedValue && r.comment == ""
  {
    match v
    case FailedToDetect =>
      Row(PermissionsRowName, UndetectedValue, UndetectedComment(NeededGrants), false, false)
    case MissingGrants(missing) =>
      Row(PermissionsRowName, MissingValue, MissingComment(missing), true, false)
    case AllGranted => Row(PermissionsRowName, GrantedValue, "", false, false)
  }

  /** A user holding ALL PRIVILEGES passes the permission check. */
  lemma AllPrivilegesPass(rows: seq<Option<string>>, k: nat, dbUser: string, dbPassword: string)
    requires k < |rows| && rows[k].Some? && ContainsCI(rows[k].value, AllPrivileges)
    ensures ClassifyGrants(DbGrants(rows, dbUser, dbPassword)) == AllGranted
    ensures !GrantRow(ClassifyGrants(DbGrants(rows, dbUser, dbPassword))).isWarning
  {
    AllPrivilegesWins(rows, k, dbUser, dbPassword);
  }

  /** No rows at all is a failure to detect, not a warning. */
  lemma NoGrantsFailure(dbUser: string, dbPassword: string)
    ensures ClassifyGrants(DbGrants([], dbUser, dbPassword)) == FailedToDetect
    ensures !GrantRow(ClassifyGrants(DbGrants([], dbUser, dbPassword))).isWarning
  {
  }

  /** A grant line as `SHOW GRANTS` prints it: privileges, object, user. */
  const SamplePrivileges := " SELECT"
  const SampleTarget := "`d`.*" + " TO " + "`u`"
  const SampleGrant := "GRANT" + SamplePrivileges + " ON " + SampleTarget
  const SampleUser := "wp_user"
  const SamplePassword := "secret"

  /** The sample in lower case, piece by piece. */
  lemma SampleLower()
    ensures ToLower(SamplePrivileges) == " select"
    ensures ToLower(SampleTarget) == "`d`.*" + " to " + "`u`"
    ensures ToLower(SampleGrant[5..]) == " select" + " on " + ToLower(SampleTarget)
    ensures ToLower(SampleGrant) == "grant" + ToLower(SampleGrant[5..])
  {
    TargetLower();
    TailLower();
    GrantLower();
  }

  lemma TargetLower()
    ensures ToLower(SampleTarget) == "`d`.*" + " to " + "`u`"
  {
    ToLowerConcat("`d`.*" + " TO ", "`u`");
    ToLowerConcat("`d`.*", " TO ");
    assert ToLower(" TO ") == " to ";
    assert ToLower("`d`.*") == "`d`.*";
    assert ToLower("`u`") == "`u`";
  }

  lemma TailLower()
    ensures ToLower(SampleGrant[5..]) == " select" + " on " + ToLower(SampleTarget)
  {
    assert SampleGrant[5..] == SamplePrivileges + " ON " + SampleTarget;
    ToLowerConcat(SamplePrivileges + " ON ", SampleTarget);
    ToLowerConcat(SamplePrivileges, " ON ");
    assert ToLower(SamplePrivileges) == " select";
    assert ToLower(" ON ") == " on ";
  }

  lemma GrantLower()
    ensures ToLower(SampleGrant) == "grant" + ToLower(SampleGrant[5..])
  {
    assert SampleGrant == "GRANT" + SampleGrant[5..];
    ToLowerConcat("GRANT", SampleGrant[5..]);
    assert ToLower("GRANT") == "grant";
  }

  lemma KeywordsLower()
    ensures ToLower("GRANT") == "grant"
    ensures ToLower(" ON ") == " on "
    ensures ToLower(" TO ") == " to "
    ensures ToLower(" IDENTIFIED ") == " identified "
    ensures ToLower(" BY ") == " by "
  {
    assert ToLower("GRANT") == "grant";
    assert ToLower(" ON ") == " on ";
    assert ToLower(" TO ") == " to ";
    assert ToLower(" IDENTIFIED ") == " identified ";
    assert ToLower(" BY ") == " by ";
  }

  /** Characters that the tail after "GRANT" lacks. */
  lemma TailLacksF() ensures 'f' !in ToLower(SampleGrant[5..]) { SampleLower(); }
  lemma TailLacksY() ensures 'y' !in ToLower(SampleGrant[5..]) { SampleLower(); }
  lemma TailLacksG() ensures 'g' !in ToLower(SampleGrant[5..]) { SampleLower(); }
  lemma TailLacksV() ensures 'v' !in ToLower(SampleGrant[5..]) { SampleLower(); }

  /** Characters that the privileges lack. */
  lemma PrivilegesMissingChars()
    ensures 'o' !in ToLower(SamplePrivileges) && 'f' !in ToLower(SamplePrivileges)
    ensures 'b' !in ToLower(SamplePrivileges) && 'g' !in ToLower(SamplePrivileges)
  {
    SampleLower();
  }

  /** The tail after "GRANT" holds neither of the last two keywords nor
      "GRANT". */
  lemma TailLacksKeywords()
    ensures !ContainsCI(SampleGrant[5..], " IDENTIFIED ")
    ensures !ContainsCI(SampleGrant[5..], " BY ")
    ensures !ContainsCI(SampleGrant[5..], "GRANT")
  {
    TailLacksF();
    TailLacksY();
    TailLacksG();
    KeywordsLower();
    AbsentByChar(SampleGrant[5..], " IDENTIFIED ", 'f');
    AbsentByChar(SampleGrant[5..], " BY ", 'y');
    AbsentByChar(SampleGrant[5..], "GRANT", 'g');
  }

  /** The privileges hold no keyword and no "GRANT". */
  lemma PrivilegesLackKeywords()
    ensures !ContainsCI(SamplePrivileges, " TO ")
    ensures !ContainsCI(SamplePrivileges, " IDENTIFIED ")
    ensures !ContainsCI(SamplePrivileges, " BY ")
    ensures !ContainsCI(SamplePrivileges, "GRANT")
  {
    PrivilegesMissingChars();
    KeywordsLower();
    AbsentByChar(SamplePrivileges, " TO ", 'o');
    AbsentByChar(SamplePrivileges, " IDENTIFIED ", 'f');
    AbsentByChar(SamplePrivileges, " BY ", 'b');
    AbsentByChar(SamplePrivileges, "GRANT", 'g');
  }

  /** Where " ON " and " TO " occur in the lower-case line and its tail. */
  lemma SampleOccurrences()
    ensures OccursAt(ToLower(SampleGrant), ToLower(" ON "), 12)
    ensures OccursAt(ToLower(SampleGrant[5..]), ToLower(" TO "), 16)
    ensures OccursAt(ToLower(SampleGrant), ToLower(" TO "), 21)
  {
    SampleOnAt12();
    SampleTailToAt16();
    SampleToAt21();
  }

  lemma SampleOnAt12()
    ensures OccursAt(ToLower(SampleGrant), ToLower(" ON "), 12)
  {
    SampleLower();
    assert ToLower(" ON ") == " on ";
    var tl := ToLower(SampleTarget);
    assert ToLower(SampleGrant) == ("grant" + " select") + " on " + tl;
    OccursInMiddle("grant" + " select", " on ", tl);
  }

  lemma SampleTailToAt16()
    ensures OccursAt(ToLower(SampleGrant[5..]), ToLower(" TO "), 16)
  {
    var q, b, c := " select" + " on ", "`d`.*", "`u`";
    assert ToLower(SampleGrant[5..]) == q + (b + " to " + c) by {
      SampleLower();
    }
    assert ToLower(" TO ") == " to ";
    OccursAfter("", q, b, " to ", c);
  }

  lemma SampleToAt21()
    ensures OccursAt(ToLower(SampleGrant), ToLower(" TO "), 21)
  {
    var q, b, c := " select" + " on ", "`d`.*", "`u`";
    assert ToLower(SampleGrant) == "grant" + (q + (b + " to " + c)) by {
      SampleLower();
    }
    assert ToLower(" TO ") == " to ";
    OccursAfter("grant", q, b, " to ", c);
  }

  /** A needle nested in a concatenation occurs after everything before it. */
  lemma OccursAfter(p: string, q: string, b: string, needle: string, c: string)
    ensures OccursAt(p + (q + (b + needle + c)), needle, |p| + |q| + |b|)
    ensures p == "" ==> OccursAt(q + (b + needle + c), needle, |q| + |b|)
  {
    assert p + (q + (b + needle + c)) == (p + q + b) + needle + c;
    assert p == "" ==> p + (q + (b + needle + c)) == q + (b + needle + c);
    OccursInMiddle(p + q + b, needle, c);
  }

  /** For a line starting with "GRANT", cutting the whole line before a
      keyword that starts with a blank keeps the "GRANT" at the start, so
      the code's second cut returns the line from its sixth character. */
  lemma GrantKeptByCut(v: string, rest: string, keyword: string)
    requires ToLower(v) == "grant" + rest
    requires |keyword| > 0 && keyword[0] == ' ' && ContainsCI(v, keyword)
    ensures var p := IndexOfCI(v, keyword).value;
      5 <= p && IndexOfCI(v[..p], "GRANT") == Some(0)
  {
    var lv, lk := ToLower(v), ToLower(keyword);
    var p := IndexOfCI(v, keyword).value;
    assert lv[..5] == "grant";
    assert lv[p..p + |lk|][0] == lk[0] == ' ';
    assert p >= 5 by {
      forall j | 0 <= j < 5 ensures lv[j] != ' ' {
        assert lv[j] == lv[..5][j];
      }
    }
    var lc := ToLower(v[..p]);
    assert ToLower("GRANT") == "grant";
    assert lc[0..5] == lv[..5];
    FoundAt(v[..p], "GRANT", 0);
  }

  /** The " ON " round of the code as written turns the sample into its tail
      after "GRANT": the keyword cut is undone by the GRANT cut. */
  lemma AsWrittenOnRound()
    ensures KeywordRoundAsWritten(SampleGrant, SampleGrant, " ON ") == SampleGrant[5..]
  {
    SampleLower();
    SampleOccurrences();
    FoundAt(SampleGrant, " ON ", 12);
    GrantKeptByCut(SampleGrant, ToLower(SampleGrant[5..]), " ON ");
  }

  /** The " TO " round does the same to the tail. */
  lemma AsWrittenToRound()
    ensures KeywordRoundAsWritten(SampleGrant, SampleGrant[5..], " TO ") == SampleGrant[5..]
  {
    SampleLower();
    SampleOccurrences();
    FoundAt(SampleGrant, " TO ", 21);
    FoundAt(SampleGrant[5..], " TO ", 16);
    GrantKeptByCut(SampleGrant, ToLower(SampleGrant[5..]), " TO ");
  }

  /** The last two rounds leave the tail alone. */
  lemma AsWrittenLastRounds()
    ensures KeywordRoundAsWritten(SampleGrant, SampleGrant[5..], " IDENTIFIED ") == SampleGrant[5..]
    ensures KeywordRoundAsWritten(SampleGrant, SampleGrant[5..], " BY ") == SampleGrant[5..]
  {
    TailLacksKeywords();
  }

  /** The code as written leaves the object and the user in the text: the
      sample line comes out as everything after "GRANT", " ON " and " TO "
      included. */
  lemma StripAsWrittenKeepsUser()
    ensures StripAsWritten(SampleGrant, SampleGrant, GrantKeywords) == SamplePrivileges + " ON " + SampleTarget
  {
    AsWrittenFirstRounds();
    AsWrittenRemainingRounds();
    SampleTail();
  }

  lemma SampleTail()
    ensures SampleGrant[5..] == SamplePrivileges + " ON " + SampleTarget
  {
  }

  lemma AsWrittenFirstRounds()
    ensures StripAsWritten(SampleGrant, SampleGrant, GrantKeywords)
      == StripAsWritten(SampleGrant, SampleGrant[5..], [" IDENTIFIED ", " BY "])
  {
    var k := GrantKeywords;
    assert k[1..] == [" TO ", " IDENTIFIED ", " BY "];
    assert k[1..][1..] == [" IDENTIFIED ", " BY "];
    AsWrittenOnRound();
    AsWrittenToRound();
  }

  lemma AsWrittenRemainingRounds()
    ensures StripAsWritten(SampleGrant, SampleGrant[5..], [" IDENTIFIED ", " BY "]) == SampleGrant[5..]
  {
    var k := [" IDENTIFIED ", " BY "];
    assert k[1..] == [" BY "];
    assert k[1..][1..] == [];
    AsWrittenLastRounds();
  }

  /** The intended " ON " round keeps the privileges alone. */
  lemma OnRoundKeepsPrivileges()
    ensures KeywordRound(SampleGrant, " ON ") == SamplePrivileges
  {
    FirstOnAt12();
    GrantAtStartOfCut();
    assert SampleGrant[..12][5..] == SamplePrivileges;
  }

  lemma FirstOnAt12()
    ensures IndexOfCI(SampleGrant, " ON ") == Some(12)
  {
    SampleOccurrences();
    SampleHead();
    FirstOccurrenceCI(SampleGrant, " ON ", 12, 1);
  }

  /** The line's first 13 characters have no 'o'. */
  lemma SampleHead()
    ensures 'o' !in ToLower(SampleGrant)[..13]
  {
    SampleLower();
    assert ToLower(SampleGrant)[..13] == "grant select" + " ";
  }

  lemma GrantAtStartOfCut()
    ensures IndexOfCI(SampleGrant[..12], "GRANT") == Some(0)
  {
    var cut := SampleGrant[..12];
    assert cut == "GRANT" + SamplePrivileges;
    ToLowerConcat("GRANT", SamplePrivileges);
    KeywordsLower();
    OccursInMiddle("", "grant", ToLower(SamplePrivileges));
    assert "" + "grant" + ToLower(SamplePrivileges) == ToLower(cut);
    FoundAt(cut, "GRANT", 0);
  }

  /** The same line with the intended cuts keeps only the privileges. */
  lemma StripKeywordsKeepsPrivileges()
    ensures StripKeywords(SampleGrant, GrantKeywords) == SamplePrivileges
  {
    var p := SamplePrivileges;
    var k := GrantKeywords;
    assert k[0] == " ON " && k[1..][0] == " TO " && k[1..][1..][0] == " IDENTIFIED " && k[1..][1..][1..][0] == " BY ";
    assert k[1..][1..][1..][1..] == [];
    OnRoundKeepsPrivileges();
    PrivilegesLackKeywords();
    calc {
      StripKeywords(SampleGrant, k);
      StripKeywords(p, k[1..]);
      { assert KeywordRound(p, " TO ") == p; }
      StripKeywords(p, k[1..][1..]);
      { assert KeywordRound(p, " IDENTIFIED ") == p; }
      StripKeywords(p, k[1..][1..][1..]);
      { assert KeywordRound(p, " BY ") == p; }
      StripKeywords(p, k[1..][1..][1..][1..]);
      p;
    }
  }

  /** What the permission check reports for the sample line, which grants
      SELECT. As written, the one name found still carries the object and
      the user, so no needed grant is recognised and the row says the grants
      could not be detected, without a warning. With the intended cuts
      SELECT is found and the row warns about the nine others. */
  lemma AsWrittenFailsToDetect()
    ensures ClassifyGrants(DbGrantsAsWritten(SampleGrant, SampleUser, SamplePassword)) == FailedToDetect
    ensures !GrantRow(ClassifyGrants(DbGrantsAsWritten(SampleGrant, SampleUser, SamplePassword))).isWarning
    ensures ClassifyGrants(DbGrants([Some(SampleGrant)], SampleUser, SamplePassword)) == MissingGrants(NeededGrants[1..])
    ensures GrantRow(ClassifyGrants(DbGrants([Some(SampleGrant)], SampleUser, SamplePassword))).isWarning
  {
    AsWrittenNothingRecognised();
    IntendedSampleAnswer();
    IntendedSampleVerdict();
  }

  /** No needed grant and not ALL PRIVILEGES ends with '`'. */
  lemma NeededGrantsEndInLetters()
    ensures forall k :: 0 <= k < |NeededGrants| ==> |NeededGrants[k]| > 0 && NeededGrants[k][|NeededGrants[k]| - 1] != '`'
    ensures AllPrivileges[|AllPrivileges| - 1] != '`'
  {
  }

  /** As written, none of the needed grants is among the names found. */
  lemma AsWrittenNothingRecognised()
    ensures var grants := DbGrantsAsWritten(SampleGrant, SampleUser, SamplePassword);
      AllPrivileges !in grants && forall k :: 0 <= k < |NeededGrants| ==> NeededGrants[k] !in grants
  {
    AsWrittenSampleAnswer();
    NeededGrantsEndInLetters();
  }

  /** Everything but the first needed name is missing when only the first
      is granted. */
  lemma MissingAllButFirst(needed: seq<string>, granted: seq<string>)
    requires |needed| > 0 && needed[0] in granted
    requires forall k :: 1 <= k < |needed| ==> needed[k] !in granted
    ensures Missing(needed, granted) == needed[1..]
  {
    MissingNoneGranted(needed[1..], granted);
  }

  lemma {:induction false} MissingNoneGranted(needed: seq<string>, granted: seq<string>)
    requires forall k :: 0 <= k < |needed| ==> needed[k] !in granted
    ensures Missing(needed, granted) == needed
  {
    if |needed| > 0 {
      assert forall k :: 0 <= k < |needed| - 1 ==> needed[1..][k] == needed[k + 1];
      MissingNoneGranted(needed[1..], granted);
      assert [needed[0]] + needed[1..] == needed;
    }
  }

  /** With SELECT alone granted, the nine other needed grants are missing. */
  lemma IntendedSampleVerdict()
    ensures ClassifyGrants(["SELECT"]) == MissingGrants(NeededGrants[1..])
  {
    var granted := ["SELECT"];
    assert AllPrivileges !in granted;
    MissingAllButFirst(NeededGrants, granted);
    assert |NeededGrants[1..]| == 9;
  }

  /** The sample is an ordinary grant line: not skipped, no ALL PRIVILEGES. */
  lemma SampleIsOrdinary()
    ensures !SkippedGrantRow(Some(SampleGrant)) && !ContainsCI(SampleGrant, AllPrivileges)
  {
    SampleLacksV();
    AllPrivilegesHasV();
    AbsentByChar(SampleGrant, AllPrivileges, 'v');
    assert SampleGrant[0] == 'G';
  }

  lemma SampleLacksV()
    ensures 'v' !in ToLower(SampleGrant)
  {
    TailLacksV();
    GrantLower();
  }

  lemma AllPrivilegesHasV() ensures 'v' in ToLower(AllPrivileges) {
    assert ToLower(AllPrivileges)[7] == LowerChar('V');
  }

  /** A line whose cut text holds no 'w', 's' or ',' contributes that text
      alone, for the sample user and password. */
  lemma OnePiece(kept: string, pieces: seq<string>)
    requires pieces == MaskAndSplit(kept, SampleUser, SamplePassword)
    requires 'w' !in kept && 's' !in kept && ',' !in kept
    ensures pieces == [kept]
  {
    ReplaceAllAbsent(kept, SampleUser, "DB_USER");
    ReplaceAllAbsent(kept, SamplePassword, "DB_PASS");
    SplitWithoutSep(kept, ',');
  }

  /** What the code as written keeps of the sample. */
  const SampleKeptAsWritten := SamplePrivileges + " ON " + SampleTarget

  lemma AsWrittenSamplePieces()
    ensures RowGrantsAsWritten(SampleGrant, SampleUser, SamplePassword) == [SampleKeptAsWritten]
  {
    StripAsWrittenKeepsUser();
    KeptAsWrittenChars();
    OnePiece(SampleKeptAsWritten, RowGrantsAsWritten(SampleGrant, SampleUser, SamplePassword));
  }

  lemma KeptAsWrittenChars()
    ensures 'w' !in SampleKeptAsWritten && 's' !in SampleKeptAsWritten && ',' !in SampleKeptAsWritten
    ensures SampleKeptAsWritten[|SampleKeptAsWritten| - 1] == '`'
  {
    assert SampleKeptAsWritten == " SELECT ON `d`.* TO `u`";
  }

  /** `array_map('trim')` and `strtoupper` on a single piece. */
  lemma NormalisedOne(x: string)
    ensures Normalised([x]) == [ToUpper(Trim(x))]
  {
  }

  /** The kept text, trimmed and upper-cased, still ends with '`'. */
  lemma AsWrittenSampleName()
    ensures var n := Normalised([SampleKeptAsWritten]);
      |n| == 1 && |n[0]| > 0 && n[0][|n[0]| - 1] == '`'
  {
    var kept := SampleKeptAsWritten;
    KeptAsWrittenChars();
    TrimKeepsLast(kept);
    NormalisedOne(kept);
    var g := ToUpper(Trim(kept));
    assert g[|g| - 1] == '`';
  }

  /** As written, every name in the answer for the sample ends with the
      user's closing '`'. */
  lemma AsWrittenSampleAnswer()
    ensures forall x :: x in DbGrantsAsWritten(SampleGrant, SampleUser, SamplePassword) ==>
      |x| > 0 && x[|x| - 1] == '`'
  {
    SampleIsOrdinary();
    AsWrittenSamplePieces();
    AsWrittenSampleName();
    OnlyNameOfOnePiece(SampleGrant, SampleUser, SamplePassword, SampleKeptAsWritten);
  }

  /** A row that is cut to a single piece yields that piece's name alone. */
  lemma OnlyNameOfOnePiece(line: string, dbUser: string, dbPassword: string, kept: string)
    requires !SkippedGrantRow(Some(line)) && !ContainsCI(line, AllPrivileges)
    requires RowGrantsAsWritten(line, dbUser, dbPassword) == [kept]
    ensures forall x :: x in DbGrantsAsWritten(line, dbUser, dbPassword) ==> x == Normalised([kept])[0]
  {
  }

  lemma IntendedSamplePieces()
    ensures RowGrants(SampleGrant, SampleUser, SamplePassword) == [SamplePrivileges]
  {
    StripKeywordsKeepsPrivileges();
    PrivilegesChars();
    OnePiece(SamplePrivileges, RowGrants(SampleGrant, SampleUser, SamplePassword));
  }

  lemma PrivilegesChars()
    ensures 'w' !in SamplePrivileges && 's' !in SamplePrivileges && ',' !in SamplePrivileges
  {
    assert SamplePrivileges == " SELECT";
  }

  /** One leading blank is trimmed off a word. */
  lemma TrimLeadingBlank(s: string)
    requires |s| > 1 && s[0] == ' ' && !IsTrimChar(s[1]) && !IsTrimChar(s[|s| - 1])
    ensures Trim(s) == s[1..]
  {
    TrimLeftDrops(s, IsTrimChar);
    TrimLeftKeeps(s[1..], IsTrimChar);
    TrimRightKeeps(s[1..], IsTrimChar);
  }

  /** Upper-case text is its own `strtoupper`. */
  lemma UpperKeeps(s: string)
    requires forall i :: 0 <= i < |s| ==> !IsLower(s[i])
    ensures ToUpper(s) == s
  {
  }

  lemma IntendedSampleName()
    ensures Normalised([SamplePrivileges]) == ["SELECT"]
  {
    var p := SamplePrivileges;
    assert p == " SELECT";
    TrimLeadingBlank(p);
    assert p[1..] == "SELECT";
    UpperKeeps("SELECT");
    NormalisedOne(p);
  }

  /** With the intended cuts the answer is exactly SELECT. */
  lemma IntendedSampleAnswer()
    ensures DbGrants([Some(SampleGrant)], SampleUser, SamplePassword) == ["SELECT"]
  {
    SampleIsOrdinary();
    DbGrantsOneRow(SampleGrant, SampleUser, SamplePassword);
    IntendedSamplePieces();
    IntendedSampleName();
  }
}

=== FILE: tag_manager.dfy ===
/** The parameters of the TagManager "Psstats configuration" variable
    (app/plugins/TagManager/Template/Variable/MatomoConfigurationVariable.php):
    the scheme rewrite of the instance URL, the idSite check, the length
    limits of the free-text fields, and the checks and filters of the two
    list-valued settings (domains and custom dimensions). Site existence is a
    parameter; a failing check is a `Fail` carrying the exception's message. */
module TagManager {
  import opened Wrappers
  import opened Text

  // ---------------------------------------------------------------------------
  // URL scheme rewrite
  // ---------------------------------------------------------------------------

  /** The tracker URL offered by default: with HTTPS forced every "http://"
      becomes "https://"; otherwise both schemes become protocol-relative
      ("//"), "http://" being replaced first. */
  function RewriteScheme(url: string, httpsForced: bool): string {
    if httpsForced then ReplaceAll(url, "http://", "https://")
    else ReplaceAll(ReplaceAll(url, "http://", "//"), "https://", "//")
  }

  /** A text without an occurrence of the needle is left alone. */
  lemma {:induction false} ReplaceAbsent(s: string, needle: string, repl: string)
    requires forall j :: !OccursAt(s, needle, j)
    ensures ReplaceAll(s, needle, repl) == s
    decreases |s|
  {
    if |needle| > 0 && |s| >= |needle| {
      assert !OccursAt(s, needle, 0);
      forall j ensures OccursAt(s[1..], needle, j) ==> OccursAt(s, needle, j + 1) {
        ShiftOccurrence(s, 1, needle, j);
      }
      ReplaceAbsent(s[1..], needle, repl);
    }
  }

  /** An occurrence in a suffix is an occurrence in the whole text. */
  lemma ShiftOccurrence(s: string, skip: nat, needle: string, j: int)
    requires skip <= |s|
    ensures OccursAt(s[skip..], needle, j) <==> j >= 0 && OccursAt(s, needle, j + skip)
  {
    if 0 <= j && j + |needle| <= |s| - skip {
      assert s[skip..][j..j + |needle|] == s[j + skip..j + skip + |needle|];
    }
  }

  /** The part of a URL after its scheme: no further "://" in it. */
  ghost predicate NoSchemeSeparator(rest: string) {
    forall j :: !OccursAt(rest, "://", j)
  }

  /** A needle ending in "://" brings a "://" with it. */
  lemma SeparatorOf(s: string, needle: string, j: int)
    requires |needle| >= 3 && needle[|needle| - 3..] == "://"
    ensures OccursAt(s, needle, j) ==> OccursAt(s, "://", j + |needle| - 3)
  {
    if OccursAt(s, needle, j) {
      var e := j + |needle| - 3;
      assert s[e..e + 3] == s[j..j + |needle|][|needle| - 3..];
    }
  }

  /** The occurrences of "://" in `prefix + rest` are those inside `prefix`
      when `rest` has none of its own and `prefix` does not end in ':' or ":/". */
  lemma SeparatorsInPrefix(prefix: string, rest: string, p: int)
    requires NoSchemeSeparator(rest)
    requires |prefix| >= 2 && prefix[|prefix| - 1] != ':' && prefix[|prefix| - 2] != ':'
    ensures OccursAt(prefix + rest, "://", p) ==> p + 3 <= |prefix|
  {
    var s := prefix + rest;
    assert s[|prefix|..] == rest;
    ShiftOccurrence(s, |prefix|, "://", p - |prefix|);
    assert OccursAt(s, "://", p) ==> s[p] == ':';
  }

  /** "//" followed by a separator-free rest holds no scheme needle. */
  lemma NoSchemeAfterSlashes(rest: string, needle: string)
    requires NoSchemeSeparator(rest) && |needle| >= 3 && needle[|needle| - 3..] == "://"
    ensures forall j :: !OccursAt("//" + rest, needle, j)
  {
    var s := "//" + rest;
    forall j ensures !OccursAt(s, needle, j) {
      SeparatorOf(s, needle, j);
      SeparatorsInPrefix("//", rest, j + |needle| - 3);
    }
  }

  /** A separator-free rest holds no scheme needle either. */
  lemma NoSchemeInRest(rest: string, needle: string)
    requires NoSchemeSeparator(rest) && |needle| >= 3 && needle[|needle| - 3..] == "://"
    ensures forall j :: !OccursAt(rest, needle, j)
  {
    forall j ensures !OccursAt(rest, needle, j) {
      SeparatorOf(rest, needle, j);
    }
  }

  /** An "http://" URL becomes "https://" when HTTPS is forced and
      protocol-relative otherwise. */
  lemma RewriteHttp(rest: string)
    requires NoSchemeSeparator(rest)
    ensures RewriteScheme("http://" + rest, true) == "https://" + rest
    ensures RewriteScheme("http://" + rest, false) == "//" + rest
  {
    var s := "http://" + rest;
    assert s[..7] == "http://" && s[7..] == rest;
    NoSchemeInRest(rest, "http://");
    ReplaceAbsent(rest, "http://", "https://");
    ReplaceAbsent(rest, "http://", "//");
    NoSchemeAfterSlashes(rest, "https://");
    ReplaceAbsent("//" + rest, "https://", "//");
  }

  /** An "https://" URL is kept when HTTPS is forced and becomes
      protocol-relative otherwise. */
  lemma RewriteHttps(rest: string)
    requires NoSchemeSeparator(rest)
    ensures RewriteScheme("https://" + rest, true) == "https://" + rest
    ensures RewriteScheme("https://" + rest, false) == "//" + rest
  {
    var s := "https://" + rest;
    assert s[..8] == "https://";
    forall j ensures !OccursAt(s, "http://", j) {
      SeparatorOf(s, "http://", j);
      SeparatorsInPrefix("https://", rest, j + 4);
      assert s[1] == 't' && s[2] == 't' && s[3] == 'p' && s[4] == 's';
    }
    ReplaceAbsent(s, "http://", "https://");
    ReplaceAbsent(s, "http://", "//");
    assert s[..8] == "https://" && s[8..] == rest;
    NoSchemeInRest(rest, "https://");
    ReplaceAbsent(rest, "https://", "//");
  }

  // ---------------------------------------------------------------------------
  // idSite
  // ---------------------------------------------------------------------------

  const IdSiteMessage := "The idSite can only include idSites and variables."

  /** A variable reference: "{{" with a "}}" at or after it. */
  ghost predicate HasVariable(value: string) {
    exists i, j :: OccursAt(value, "{{", i) && OccursAt(value, "}}", j) && i <= j
  }

  /** The idSite `validate` closure. A numeric id is accepted, and checked
      against the known sites (`siteCheck`, which stands for constructing the
      site) only when the configured URL is still the default one; any other
      value must hold "{{" followed later by "}}". */
  function ValidateIdSite(value: string, configuredUrl: string, defaultUrl: string,
                          siteCheck: string -> Outcome): (r: Outcome)
    ensures IsNumeric(value) && configuredUrl != defaultUrl ==> r == Pass
    ensures IsNumeric(value) && configuredUrl == defaultUrl ==> r == siteCheck(value)
    ensures !IsNumeric(value) ==> (r == Pass <==> HasVariable(value))
    ensures !IsNumeric(value) && !HasVariable(value) ==> r == Fail(IdSiteMessage)
  {
    if IsNumeric(value) then
      if configuredUrl == defaultUrl then siteCheck(value) else Pass
    else
      var open := IndexOf(value, "{{");
      var ok := open.Some? && IndexFrom(value, "}}", open.value).Some?;
      assert ok <==> HasVariable(value) by {
        if HasVariable(value) {
          var i, j :| OccursAt(value, "{{", i) && OccursAt(value, "}}", j) && i <= j;
          IndexFromFirst(value, "{{", 0);
          assert open.Some? && open.value <= i;
          IndexFromFirst(value, "}}", open.value);
        }
      }
      if ok then Pass else Fail(IdSiteMessage)
  }

  /** A variable reference is an acceptable idSite whatever the URL. */
  lemma VariableIdSiteAccepted(name: string, configuredUrl: string, defaultUrl: string, siteCheck: string -> Outcome)
    requires !IsNumeric("{{" + name + "}}")
    ensures ValidateIdSite("{{" + name + "}}", configuredUrl, defaultUrl, siteCheck) == Pass
  {
    var v := "{{" + name + "}}";
    assert OccursAt(v, "{{", 0);
    assert v[|v| - 2..] == "}}";
    assert OccursAt(v, "}}", |v| - 2);
  }

  // ---------------------------------------------------------------------------
  // Length limits
  // ---------------------------------------------------------------------------

  const MaxFieldLength := 500

  /** The settings that carry a `CharacterLength(0, 500)` validator. */
  const LengthLimitedFields: seq<string> := ["idSite", "cookieDomain", "cookiePath", "userId"]

  /** The length check of a setting: the limited ones accept 0 to 500
      characters, the others any length. */
  function CheckLength(field: string, value: string): (r: bool)
    ensures field in LengthLimitedFields ==> (r <==> |value| <= MaxFieldLength)
    ensures field !in LengthLimitedFields ==> r
  {
    field !in LengthLimitedFields || 0 <= |value| <= MaxFieldLength
  }

  // ---------------------------------------------------------------------------
  // domains and customDimensions
  // ---------------------------------------------------------------------------

  /** One row of a multi-tuple setting, by key. */
  type Tuple = map<string, string>

  /** The PHP values such a setting can be handed. */
  datatype SettingValue = NullValue | BoolValue(b: bool) | StringValue(s: string) | ListValue(items: seq<Tuple>)

  /** PHP `empty()` on a setting value. */
  predicate EmptyValue(v: SettingValue) {
    match v
    case NullValue => true
    case BoolValue(b) => !b
    case StringValue(s) => PhpEmpty(s)
    case ListValue(items) => items == []
  }

  const NotAnArray := "Value needs to be an array"

  /** The `validate` closure of both list settings: empty values pass, other
      non-arrays fail. */
  function ValidateList(v: SettingValue): (r: Outcome)
    ensures r == Pass <==> EmptyValue(v) || v.ListValue?
    ensures r != Pass ==> r == Fail(NotAnArray)
  {
    if EmptyValue(v) then Pass
    else if !v.ListValue? then Fail(NotAnArray)
    else Pass
  }

  /** `!empty($row[$key])`: the key is present with a non-empty value. */
  predicate Filled(t: Tuple, key: string) {
    key in t && !PhpEmpty(t[key])
  }

  /** Every listed key is filled. */
  predicate AllFilled(t: Tuple, keys: seq<string>) {
    forall k :: 0 <= k < |keys| ==> Filled(t, keys[k])
  }

  const DomainKeys: seq<string> := ["domain"]
  const DimensionKeys: seq<string> := ["index", "value"]

  /** The rows kept by a `transform` closure, in order. */
  function KeptRows(items: seq<Tuple>, keys: seq<string>): (r: seq<Tuple>)
    ensures |r| <= |items|
    ensures forall t :: t in r <==> t in items && AllFilled(t, keys)
  {
    if |items| == 0 then []
    else
      var front := KeptRows(items[..|items| - 1], keys);
      var last := items[|items| - 1];
      assert forall t :: t in items <==> t in items[..|items| - 1] || t == last;
      if AllFilled(last, keys) then front + [last] else front
  }

  /** One more row is kept exactly when all its keys are filled. */
  lemma KeptRowsStep(items: seq<Tuple>, i: nat, keys: seq<string>)
    requires i < |items|
    ensures KeptRows(items[..i + 1], keys)
      == if AllFilled(items[i], keys) then KeptRows(items[..i], keys) + [items[i]] else KeptRows(items[..i], keys)
  {
    assert items[..i + 1][..i] == items[..i];
  }

  /** What a `transform` closure returns. */
  function Transformed(v: SettingValue, keys: seq<string>): seq<Tuple> {
    if EmptyValue(v) || !v.ListValue? then [] else KeptRows(v.items, keys)
  }

  /** The `transform` closure shared by the two list settings (the domains
      setting with `DomainKeys`, the custom dimensions with `DimensionKeys`):
      empty and non-array values become an empty list; otherwise the rows with
      every key filled are appended in order. */
  method Transform(v: SettingValue, keys: seq<string>) returns (withValues: seq<Tuple>)
    ensures withValues == Transformed(v, keys)
  {
    if EmptyValue(v) || !v.ListValue? {
      return [];
    }
    withValues := [];
    var items := v.items;
    var i := 0;
    while i < |items|
      invariant 0 <= i <= |items|
      invariant withValues == KeptRows(items[..i], keys)
    {
      KeptRowsStep(items, i, keys);
      if AllFilled(items[i], keys) {
        withValues := withValues + [items[i]];
      }
      i := i + 1;
    }
    assert items[..|items|] == items;
  }

  /** The transform never lengthens a list, and keeps exactly the filled
      rows. */
  lemma TransformShape(v: SettingValue, keys: seq<string>)
    ensures var r := Transformed(v, keys);
      && (v.ListValue? ==> |r| <= |v.items|)
      && (!v.ListValue? ==> r == [])
      && (v.ListValue? ==> forall t :: t in r <==> t in v.items && AllFilled(t, keys))
  {
  }

  /** Filtering kept rows again keeps them all. */
  lemma {:induction false} KeptRowsIdempotent(items: seq<Tuple>, keys: seq<string>)
    ensures KeptRows(KeptRows(items, keys), keys) == KeptRows(items, keys)
  {
    if |items| > 0 {
      var front := items[..|items| - 1];
      KeptRowsIdempotent(front, keys);
      var f := KeptRows(front, keys);
      var last := items[|items| - 1];
      if AllFilled(last, keys) {
        assert (f + [last])[..|f|] == f;
      }
    }
  }

  /** Transforming the transformed list gives it back. */
  lemma TransformIdempotent(v: SettingValue, keys: seq<string>)
    ensures Transformed(ListValue(Transformed(v, keys)), keys) == Transformed(v, keys)
  {
    if v.ListValue? && !EmptyValue(v) {
      KeptRowsIdempotent(v.items, keys);
    }
  }

  /** A domain row with an empty or missing domain is dropped, while a custom
      dimension needs both its index and its value. */
  lemma TransformKeys(t: Tuple)
    ensures AllFilled(t, DomainKeys) <==> Filled(t, "domain")
    ensures AllFilled(t, DimensionKeys) <==> Filled(t, "index") && Filled(t, "value")
  {
    assert DomainKeys[0] == "domain";
    assert DimensionKeys[0] == "index" && DimensionKeys[1] == "value";
  }
}

=== FILE: text.dfy ===
/** The PHP string primitives the modelled code relies on, written out over
    `seq<char>`: ASCII case maps, `trim`/`ltrim`/`rtrim`, `strpos`/`stripos`,
    `str_replace`, `explode`, `implode`, integer formatting, `is_numeric` on
    strings and `empty()` on strings. */
module Text {
  import opened Wrappers

  predicate IsUpper(c: char) { 'A' <= c <= 'Z' }
  predicate IsLower(c: char) { 'a' <= c <= 'z' }
  predicate IsDigit(c: char) { '0' <= c <= '9' }
  predicate IsAlpha(c: char) { IsUpper(c) || IsLower(c) }

  /** PHP `empty()` on a string: the empty string and "0" are empty. */
  predicate PhpEmpty(s: string) { s == "" || s == "0" }

  predicate NoUpper(s: string) { forall i :: 0 <= i < |s| ==> !IsUpper(s[i]) }
  predicate AllDigits(s: string) { forall i :: 0 <= i < |s| ==> IsDigit(s[i]) }

  function LowerChar(c: char): (r: char)
    ensures !IsUpper(r)
    ensures IsUpper(c) ==> r as int == c as int + 32
    ensures !IsUpper(c) ==> r == c
  {
    if IsUpper(c) then (c as int + 32) as char else c
  }

  function UpperChar(c: char): (r: char)
    ensures !IsLower(r)
    ensures IsLower(c) ==> r as int == c as int - 32
    ensures !IsLower(c) ==> r == c
  {
    if IsLower(c) then (c as int - 32) as char else c
  }

  /** `strtolower` on ASCII. */
  function ToLower(s: string): (r: string)
    ensures |r| == |s| && NoUpper(r)
    ensures forall i :: 0 <= i < |s| ==> r[i] == LowerChar(s[i])
  {
    seq(|s|, i requires 0 <= i < |s| => LowerChar(s[i]))
  }

  /** `strtoupper` on ASCII. */
  function ToUpper(s: string): (r: string)
    ensures |r| == |s|
    ensures forall i :: 0 <= i < |s| ==> r[i] == UpperChar(s[i])
  {
    seq(|s|, i requires 0 <= i < |s| => UpperChar(s[i]))
  }

  /** `lcfirst`. */
  function LcFirst(s: string): (r: string)
    ensures |r| == |s|
    ensures |s| > 0 ==> r[0] == LowerChar(s[0]) && r[1..] == s[1..]
  {
    if |s| == 0 then s else [LowerChar(s[0])] + s[1..]
  }

  /** The characters PHP's `trim` strips by default: " \t\n\r\0\x0B". */
  predicate IsTrimChar(c: char) {
    c == ' ' || c == '\t' || c == '\n' || c == '\r' || c == '\0' || c as int == 11
  }

  /** `ltrim($s, $chars)` with the strip set given as a predicate. */
  function TrimLeftBy(s: string, strip: char -> bool): (r: string)
    ensures |r| <= |s| && r == s[|s| - |r|..]
    ensures |r| > 0 ==> !strip(r[0])
    ensures forall i :: 0 <= i < |s| - |r| ==> strip(s[i])
    decreases |s|
  {
    if |s| > 0 && strip(s[0]) then TrimLeftBy(s[1..], strip) else s
  }

  /** `rtrim($s, $chars)` with the strip set given as a predicate. */
  function TrimRightBy(s: string, strip: char -> bool): (r: string)
    ensures |r| <= |s| && r == s[..|r|]
    ensures |r| > 0 ==> !strip(r[|r| - 1])
    ensures forall i :: |r| <= i < |s| ==> strip(s[i])
    decreases |s|
  {
    if |s| > 0 && strip(s[|s| - 1]) then TrimRightBy(s[..|s| - 1], strip) else s
  }

  /** Nothing is trimmed from a string that starts with a kept character. */
  lemma TrimLeftKeeps(s: string, strip: char -> bool)
    requires |s| > 0 && !strip(s[0])
    ensures TrimLeftBy(s, strip) == s
  {
  }

  /** Nothing is trimmed from a string that ends with a kept character. */
  lemma TrimRightKeeps(s: string, strip: char -> bool)
    requires |s| > 0 && !strip(s[|s| - 1])
    ensures TrimRightBy(s, strip) == s
  {
  }

  /** A stripped first character is dropped and trimming goes on. */
  lemma TrimLeftDrops(s: string, strip: char -> bool)
    requires |s| > 0 && strip(s[0])
    ensures TrimLeftBy(s, strip) == TrimLeftBy(s[1..], strip)
  {
  }

  /** A stripped last character is dropped and trimming goes on. */
  lemma TrimRightDrops(s: string, strip: char -> bool)
    requires |s| > 0 && strip(s[|s| - 1])
    ensures TrimRightBy(s, strip) == TrimRightBy(s[..|s| - 1], strip)
  {
  }

  /** PHP `trim($s)`. */
  function Trim(s: string): (r: string)
    ensures |r| <= |s|
    ensures |r| > 0 ==> !IsTrimChar(r[0]) && !IsTrimChar(r[|r| - 1])
  {
    TrimRightBy(TrimLeftBy(s, IsTrimChar), IsTrimChar)
  }

  /** `trim` keeps a last character that is not white space. */
  lemma TrimKeepsLast(s: string)
    requires |s| > 0 && !IsTrimChar(s[|s| - 1])
    ensures |Trim(s)| > 0 && Trim(s)[|Trim(s)| - 1] == s[|s| - 1]
  {
    var t := TrimLeftBy(s, IsTrimChar);
    assert |t| > 0;
    assert t[|t| - 1] == s[|s| - 1];
    var r := TrimRightBy(t, IsTrimChar);
    assert |r| == |t|;
  }

  /** A string that neither starts nor ends with white space is its own
      `trim`. */
  lemma TrimKeeps(s: string)
    requires |s| > 0 && !IsTrimChar(s[0]) && !IsTrimChar(s[|s| - 1])
    ensures Trim(s) == s
  {
    TrimLeftKeeps(s, IsTrimChar);
    TrimRightKeeps(s, IsTrimChar);
  }

  predicate IsSlash(c: char) { c == '/' }
  predicate IsUnderscore(c: char) { c == '_' }

  predicate StartsWith(s: string, prefix: string) {
    |prefix| <= |s| && s[..|prefix|] == prefix
  }

  predicate OccursAt(s: string, needle: string, j: int) {
    0 <= j && j + |needle| <= |s| && s[j..j + |needle|] == needle
  }

  /** `strpos($s, $needle, $from)`: the first occurrence at or after `from`. */
  function IndexFrom(s: string, needle: string, from: nat): (r: Option<nat>)
    ensures r.Some? ==> from <= r.value && OccursAt(s, needle, r.value)
    decreases |s| - from
  {
    if from + |needle| > |s| then None
    else if s[from..from + |needle|] == needle then Some(from)
    else IndexFrom(s, needle, from + 1)
  }

  /** The occurrence found is the first at or after `from`, and none is
      found only when there is none. */
  lemma {:induction false} IndexFromFirst(s: string, needle: string, from: nat)
    ensures var r := IndexFrom(s, needle, from);
      && (r.Some? ==> forall j :: from <= j < r.value ==> !OccursAt(s, needle, j))
      && (r.None? ==> forall j :: from <= j ==> !OccursAt(s, needle, j))
    decreases |s| - from
  {
    if from + |needle| <= |s| && s[from..from + |needle|] != needle {
      IndexFromFirst(s, needle, from + 1);
    }
  }

  /** `strpos($s, $needle)`. */
  function IndexOf(s: string, needle: string): Option<nat> {
    IndexFrom(s, needle, 0)
  }

  predicate Contains(s: string, needle: string) {
    IndexOf(s, needle).Some?
  }

  /** `stripos($s, $needle)`: ASCII case-insensitive search. */
  function IndexOfCI(s: string, needle: string): (r: Option<nat>)
    ensures r.Some? ==> r.value + |needle| <= |s|
  {
    IndexOf(ToLower(s), ToLower(needle))
  }

  /** `stripos($s, $needle) !== false`. */
  predicate ContainsCI(s: string, needle: string) {
    IndexOfCI(s, needle).Some?
  }

  /** A needle that occurs (ignoring case) at `j` is found, at `j` or
      before. */
  lemma FoundAt(s: string, needle: string, j: nat)
    requires OccursAt(ToLower(s), ToLower(needle), j)
    ensures ContainsCI(s, needle) && IndexOfCI(s, needle).value <= j
  {
    IndexFromFirst(ToLower(s), ToLower(needle), 0);
  }

  /** A needle absent (ignoring case) from a string is absent from every
      slice of it. */
  lemma AbsentFromSlice(s: string, needle: string, a: nat, b: nat)
    requires a <= b <= |s|
    requires !ContainsCI(s, needle)
    ensures !ContainsCI(s[a..b], needle)
  {
    var ls, ln, lt := ToLower(s), ToLower(needle), ToLower(s[a..b]);
    IndexFromFirst(ls, ln, 0);
    forall j | OccursAt(lt, ln, j) ensures OccursAt(ls, ln, a + j) {
      assert lt[j..j + |ln|] == ls[a + j..a + j + |ln|];
    }
  }

  /** Cutting a string before the first occurrence of a non-empty needle
      leaves no occurrence in what is kept. */
  lemma AbsentBeforeFirst(s: string, needle: string, p: nat, k: nat)
    requires |needle| > 0
    requires IndexOfCI(s, needle) == Some(p)
    requires k <= p
    ensures !ContainsCI(s[..k], needle)
  {
    var ls, ln, lt := ToLower(s), ToLower(needle), ToLower(s[..k]);
    IndexFromFirst(ls, ln, 0);
    forall j | OccursAt(lt, ln, j) ensures OccursAt(ls, ln, j) && j < p {
      assert lt[j..j + |ln|] == ls[j..j + |ln|];
    }
  }

  /** A needle holding a character (ignoring case) that the string lacks
      does not occur in it. */
  lemma AbsentByChar(s: string, needle: string, c: char)
    requires c in ToLower(needle) && c !in ToLower(s)
    ensures !ContainsCI(s, needle)
  {
    var ls, ln := ToLower(s), ToLower(needle);
    var k :| 0 <= k < |ln| && ln[k] == c;
    CharOfOccurrence(ls, ln, k);
  }

  /** Where a needle occurs, each of its characters is in the string. */
  lemma CharOfOccurrence(s: string, needle: string, k: nat)
    requires k < |needle|
    ensures forall j :: OccursAt(s, needle, j) ==> needle[k] in s
  {
    forall j | OccursAt(s, needle, j) ensures needle[k] in s {
      assert s[j..j + |needle|][k] == s[j + k];
    }
  }

  lemma ToLowerConcat(a: string, b: string)
    ensures ToLower(a + b) == ToLower(a) + ToLower(b)
  {
  }

  /** A needle placed between two strings occurs right after the first. */
  lemma OccursInMiddle(a: string, needle: string, b: string)
    ensures OccursAt(a + needle + b, needle, |a|)
  {
    assert (a + needle + b)[|a|..|a| + |needle|] == needle;
  }

  /** The first occurrence, ignoring case, is at `p` when the needle occurs
      there and its `k`-th character appears nowhere before where it would
      have to be for an earlier occurrence. */
  lemma FirstOccurrenceCI(s: string, needle: string, p: nat, k: nat)
    requires OccursAt(ToLower(s), ToLower(needle), p)
    requires k < |needle| && p + k <= |s| && ToLower(needle)[k] !in ToLower(s)[..p + k]
    ensures IndexOfCI(s, needle) == Some(p)
  {
    var ls, ln := ToLower(s), ToLower(needle);
    IndexFromFirst(ls, ln, 0);
    forall j | 0 <= j < p ensures !OccursAt(ls, ln, j) {
      assert ls[..p + k][j + k] == ls[j + k];
    }
  }

  /** `strrpos($s, $c)` for a one-character needle. */
  function LastIndexOfChar(s: string, c: char): (r: Option<nat>)
    ensures r.Some? ==> r.value < |s| && s[r.value] == c
    ensures r.Some? ==> forall j :: r.value < j < |s| ==> s[j] != c
    ensures r.None? <==> c !in s
  {
    if |s| == 0 then None
    else if s[|s| - 1] == c then Some(|s| - 1)
    else LastIndexOfChar(s[..|s| - 1], c)
  }

  /** `str_replace($needle, $repl, $s)`: leftmost, non-overlapping; an empty
      needle leaves the subject unchanged. */
  function ReplaceAll(s: string, needle: string, repl: string): string
    decreases |s|
  {
    if |needle| == 0 || |s| < |needle| then s
    else if s[..|needle|] == needle then repl + ReplaceAll(s[|needle|..], needle, repl)
    else [s[0]] + ReplaceAll(s[1..], needle, repl)
  }

  /** A needle whose first character does not occur is never replaced. */
  lemma {:induction false} ReplaceAllAbsent(s: string, needle: string, repl: string)
    requires |needle| > 0 && needle[0] !in s
    ensures ReplaceAll(s, needle, repl) == s
    decreases |s|
  {
    if |s| >= |needle| {
      assert s[..|needle|][0] == s[0];
      assert forall c :: c in s[1..] ==> c in s;
      ReplaceAllAbsent(s[1..], needle, repl);
      assert [s[0]] + s[1..] == s;
    }
  }

  /** `explode($sep, $s)` for a one-character separator. */
  function Split(s: string, sep: char): (r: seq<string>)
    ensures |r| >= 1
    ensures forall k :: 0 <= k < |r| ==> sep !in r[k]
    decreases |s|
  {
    if |s| == 0 then [""]
    else
      var rest := Split(s[1..], sep);
      if s[0] == sep then [""] + rest else [[s[0]] + rest[0]] + rest[1..]
  }

  /** Without the separator the text stays in one piece. */
  lemma {:induction false} SplitWithoutSep(s: string, sep: char)
    requires sep !in s
    ensures Split(s, sep) == [s]
    decreases |s|
  {
    if |s| > 0 {
      assert forall c :: c in s[1..] ==> c in s;
      SplitWithoutSep(s[1..], sep);
      assert [s[0]] + s[1..] == s;
    }
  }

  /** `implode($sep, $parts)`. */
  function Join(sep: string, parts: seq<string>): string {
    if |parts| == 0 then ""
    else if |parts| == 1 then parts[0]
    else parts[0] + sep + Join(sep, parts[1..])
  }

  function Repeat(s: string, n: nat): (r: string)
    ensures |r| == n * |s|
  {
    if n == 0 then "" else s + Repeat(s, n - 1)
  }

  /** Appending one more copy at the end is the same as repeating once more. */
  lemma {:induction false} RepeatSnoc(s: string, n: nat)
    ensures Repeat(s, n) + s == Repeat(s, n + 1)
  {
    if n > 0 {
      RepeatSnoc(s, n - 1);
      assert Repeat(s, n) + s == s + (Repeat(s, n - 1) + s);
    }
  }

  function DigitChar(d: nat): (c: char)
    requires d < 10
    ensures IsDigit(c)
  {
    ('0' as int + d) as char
  }

  /** Decimal rendering of a natural number (PHP's int-to-string conversion). */
  function NatToString(n: nat): (r: string)
    ensures |r| > 0 && AllDigits(r)
  {
    if n < 10 then [DigitChar(n)] else NatToString(n / 10) + [DigitChar(n % 10)]
  }

  function IntToString(i: int): (r: string)
    ensures |r| > 0
  {
    if i < 0 then "-" + NatToString(-i) else NatToString(i)
  }

  /** The whitespace PHP allows around a numeric string: " \t\n\r\v\f". */
  predicate IsNumericSpace(c: char) {
    c == ' ' || c == '\t' || c == '\n' || c == '\r' || c as int == 11 || c as int == 12
  }

  /** A digit run with at most one '.', holding at least one digit. */
  predicate IsDecimalBody(m: string) {
    match IndexOf(m, ".")
    case None => |m| > 0 && AllDigits(m)
    case Some(d) => |m| > 1 && AllDigits(m[..d]) && AllDigits(m[d + 1..])
  }

  function IndexOfExponent(s: string, from: nat): (r: Option<nat>)
    ensures r.Some? ==> from <= r.value < |s| && (s[r.value] == 'e' || s[r.value] == 'E')
    decreases |s| - from
  {
    if from >= |s| then None
    else if s[from] == 'e' || s[from] == 'E' then Some(from)
    else IndexOfExponent(s, from + 1)
  }

  function DropSign(s: string): string {
    if |s| > 0 && (s[0] == '+' || s[0] == '-') then s[1..] else s
  }

  /** PHP 8 `is_numeric` on a string: optional surrounding whitespace, an
      optional sign, a decimal mantissa and an optional exponent. */
  predicate IsNumeric(s: string) {
    var u := DropSign(TrimRightBy(TrimLeftBy(s, IsNumericSpace), IsNumericSpace));
    match IndexOfExponent(u, 0)
    case None => IsDecimalBody(u)
    case Some(e) =>
      var exp := DropSign(u[e + 1..]);
      IsDecimalBody(u[..e]) && |exp| > 0 && AllDigits(exp)
  }
}

=== FILE: tour.dfy ===
/** The API of the Tour plugin (app/plugins/Tour/API.php): listing the
    onboarding challenges, skipping one, and the current engagement level.
    The super-user check is a parameter; a challenge is reduced to what the
    API reads from it, and skipping sets its skipped flag. */
module Tour {
  import opened Wrappers

  const AlreadyCompleted := "Challenge already completed"
  const NotFound := "Challenge not found"

  /** What an API call ends in: a value, the access check's exception, or
      another exception with its message. */
  datatype ApiResult<T> = Done(value: T) | NoAccess | Thrown(message: string)

  datatype Challenge = Challenge(id: string, name: string, description: string,
                                 completed: bool, skipped: bool, url: string)

  /** One entry of `getChallenges`. */
  datatype ChallengeInfo = ChallengeInfo(id: string, name: string, description: string,
                                         isCompleted: bool, isSkipped: bool, url: string)

  function Describe(c: Challenge): (r: ChallengeInfo)
    ensures r.id == c.id && r.name == c.name && r.description == c.description
    ensures r.isCompleted == c.completed && r.isSkipped == c.skipped && r.url == c.url
  {
    ChallengeInfo(c.id, c.name, c.description, c.completed, c.skipped, c.url)
  }

  /** The position of the first challenge with exactly this id. */
  function FirstWithId(cs: seq<Challenge>, id: string): (r: Option<nat>)
    ensures r.Some? ==> r.value < |cs| && cs[r.value].id == id
    ensures r.Some? ==> forall j :: 0 <= j < r.value ==> cs[j].id != id
    ensures r.None? <==> forall j :: 0 <= j < |cs| ==> cs[j].id != id
  {
    if |cs| == 0 then None
    else if cs[0].id == id then Some(0)
    else match FirstWithId(cs[1..], id)
      case None => None
      case Some(k) => Some(k + 1)
  }

  /** The engagement levels, reduced to the six values the API reports. */
  datatype Levels = Levels(currentDescription: string, currentLevel: int, currentLevelName: string,
                           nextLevelName: string, numLevels: int, challengesNeededToNextLevel: int)

  /** What `getLevel` returns. */
  datatype LevelInfo = LevelInfo(description: string, currentLevel: int, currentLevelName: string,
                                 nextLevelName: string, numLevelsTotal: int, challengesNeededForNextLevel: int)

  class TourApi {
    var challenges: seq<Challenge>
    const levels: Levels

    constructor (challenges: seq<Challenge>, levels: Levels)
      ensures this.challenges == challenges && this.levels == levels
    {
      this.challenges := challenges;
      this.levels := levels;
    }

    /** `getChallenges`: one entry per challenge, in order, after the access
        check. */
    method GetChallenges(isSuperUser: bool) returns (r: ApiResult<seq<ChallengeInfo>>)
      ensures !isSuperUser ==> r == NoAccess
      ensures isSuperUser ==> r.Done? && |r.value| == |challenges|
      ensures isSuperUser ==> forall i :: 0 <= i < |challenges| ==> r.value[i] == Describe(challenges[i])
    {
      if !isSuperUser {
        return NoAccess;
      }
      var infos: seq<ChallengeInfo> := [];
      var i := 0;
      while i < |challenges|
        invariant 0 <= i <= |challenges|
        invariant |infos| == i
        invariant forall j :: 0 <= j < i ==> infos[j] == Describe(challenges[j])
      {
        var c := challenges[i];
        infos := infos + [ChallengeInfo(c.id, c.name, c.description, c.completed, c.skipped, c.url)];
        i := i + 1;
      }
      return Done(infos);
    }

    /** `skipChallenge`: only the first challenge with the id is looked at;
        it is skipped unless it is completed already. */
    method SkipChallenge(isSuperUser: bool, id: string) returns (r: ApiResult<bool>)
      modifies this
      ensures !isSuperUser ==> r == NoAccess && challenges == old(challenges)
      ensures isSuperUser && FirstWithId(old(challenges), id).None? ==>
        r == Thrown(NotFound) && challenges == old(challenges)
      ensures isSuperUser && FirstWithId(old(challenges), id).Some? ==>
        var k := FirstWithId(old(challenges), id).value;
        if old(challenges)[k].completed then
          r == Thrown(AlreadyCompleted) && challenges == old(challenges)
        else
          r == Done(true) && challenges == old(challenges)[k := old(challenges)[k].(skipped := true)]
    {
      if !isSuperUser {
        return NoAccess;
      }
      var i := 0;
      while i < |challenges|
        invariant 0 <= i <= |challenges|
        invariant challenges == old(challenges)
        invariant forall j :: 0 <= j < i ==> challenges[j].id != id
      {
        if challenges[i].id == id {
          assert FirstWithId(challenges, id) == Some(i);
          if !challenges[i].completed {
            challenges := challenges[i := challenges[i].(skipped := true)];
            return Done(true);
          }
          return Thrown(AlreadyCompleted);
        }
        i := i + 1;
      }
      return Thrown(NotFound);
    }

    /** `getLevel`: the six level values, after the access check. */
    method GetLevel(isSuperUser: bool) returns (r: ApiResult<LevelInfo>)
      ensures !isSuperUser ==> r == NoAccess
      ensures isSuperUser ==> r.Done?
      ensures isSuperUser ==>
        && r.value.description == levels.currentDescription
        && r.value.currentLevel == levels.currentLevel
        && r.value.currentLevelName == levels.currentLevelName
        && r.value.nextLevelName == levels.nextLevelName
        && r.value.numLevelsTotal == levels.numLevels
        && r.value.challengesNeededForNextLevel == levels.challengesNeededToNextLevel
    {
      if !isSuperUser {
        return NoAccess;
      }
      return Done(LevelInfo(levels.currentDescription, levels.currentLevel, levels.currentLevelName,
                            levels.nextLevelName, levels.numLevels, levels.challengesNeededToNextLevel));
    }
  }

  /** Skipping changes at most one challenge, and only its skipped flag;
      a second skip of the same id succeeds again without further change. */
  method SkipTwice(api: TourApi, id: string) returns (first: ApiResult<bool>, second: ApiResult<bool>)
    modifies api
    ensures first == Done(true) ==> second == Done(true)
    ensures first == Done(true) ==> |api.challenges| == |old(api.challenges)|
    ensures first == Done(true) ==> forall j :: 0 <= j < |api.challenges| ==>
      api.challenges[j].id == old(api.challenges)[j].id && api.challenges[j].completed == old(api.challenges)[j].completed
  {
    first := api.SkipChallenge(true, id);
    second := api.SkipChallenge(true, id);
    if first == Done(true) {
      var k := FirstWithId(old(api.challenges), id).value;
      FirstWithIdAfterSkip(old(api.challenges), id, k);
    }
  }

  /** Setting the skipped flag keeps every id, so the first match stays put. */
  lemma FirstWithIdAfterSkip(cs: seq<Challenge>, id: string, k: nat)
    requires FirstWithId(cs, id) == Some(k)
    ensures FirstWithId(cs[k := cs[k].(skipped := true)], id) == Some(k)
  {
    var ds := cs[k := cs[k].(skipped := true)];
    assert forall j :: 0 <= j < |ds| ==> ds[j].id == cs[j].id;
    assert ds[k].id == id;
    var m := FirstWithId(ds, id).value;
    assert m <= k && k <= m;
  }
}

=== FILE: wrappers.dfy ===
/** Failure-carrying values used wherever the PHP code returns `false`/`null`
    or throws: an `Option` for "maybe absent", a `Result` for "a value or an
    error message", an `Outcome` for "returned normally or threw". */
module Wrappers {

  datatype Option<+T> = None | Some(value: T) {
    function GetOr(default: T): T {
      match this
      case Some(v) => v
      case None => default
    }
  }

  datatype Result<+T> = Ok(value: T) | Err(message: string)

  datatype Outcome = Pass | Fail(message: string)
}
